=== FILE: README.md ===
# think-alike-web client core in Dafny

think-alike-web is the browser client of a commit-reveal guessing game. Each round, players
see an adjective and a list of nouns. They secretly commit to a noun by sending a hash,
reveal the choice and nonce when asked, and are paid according to how many others chose
the same noun. This project models the client's core as pure Dafny functions and proves
what they do:

- **Provider store** (`store.dfy`, module `Store`). The reducer's shallow merge of partial
  updates and its reset. The provider's one-second round timer and the notification and
  emote expiry sweeps. The mount, visibility and auto-join effects, and the
  `canCommit`/`canReveal` prompts. A handler or action returns its effects in source order
  (`Update`, `Send`, `OpenSocket`, `CloseSocket`, `Schedule`, `Rest`, `SaveSettings`,
  `ClearStorage`). `After` applies the updates and `Calls` lists the socket messages, so
  orderings such as "emit before store" can be checked.
- **Socket event handlers** (`events.dfy`, module `Events`) and **gameplay, room, auth,
  navigation, settings and notification actions** (`actions.dfy`, module `Actions`).
  These model `components/context/gameActions.ts`. An `Env` supplies `Date.now()`, the
  generated ids in call order, and the text `${number}` produces. The nonce and the digest
  function are parameters. An awaited REST call is an `Effect` at its place in the list,
  and its reply is an input (`Reply`).
- **Transport wrapper** (`transport.dfy`, module `Transport`). This is `lib/socket.ts`: the
  durable handler queue, the live registry that the wrapper's own `connect` listener
  rebuilds, the connection flags, the `emit` guard and the typed wrappers. The model also
  tracks which of the wrapper's own listeners are still attached, because `off(event)`
  without a handler detaches them too. A `Step` is one socket event or wrapper call, and
  `Run` applies a sequence of them.
- **Commit codec** (`codec.dfy`, module `Codec`). The commit payload string, and the
  lowercase hex rendering of the digest bytes with its decoding.
- **Bounded transient lists** (`transient.dfy`, module `Transient`). `limitArrayLength`,
  the notification and emote managers, and their auto-removal timers.
- **State records** (`types.dfy`, module `Types`): the records and their initial values.
- **Older handler set** (`legacy.dfy`, module `Legacy`): `components/context/socketHandlers.ts`.
- **Simple store** (`simple_store.dfy`, module `SimpleStore`): `components/GameContext.tsx`,
  the store the app page mounts.
- **Class-name helpers**. `clsx`, `twMerge` and `cn` are in `classnames.dfy` (module
  `ClassNames`); `cva` is in `variants.dfy` (module `Variants`).
- **Support modules**. JavaScript string and number primitives (`String(n)`, `parseInt`,
  `split(" ")`, `join(" ")`, `trim()`) are in `jstext.dfy` (module `JsText`). Generic
  sequence lemmas are in `seqs.dfy` (module `Seqs`), and `Option` is in `wrappers.dfy`.

The handlers in `gameActions.ts` call `socket` in two places, but their factory never binds
that name. Both places are modelled twice: once as written (the handler throws), and once
as evidently intended (the message goes out). The provider's effect cleanup calls
`socket.off('connect')` and `socket.off('disconnect')` without handlers, which also detaches
the transport wrapper's own listeners. See "Findings".

Behaviour of the code worth noting:
- `commitChoice` emits the commitment before it stores the commit state.
- `deal` keeps the previous results.
- `request_reveal` has no `hasRevealed` guard, so a repeated request reveals again.
- `next_round_info` never changes the phase.
- `disconnect` keeps the room and round and only posts a warning.

## Model

| member | source | states |
|---|---|---|
| Store.MergeLaws | components/context/GameContext.tsx:31-32 | `UPDATE_STATE` with an empty payload changes nothing. Merging the same payload twice equals merging it once. Two merges in a row equal one merge of the combined payload, where the later keys win. |
| Store.MergeReplacesExactlySupplied | components/context/GameContext.tsx:31-32 | `{...state, ...payload}` gives every key the payload supplies its supplied value and keeps every other field. Any state with that property is the merge. |
| Store.GameReducer | components/context/GameContext.tsx:29-47 | `UPDATE_STATE` gives each supplied key its value and keeps every other field. `SET_END_OF_ROUND_ACTION` changes only `endOfRoundAction`. `RESET_STATE` yields the provider's initial state with the stored settings. |
| Store.ProviderInitialState | components/context/GameContext.tsx:57-61 | The initial state differs from `createInitialState()` only in its settings, and `endOfRoundAction` is `'continue'`. Each stored settings key takes its stored value, and each key never stored keeps its default: sound, haptics, timers and spectators on, auto-advance and data saver off. |
| Store.ResetForgetsPrior | components/context/GameContext.tsx:34-39 | `RESET_STATE` gives the same state from any two prior states. The result has `endOfRoundAction = 'continue'`. With nothing stored, it is exactly the initial state. |
| Store.RunMatchesEffects | lib/socket.ts:215-229 | Running effects that do not open or close the socket leaves the merged state. A connected socket puts exactly the listed messages on the wire, in order. A disconnected socket puts nothing on the wire. |
| Store.TimerTick | components/context/GameContext.tsx:195-214 | Without a round, or with a zero deadline, a tick does nothing. With a non-zero deadline, `timeLeft` becomes `max(0, selectionDeadline - now)`. No other round field changes, and nothing but `round` changes in the state. |
| Store.TimerNeverChangesPhase | components/context/GameContext.tsx:195-214 | A timer tick never moves the round phase and sends nothing, whatever the clock says. |
| Store.NotificationSweep | components/context/GameContext.tsx:217-230 | After the sweep, the notifications are exactly those with `now - timestamp < 10000`, in their old order. Nothing else changes. |
| Store.EmoteSweep | components/context/GameContext.tsx:233-246 | After the sweep, the emotes are exactly those with `now - timestamp < 5000`, in their old order. Nothing else changes. |
| Store.SweepIdempotent | components/context/GameContext.tsx:216-246 | A second sweep at the same instant changes nothing. |
| Store.OnMount | components/context/GameContext.tsx:162-172 | On mount the provider connects only when not connected. It flags `isConnecting` before it opens the socket. |
| Store.OnVisibilityChange | components/context/GameContext.tsx:182-192 | The socket is opened exactly when the page is visible and the socket is down. |
| Store.AutoJoinPlayer | components/context/GameContext.tsx:175-179 | `joinPlayer(parseInt(id))` is sent exactly when the player is authenticated, the socket is connected and the id is non-empty. The state does not change. |
| Store.ReconnectAtMostOneAttempt | components/context/GameContext.tsx:183-188 | Once a visibility event has started an attempt, a second event before the socket answers starts no new attempt. |
| Store.CommitAndRevealExclusive | components/context/GameContext.tsx:328-329 | `canCommit` and `canReveal` are never both true. `canCommit` implies no commitment yet, and `canReveal` implies one. |
| Types.InitialPlayer | components/context/initialState.ts:3-10 | The initial player is unauthenticated, with empty id and name, balance 0, rating 1000 and 0 wins. |
| Types.InitialSettings | components/context/initialState.ts:12-19 | Sound, haptics, timers and spectators are on by default. Auto-advance and data saver are off. |
| Types.InitialCommitState | components/context/initialState.ts:21-27 | The initial commit state is all false and all null. |
| Types.InitialQueueState | components/context/initialState.ts:29-33 | The initial queue state is `{false, 0, 0}`. |
| Types.InitialState | components/context/initialState.ts:35-68 | The initial state is unauthenticated and in view `login`, with no room, round or results, empty lists and `isInRoom = false`. |
| Transient.LimitArrayLength | components/context/initialState.ts:75-77 | For `m >= 1` the result is the last `min(n, m)` elements. For `m = 0` it is the whole array, because `slice(-0)` is `slice(0)`. For negative `m` it drops the first `-m` elements. |
| Transient.CreateNotification | components/context/notificationManager.ts:4-12 | The notification carries the given message, severity (default `info`), id and time. |
| Transient.AddNotification | components/context/notificationManager.ts:14-22 | The result has length `min(n + 1, 10)`. Its last entry is the new notification. It is a suffix of `old ++ [new]`. |
| Transient.RemoveNotification | components/context/notificationManager.ts:24-29 | Every entry with the id is removed. Every other entry is kept as often as it occurs, in its old order. An absent id leaves the list unchanged. |
| Transient.RemoveNotificationIdempotent | components/context/notificationManager.ts:24-29 | Removing the same id twice is the same as removing it once. |
| Transient.RemoveNotificationKeepsOrder | components/context/notificationManager.ts:24-29 | The survivors keep their relative order. |
| Transient.SetupAutoRemoval | components/context/notificationManager.ts:31-38 | One 5000 ms timer is set, carrying the id it was given. `setupEmoteAutoRemoval` (components/context/emoteManager.ts:27-34) is the same function under another name. |
| Transient.AutoRemovalRemovesAdded | components/context/notificationManager.ts:14-38 | Adding a notification with a fresh id and then firing its timer removes exactly the new entry from the capped list. Firing again changes nothing. |
| Transient.CreateEmote | components/context/emoteManager.ts:4-14 | The emote carries the given player id, player name, emote, id and time. |
| Transient.AddEmote | components/context/emoteManager.ts:16-25 | The result has length `min(n + 1, 10)`. The new emote is last. The result is a suffix of `old ++ [new]`. |
| Transient.RemoveEmote | components/context/gameActions.ts:791-795 | The removal callback drops every emote with the id. Every other emote is kept as often as it occurs, in its old order. An id never stored leaves the list unchanged. |
| Transient.AddKeepsOrder | components/context/notificationManager.ts:20-21 | Both bounded appends return an order-preserving subsequence of `old ++ [new]`. |
| Transient.ExpireNotifications | components/context/GameContext.tsx:222 | The result holds every fresh notification as often as the input does, no stale one, in the input's order. |
| Transient.ExpireEmotes | components/context/GameContext.tsx:238 | The result holds every fresh emote as often as the input does, no stale one, in the input's order. |
| Transient.ExpiryOrderedAndIdempotent | components/context/GameContext.tsx:216-246 | Both expiry filters preserve order and are idempotent at a fixed `now`. |
| Transport.NewSocket | lib/socket.ts:49-56 | A new wrapper has no socket, no pending attempt and empty tables. |
| Transport.EventNameIdentifiesWrapper | lib/socket.ts:237-244 | Two wrapper messages share an event name exactly when they come from the same wrapper. |
| Transport.On | lib/socket.ts:58-75 | `on(e, h)` always appends `h` to the queue for `e`. It appends `h` to the live registry only when connected. Other events are untouched. |
| Transport.Off | lib/socket.ts:77-108 | `off(e, h)` removes only the first occurrence of `h` from both tables. `off(e)` removes `e` from both and, when there is a socket, detaches the wrapper's own listener for `e`. Other events are untouched. |
| Transport.RegisterQueuedHandlers | lib/socket.ts:110-131 | With a socket, the live registry afterwards lists exactly the queued handlers, and it has no empty entries. Without a socket, nothing changes. |
| Transport.Connect | lib/socket.ts:133-143 | `connect` is a no-op when connected or connecting. Otherwise it creates a socket with the wrapper's `connect`, `disconnect` and `connect_error` listeners and sets `isConnecting`. |
| Transport.OnSocketConnect | lib/socket.ts:145-153 | The socket's `connect` event brings the link up. While the wrapper's `connect` listener is attached, it also clears `isConnecting` and rebuilds the registry from the queue. Otherwise nothing else changes. |
| Transport.OnSocketDisconnect | lib/socket.ts:154-159 | The socket's `disconnect` event drops the link and keeps both tables. It clears `isConnecting` only while the wrapper's `disconnect` listener is attached. |
| Transport.OnSocketConnectError | lib/socket.ts:161-166 | `connect_error` clears only `isConnecting`, through the wrapper's listener. |
| Transport.Disconnect | lib/socket.ts:199-211 | `disconnect` empties the registry, keeps the queue, drops the socket and clears `isConnecting`. |
| Transport.Emit | lib/socket.ts:215-229 | `emit` returns false and sends nothing when disconnected. Otherwise it sends exactly the one message and returns true. |
| Transport.SyncedPreserved | lib/socket.ts:58-211 | Every wrapper operation keeps the invariant "while connected, the registry lists exactly the queued handlers". The socket's `connect` event keeps it while the wrapper's `connect` listener is attached. |
| Transport.ReconnectRestoresRegistry | lib/socket.ts:133-148 | After `connect()` and the socket's `connect` event, each event's live handlers are exactly its queued handlers, each registered once. |
| Transport.AutoReconnectRestoresRegistry | lib/socket.ts:145-159 | socket.io's own reconnection, a `disconnect` then a `connect` on the same socket, restores the registry and clears `isConnecting` while the wrapper's `connect` listener is attached. |
| Transport.DetachedConnectBreaksSync | lib/socket.ts:77-96 | After `off("connect")` on a live socket, a handler queued while the link is down is missing from the registry once the link comes back. |
| Transport.DetachedListenersStall | lib/socket.ts:133-159 | With `connect` and `disconnect` detached during an attempt, neither event clears `isConnecting`. After any sequence of socket `connect`/`disconnect` events and `on`, `off` or `connect()` calls, `connect()` is still a no-op. This lasts until a `connect_error` arrives or `disconnect()` is called. |
| Transport.StallPersists | lib/socket.ts:133-159 | A stalled socket (attempt flagged, `connect` and `disconnect` listeners gone) stays stalled through any of its own `connect`/`disconnect` events and any `on`, `off` or `connect()` call, and each such `connect()` is a no-op. |
| Transport.StallEnds | lib/socket.ts:161-211 | A stall ends when the wrapper's `connect_error` listener fires, or when `disconnect()` drops the socket so that the next `connect()` starts afresh with all three listeners. |
| Transport.HandlerCleanupKeepsListeners | lib/socket.ts:77-96 | `off(e, h)` keeps the wrapper's listeners. After it and any later `on`, the next `connect` event clears `isConnecting` and registers every queued handler. |
| Transport.ConnectIdempotent | lib/socket.ts:133-136 | A second `connect()` before the socket answers changes nothing. |
| Codec.CommitPayload | lib/socket.ts:259 | The payload is `String(playerId) ++ roundKey ++ String(choice) ++ nonce`. It is longer than the key and nonce together. |
| Codec.HexDigit | lib/socket.ts:264 | A digit value renders as a lowercase hex character with that value. |
| Codec.ToRadix16 | lib/socket.ts:264 | `toString(16)` of a byte has one character below 16 and two otherwise. |
| Codec.PadStart2 | lib/socket.ts:264 | `padStart(2, "0")` leaves a two-character string alone and left-pads a shorter one to length two. |
| Codec.ByteHex | lib/socket.ts:264 | Each digest byte becomes exactly two lowercase hex characters. |
| Codec.ByteHexValue | lib/socket.ts:264 | The two characters spell the byte's value in base 16. |
| Codec.HexEncode | lib/socket.ts:263-264 | The rendering is twice as long as the digest, and characters `2i` and `2i+1` are the two-character rendering of byte `i`. |
| Codec.HexEncodeLowerHex | lib/socket.ts:263-264 | Every character of the rendering is a lowercase hex digit. |
| Codec.HexRoundTrip | lib/socket.ts:263-264 | Decoding the rendered digest gives back the digest bytes. |
| Codec.CommitHash | lib/socket.ts:253-264 | The hash is the lowercase hex rendering of the digest of the payload, and it decodes back to that digest. |
| Codec.CommitHashShape | lib/socket.ts:262-264 | A 32-byte SHA-256 digest gives a 64-character hash. |
| Codec.PayloadCollision | lib/socket.ts:259 | The payload is not injective: player 1 with key "23" and player 12 with key "3" give the same payload. |
| JsText.Trim | components/context/gameActions.ts:20 | `trim()` is empty exactly when every character is white space. White space includes every Unicode space separator (category Zs), such as U+3000. |
| JsText.TrimStripsEnds | components/context/gameActions.ts:20 | `trim()` returns a slice of its input with only white space before and after it, and its own first and last characters are not white space. |
| JsText.TrimIdempotent | components/context/gameActions.ts:20 | Trimming a trimmed string changes nothing. |
| JsText.TrimUnicodeSpaces | components/context/gameActions.ts:20-22 | A name made only of Unicode space separators, such as U+3000, trims to nothing, so `register` refuses it. |
| JsText.ParseIntOfDecimal | components/context/gameActions.ts:481 | `parseInt` reads back the id that `toString()` wrote, for every integer. |
| JsText.SplitJoin | lib/utils.ts:27-29 | Splitting a space-joined list of space-free tokens gives the tokens back. |
| JsText.SplitConcat | lib/cva.ts:26 | Splitting `x + " " + y` splits the two sides separately. |
| Events.OnConnect | components/context/gameActions.ts:448-462 | Corrected `onConnect`. It clears `isConnecting` and posts "Connected to game server" as success. It sends `joinPlayer(parseInt(id))` exactly when the player is authenticated. |
| Events.OnConnectAsWritten | components/context/gameActions.ts:448-462 | As written, the state update happens. An authenticated player then hits the unbound `socket` and the handler throws. Nothing is sent. |
| Events.ReconnectCounterexample | components/context/gameActions.ts:460 | For a signed-in player with id "7", the code as written throws and sends nothing. The corrected handler sends `joinPlayer(7)`. |
| Events.OnDisconnect | components/context/gameActions.ts:464-473 | `isConnecting` is cleared and the warning "Disconnected from game server" is added to the old notifications through the bounded append. Nothing else changes: the room, round and membership stay. |
| Events.OnPlayerJoinedGame | components/context/gameActions.ts:476-487 | The player becomes authenticated. Its id is the decimal text of `player_id`, and it reads back as `player_id`. Its name and balance come from the event. Rating and wins are kept, and nothing else changes. |
| Events.OnRoomJoined | components/context/gameActions.ts:490-513 | The player is in the room. The room's id, tier, stake, entry fee, capacity, player count, phase and spectator count come from the event, with "unknown", "casual", 0, 0, 12, 0, "waiting" and 0 when a field is missing or falsy, and minimum 2 players. The prize pool is the pot or 0, and `capacity` the capacity or 12. The view is the spectator screen exactly when `spectators > 0`, and the waiting room otherwise. "Joined room successfully" is appended to the old notifications. Nothing else changes. |
| Events.OnPlayerJoinedRoom | components/context/gameActions.ts:515-527 | Only the room's player count and the notifications change. The notice "<name> is spectating" or "<name> joined the game" is appended to the old list through the bounded append. |
| Events.OnPlayerLeftRoom | components/context/gameActions.ts:529-541 | Only the room's player count and the notifications change. "<name> left the room" is appended to the old list through the bounded append. |
| Events.OnRoomLeft | components/context/gameActions.ts:543-570 | The client is out of the room, with room, round, current round and results null and the commit state initial. The queue state is initial and the prize pool 0. "Left the room" is appended to the old notifications. Nothing else changes. |
| Events.OnRemovedFromRoom | components/context/gameActions.ts:572-593 | The same room exit as `onRoomLeft`, but the queue state and prize pool are kept. The warning carries the message, or "Removed from room" when there is none, and is appended to the old notifications. Nothing else changes. |
| Events.OnDeal | components/context/gameActions.ts:596-643 | `round` gets the first generated id, the event's key, adjective and nouns, `timeLeft = max(0, deadline - now)`, no lock-ins, phase `selecting`, results not revealed, the deadline and the duration. `currentRound` is the same round under the second generated id. The commit state becomes initial, the view round-select and the prize pool the pot. The results are NOT cleared, and nothing else changes. |
| Events.OnCommitsUpdate | components/context/gameActions.ts:645-652 | Only `round.playersLockedIn` changes, and a null round stays null. |
| Events.OnCommitAck | components/context/gameActions.ts:654-663 | Only the notifications change: "Choice locked in" is appended as success through the bounded append. |
| Events.OnRequestReveal | components/context/gameActions.ts:665-689 | Corrected handler. The round enters `revealing` and the view becomes round-reveal. It sends `reveal(choice, nonce, data.round_key)` and sets `hasRevealed` exactly when the player has committed with a choice and a non-empty nonce. Otherwise it sends nothing. |
| Events.OnRequestRevealAsWritten | components/context/gameActions.ts:665-689 | As written, the round enters `revealing`, the reveal screen shows, and nothing else changes. It throws exactly when a reveal is due. Nothing is sent and the commit state is unchanged. |
| Events.RevealCounterexample | components/context/gameActions.ts:676 | With a commitment to choice 2 and nonce "n0", the code as written throws and reveals nothing. The corrected handler sends `reveal(2, "n0", "k")`. |
| Events.RepeatedRequestRevealsAgain | components/context/gameActions.ts:675-680 | After a reveal, a second `request_reveal` sends the reveal again, under the second event's key, because there is no `hasRevealed` guard. |
| Events.OnRevealAck | components/context/gameActions.ts:691-698 | `hasRevealed` becomes true. Commitment, choice, nonce and hash stay, and nothing else changes. |
| Events.OnRevealInvalid | components/context/gameActions.ts:700-712 | Like `onRevealAck`, plus the warning "Invalid reveal - random choice assigned" appended to the old notifications. Nothing else changes. |
| Events.Tallies | components/context/gameActions.ts:724-729 | There is one tally per noun, in noun order. Each carries the count at the same index, or `undefined` past the end of the counts. |
| Events.OnRoundResults | components/context/gameActions.ts:714-760 | The results carry the first generated id, the event's key, adjective, nouns and counts, `yourChoice = playerChoice = your_choice`, `winnings = payout` and one tally per noun; `isCorrect` holds iff `payout > 0`. The balance becomes `new_balance`, and the round completes with `resultsRevealed` (a null round stays null). A payout posts "You won <payout> coins!" as success, otherwise "Better luck next round" as info, under the second generated id. The view becomes the waiting room, and nothing else changes. Nothing is sent. |
| Events.OnNextRoundInfo | components/context/gameActions.ts:762-776 | Only the room counts and prize pool change. Round, phase, commit state and results stay. |
| Events.OnPlayerEmote | components/context/gameActions.ts:779-796 | The emote is added through the bounded append. Then one 5000 ms timer is scheduled, carrying a freshly generated id and the pre-emote snapshot. |
| Events.EmoteTimerRestoresSnapshot | components/context/gameActions.ts:780-795 | The timer's id was never stored, so its callback writes back the snapshot from before the emote. |
| Events.OnQueueUpdate | components/context/gameActions.ts:799-807 | The queue state becomes in-queue, at the given position, with an estimate of 30 s per place. Nothing else changes. |
| Events.OnGameState | components/context/gameActions.ts:810-836 | The view becomes spectator. The round gets a generated id, key "spectator", the event's adjective, nouns and lock-in count, `timeLeft = max(0, deadline - now)`, phase `selecting`, results not revealed, the deadline and no duration. Nothing else changes. |
| Events.OnError | components/context/gameActions.ts:839-859 | `error` and `game_error` store the message in `error` and append it to the old notifications as an error. Nothing else changes. |
| Actions.Register | components/context/gameActions.ts:19-65 | A blank name throws "Username cannot be empty" with no effect. Otherwise the REST call follows the registering flag. On success the player is exactly `{String(id), username, balance, rating, 0 wins, authenticated}`, the view is home, the error null, and the welcome notice is appended to the old notifications. Nothing else changes, and `joinPlayer(id)` is sent only if connected. On failure the error is stored, appended as a notice and rethrown, and nothing else changes. |
| Actions.Logout | components/context/gameActions.ts:67-107 | Afterwards the client is signed out: initial player, login view, no room, round or results, initial commit and queue state, and empty lists. Settings, stake and last choice are kept, and no field outside the reset list changes (loading and connecting flags, prize pool, capacity, last tier and stake included). `leaveRoom` is sent only when in a room, and it goes first. The socket closes next, and the state is cleared last. |
| Actions.LogoutIdempotent | components/context/gameActions.ts:67-107 | Logging out again after a logout changes nothing and sends nothing. |
| Actions.TierArgument | components/context/gameActions.ts:121-123 | The tier is passed on only when non-empty. |
| Actions.QuickJoin | components/context/gameActions.ts:112-157 | A signed-out player gets the "Must be logged in" error with no effect. On success the tier, stake and balance are stored, "Joining <tier> room..." is appended to the old notifications, nothing else but the loading flag and error changes, and `joinRoom(token, false)` is sent. On failure the error is stored, appended as a notice and rethrown, and nothing is sent. |
| Actions.JoinRoom | components/context/gameActions.ts:159-202 | The same as quick join for a named room, without the tier and stake. The notice is "Joining room...". |
| Actions.SpectateRoom | components/context/gameActions.ts:204-243 | The same as join, as a spectator: `joinRoom(token, true)`, with the balance left alone and "Joining room as spectator..." appended. |
| Actions.LeaveRoom | components/context/gameActions.ts:245-278 | Without a room it does nothing. Otherwise it calls leave-room at round end. On success it sends `leaveRoom` and appends "Left the room" to the old notifications. On failure it appends the error notice and does not rethrow. Only the notifications change. |
| Actions.SkipNext | components/context/gameActions.ts:280-307 | Without a room it throws "Not in a room". Otherwise it calls skip-next. On success it appends "Will skip the next round"; on failure it appends the error notice and rethrows. Only the notifications change, and nothing is sent. |
| Actions.CommitRefusal | components/context/gameActions.ts:312-323 | A commit is refused iff there is no round or round key, a commitment already exists, or the choice is outside `[0, nouns.length)`. With no round or round key, the reason given is "No active round". |
| Actions.CommitChoice | components/context/gameActions.ts:312-366 | A refused commit throws with no effect. Otherwise `commit(H(playerId, roundKey, choice, nonce))` is the first effect and the only message. Then the commit state becomes `{true, false, choice, nonce, hash}`, `lastChoice = choice`, and "Choice submitted: <noun>" is appended to the old notifications. Nothing else changes, and choice and nonce are never sent. |
| Actions.CommitThenReveal | components/context/gameActions.ts:325-353 | After a successful commit with a non-empty nonce, the reveal handler reveals exactly the committed choice and nonce. The server's recomputation from them matches the sent hash. |
| Actions.SendEmote | components/context/gameActions.ts:368-381 | In a room, `sendEmote(emote)` is sent and the state does not change. Otherwise nothing is sent and only the warning "Must be in a room to send emotes" is appended to the old notifications. |
| Actions.ToggleSpectatorQueue | components/context/gameActions.ts:383-386 | It sends `spectator_queue` with the negation of `isInQueue`, and the state does not change. |
| Actions.SetCurrentView | components/context/gameActions.ts:391-396 | The view becomes the target, and the previous view becomes the old view. |
| Actions.GoBack | components/context/gameActions.ts:398-405 | With a previous view, it returns to it and clears it. Otherwise it does nothing. |
| Actions.NavigateThenBack | components/context/gameActions.ts:391-405 | Navigating and then going back restores the view, and a second back does nothing. |
| Actions.WithSetting | components/context/gameActions.ts:411-414 | Exactly the named setting takes the new value. |
| Actions.UpdateSetting | components/context/gameActions.ts:410-421 | Only the named setting changes, and the new settings are then saved. |
| Actions.SettingSurvivesReload | components/context/initialState.ts:79-95 | Reloading from the saved settings gives back the updated settings. |
| Actions.AddNotificationAction | components/context/gameActions.ts:426-430 | The notification is added through the bounded append. |
| Actions.RemoveNotificationAction | components/context/gameActions.ts:432-436 | Removal leaves no entry with the id. The notifications become `removeNotificationFromArray(notifications, id)`, so every other entry stays as often as it occurs, in order. It never grows the list and changes nothing else. |
| Actions.AddThenRemoveNotification | components/context/gameActions.ts:426-436 | Below the bound, adding a notification with a fresh id and removing it restores the state. |
| Actions.ClearNotifications | components/context/gameActions.ts:438-440 | Only the notifications are emptied. |
| Actions.SetQuickStake | components/context/gameActions.ts:864-866 | Only `stake` is set. |
| Legacy.FindPlayer | components/context/socketHandlers.ts:41 | `find` returns the first player with the id, or none when no player has it. |
| Legacy.WithoutPlayer | components/context/socketHandlers.ts:46 | Every player without the id is kept as often as it occurs, in order, and no player with the id remains. |
| Legacy.OnPlayerJoinedRoom | components/context/socketHandlers.ts:28-38 | The player is appended at the end, "<name> joined the room" is appended to the old notifications, and nothing else changes. |
| Legacy.OnPlayerLeftRoom | components/context/socketHandlers.ts:40-54 | Every player with the id is removed. "<name> left the room", naming the first such player, is appended to the old notifications only if one existed. Nothing else changes. |
| Legacy.JoinThenLeave | components/context/socketHandlers.ts:28-54 | A join with a new id followed by a leave under that id restores the player list. |
| Legacy.OnRoomUpdate | components/context/socketHandlers.ts:56-58 | The room is replaced. |
| Legacy.OnDeal | components/context/socketHandlers.ts:60-73 | `round = currentRound = payload`, the commit state becomes initial, and `results = null`. |
| Legacy.OnRoundStart | components/context/socketHandlers.ts:75-85 | The round fills both slots, "New round started!" is appended to the old notifications, and the commit state stays. |
| Legacy.OnRoundResults | components/context/socketHandlers.ts:87-95 | The results are stored and `hasRevealed` is set. The other commit fields stay. |
| Legacy.OnPlayerCommitted | components/context/socketHandlers.ts:97-107 | Only the notifications change: one info notice is appended through the bounded append. |
| Legacy.OnEmote | components/context/socketHandlers.ts:109-113 | The emote, under the sender's own id, is appended to the earlier emotes through the bounded append. Nothing else changes. |
| Legacy.OnQueueUpdate | components/context/socketHandlers.ts:115-123 | Position and estimate are overwritten, and `isInQueue` is kept. |
| Legacy.WithFields | components/context/socketHandlers.ts:128 | Each of the six player keys takes the supplied value when present and keeps the old value when absent. |
| Legacy.OnPlayerUpdate | components/context/socketHandlers.ts:125-134 | The player is merged with the supplied fields, and the success notice is appended to the old notifications. Nothing else changes. |
| Legacy.OnError | components/context/socketHandlers.ts:136-171 | `INVALID_TOKEN` or `AUTH_FAILED` clears storage, signs out to `login`, stores the message and leaves exactly one notification, "Authentication failed. Please log in again.", with no other field changed. Any other code stores the message and appends it to the old notifications as an error. |
| Legacy.OnDisconnect | components/context/socketHandlers.ts:173-182 | `isConnecting` is cleared and the warning is appended to the old notifications. Nothing else changes. |
| Legacy.OnReconnect | components/context/socketHandlers.ts:184-193 | `isConnecting` is cleared and the success notice is appended to the old notifications. Nothing else changes. |
| SimpleStore.Initial | components/GameContext.tsx:50-70 | Stake 50, one player, 1000 tokens, name "Player", not in a room, nothing collected and no last choice or stake. |
| SimpleStore.EntryFee | components/GameContext.tsx:73 | The fee is the whole number nearest to `stake / 50`, with halves rounded up. |
| SimpleStore.SetStake | components/GameContext.tsx:75-78 | Both `stake` and `lastStake` become the new stake, so the prize pool is `players * stake`. |
| SimpleStore.SetPlayers | components/GameContext.tsx:80-82 | Only `players` changes. |
| SimpleStore.SetLastChoice | components/GameContext.tsx:84-86 | Only `lastChoice` changes. |
| SimpleStore.SetLastStake | components/GameContext.tsx:88-90 | Only `lastStake` changes. |
| SimpleStore.UpdateSettings | components/GameContext.tsx:92-94 | Each supplied key takes its value, and every other key stays. |
| SimpleStore.UpdateSettingsIdempotent | components/GameContext.tsx:92-94 | Applying the same settings update twice equals applying it once. |
| SimpleStore.SetSkipNext | components/GameContext.tsx:96-98 | Only `skipNext` changes. |
| SimpleStore.SetLeaveAtEnd | components/GameContext.tsx:100-102 | Only `leaveAtEnd` changes. |
| SimpleStore.SetUsername | components/GameContext.tsx:104-106 | Only `username` changes. |
| SimpleStore.SetUserTokens | components/GameContext.tsx:108-110 | Only `userTokens` changes. |
| SimpleStore.SetInRoom | components/GameContext.tsx:112-114 | Only `inRoom` changes. |
| SimpleStore.CollectReward | components/GameContext.tsx:116-119 | The reward id is appended and the tokens grow by the amount. |
| SimpleStore.CollectAllAccumulates | components/GameContext.tsx:116-119 | Collecting rewards in turn records every id in order and adds up the amounts. |
| SimpleStore.Logout | components/GameContext.tsx:121-132 | Every reset cell returns to its initial value. The settings are untouched. |
| SimpleStore.LogoutRestoresDerived | components/GameContext.tsx:121-132 | After a logout, the prize pool is 50 and the entry fee is 1, as in a fresh store. |
| ClassNames.Pieces | lib/utils.ts:6-19 | Falsy inputs and booleans add nothing. Every input except an object adds at most one piece. |
| ClassNames.TruthyKeysMembership | lib/utils.ts:15-17 | An object adds a key exactly when some entry with that key is truthy. |
| ClassNames.ClsxFlattens | lib/utils.ts:11-13 | A nested array contributes what `clsx` makes of its items. |
| ClassNames.ClsxSkips | lib/utils.ts:7 | A falsy input or a boolean can be removed from anywhere without changing the output. |
| ClassNames.LastIndexOf | lib/utils.ts:28 | `lastIndexOf` is -1 iff the token is absent. Otherwise it is the index of the token's last occurrence. |
| ClassNames.KeepLastFacts | lib/utils.ts:28 | The kept tokens are non-empty and pairwise distinct. They are exactly the non-empty input tokens. |
| ClassNames.KeepLastFromSuffix | lib/utils.ts:28 | The index filter with `lastIndexOf` keeps the same tokens as "not repeated later". |
| ClassNames.KeepLastOrder | lib/utils.ts:27-29 | The kept tokens appear in the order of their last occurrences. |
| ClassNames.KeepLastConcat | lib/utils.ts:27-29 | For `a ++ b`, the tokens of `a` not in `b` are kept, followed by the kept tokens of `b`. |
| ClassNames.TwMergeProperties | lib/utils.ts:25-30 | The `twMerge` output has no empty and no repeated token. It holds exactly the input's non-empty tokens, in order of last occurrence. `twMerge` is idempotent. |
| ClassNames.CnTokensFromClsx | lib/utils.ts:32-34 | Every token `cn` outputs is a token of the `clsx` output. |
| ClassNames.ClsxPair | lib/utils.ts:6-21 | A non-empty string and a non-empty value render with one space between them. |
| ClassNames.CnLaterWins | lib/utils.ts:32-34 | In `cn(x, v)`, the tokens of `v` come last. A token of `x` that `v` repeats keeps only its place in `v`. |
| Variants.PropText | lib/cva.ts:25 | The falsy values `undefined`, `null`, `false`, `0` and `""` select nothing. |
| Variants.Selected | lib/cva.ts:25 | A class is selected iff the table maps the key and value to a non-empty string. |
| Variants.Lookup | lib/cva.ts:33 | `variants[key]` is undefined iff no prop has the key. Otherwise it is the value of one with that key. |
| Variants.Classes | lib/cva.ts:21-38 | Without a variant table, the classes are the base alone. |
| Variants.AppendedIsJoin | lib/cva.ts:26 | Appending `" " + c` one class at a time is joining with single spaces. |
| Variants.ClassesLayout | lib/cva.ts:21-38 | With a table, the classes are the base, then the prop classes in prop order, then the default classes in default order. |
| Variants.PropClassesMembership | lib/cva.ts:24-28 | A class comes from the props iff some prop is truthy and its key and value are mapped to it. |
| Variants.FalsyPropAddsNothing | lib/cva.ts:25 | A falsy prop can be removed from anywhere without changing the prop classes. |
| Variants.DefaultClassesMembership | lib/cva.ts:31-36 | A class comes from the defaults iff some default's prop is `undefined` (absent or explicitly undefined, but not `null` or `false`) and its key and default value are mapped to it. |
| Variants.DefaultClassesAgree | lib/cva.ts:33 | The defaults depend only on which props are undefined. |
| Variants.UndefinedPropIsAbsent | lib/cva.ts:24-36 | Passing a prop as `undefined` is the same as leaving it out. |
| Variants.WithoutVariants | lib/cva.ts:17-40 | With no variant table, `cva(base)(props) = cn(base, className)`. |
| Variants.ClassNameWins | lib/cva.ts:40 | The caller's `className` tokens come last. A component token they repeat keeps only its `className` place. |
| Variants.WithoutClassName | lib/cva.ts:40 | Without a `className`, `cva` only removes duplicates from its own classes. |

## Left out

- Network, timers, storage and the page: socket.io, `fetch`, `setTimeout`/`setInterval`, `localStorage` and `document` are effects or inputs. A REST reply is an input, and connection events arrive as calls.
- Randomness and cryptography: `Math.random` ids and nonces are inputs (`Env.ids`, `nonce`), and SHA-256 is a digest-function parameter. A failing `crypto.subtle` call, and a nonce whose random draw renders empty, are not modelled beyond "an empty nonce is never revealed".
- Floating point: balances, pots and payouts are `real`. Percentages in the results table are exact quotients. The text of `${payout}` is an input (`Env.numberText`). `Math.round(stake * 0.02)` is modelled on integer stakes.
- Events.OnRoundResults: the percentage column is only computed, not stated, because JavaScript's float division differs from exact division.
- JavaScript integers: `int` is unbounded. Numbers past 2^53 and non-integer `choice` values are not modelled. In `clsx`, numbers are integers.
- Object key order: `Object.entries` lists integer-like keys first. Props, defaults and `clsx` objects are modelled as sequences in insertion order, and duplicate keys are excluded only where a lemma needs it (`DistinctKeys`).
- Variants.Lookup: prototype properties (`variants["constructor"]` and the like) are not modelled. Keys are looked up in the given entries only.
- React runtime: stale closures, effect dependency lists, re-render timing and the context memoization are not modelled. Each handler reads the snapshot it is given.
- Errors that are not `Error` objects: every thrown REST failure is reported by its message, or by the action's fallback text when it has none.
- `setEndOfRoundAction` and `setLeaveAtEnd` in the utility actions (components/context/gameActions.ts:868-878) have empty bodies, so they are not modelled as members.
- `createGameActions`/`createAllSocketEventHandlers` (components/context/gameActions.ts:882-894) only collect the members above.
- The provider's socket subscription list (components/context/GameContext.tsx:100-159) is only wiring of events to the handlers. What its cleanup does to the wrapper is modelled through `Transport.Off` (see "Findings").
- Legacy.OnError: the unused `isSpectator` field of the old room record is not modelled.
- websocketManager.ts, lib/rest.ts, lib/config.ts, the screens and the superseded containers under old/ and src/ are not part of this model.
- Development-only logging in lib/socket.ts is not modelled.

## Findings

| source | as written | input that shows it | evidently intended | confidence | as-written member | corrected member |
|---|---|---|---|---|---|---|
| components/context/gameActions.ts:460 | `onConnect` calls `socket.joinPlayer`, but `createSocketEventHandlers` binds only `state` and `updateState`. An authenticated client throws a ReferenceError after the state update and never re-announces itself. | a signed-in player with id "7" whose connection comes back | send `joinPlayer(7)` through the provider's socket | not executed | Events.OnConnectAsWritten | Events.OnConnect |
| components/context/gameActions.ts:676 | `onRequestReveal` calls `socket.reveal` with `socket` unbound. A committed client throws after entering `revealing`, reveals nothing and forfeits its commitment. | commit state `{true, false, 2, "n0", "h"}` and `request_reveal{round_key: "k"}` | send `reveal(2, "n0", "k")` and set `hasRevealed` | not executed | Events.OnRequestRevealAsWritten | Events.OnRequestReveal |
| components/context/GameContext.tsx:137-138 | The provider's effect cleanup calls `socket.off('connect')` and `socket.off('disconnect')` without handlers. The wrapper passes a bare `off(event)` on to socket.io, which detaches every listener of the event, including the wrapper's own (lib/socket.ts:145-159). The effect re-runs on every state change, and mounting sets `isConnecting` before the socket answers. So the socket's `connect` then leaves `isConnecting` set and does not rebuild the registry, and `connect()` is a no-op until a `connect_error` arrives or `disconnect()` is called. | a first render, then the mount effect's `updateState({isConnecting: true})` re-render, then the socket connects | detach only the provider's own handlers with `off(event, handler)` | not executed | Transport.DetachedListenersStall | Transport.HandlerCleanupKeepsListeners |

=== FILE: actions.dfy ===
/** The player-initiated actions of components/context/gameActions.ts. Each action is a
    pure function of the state snapshot it was created with; an asynchronous action
    takes the outcome of its REST call as a parameter and lists its effects in the
    order the source performs them, the REST call included. */
module Actions {

  import opened Wrappers
  import opened JsText
  import opened Codec
  import opened Transient
  import opened Types
  import opened Store
  import Transport
  import Events

  /** How an awaited REST call ended: with a reply, or by throwing; `Some(m)` is an
      `Error` with message `m`, `None` any other thrown value. */
  datatype Reply<T> = Replied(value: T) | Failed(error: Option<string>)

  /** `error instanceof Error ? error.message : fallback`. */
  function FailureMessage(e: Option<string>, fallback: string): string {
    if e.Some? then e.value else fallback
  }

  /** The effects of an awaited call followed by the settling update and what comes
      after it. */
  function Settle(call: RestCall, settle: Patch, after: seq<Effect>): seq<Effect> {
    [Rest(call)] + ([Update(settle)] + after)
  }

  /** The effects of an action that first marks itself busy, then awaits a call. */
  function Flow(begin: Patch, call: RestCall, settle: Patch, after: seq<Effect>): seq<Effect> {
    [Update(begin)] + Settle(call, settle, after)
  }

  lemma SettleEffects(s: GameState, call: RestCall, settle: Patch, after: seq<Effect>)
    ensures After(s, Settle(call, settle, after)) == After(Merge(s, settle), after)
    ensures Calls(Settle(call, settle, after)) == Calls(after)
  {
    AfterCons(s, Rest(call), [Update(settle)] + after);
    AfterCons(s, Update(settle), after);
  }

  lemma FlowEffects(s: GameState, begin: Patch, call: RestCall, settle: Patch, after: seq<Effect>)
    ensures After(s, Flow(begin, call, settle, after)) == After(Merge(Merge(s, begin), settle), after)
    ensures Calls(Flow(begin, call, settle, after)) == Calls(after)
  {
    AfterCons(s, Update(begin), Settle(call, settle, after));
    SettleEffects(Merge(s, begin), call, settle, after);
  }

  /** An awaited call followed by the single update that settles it. */
  function Awaited(s: GameState, call: RestCall, settle: Patch): (effs: seq<Effect>)
    ensures |effs| > 0 && effs[0] == Rest(call)
    ensures After(s, effs) == Merge(s, settle)
    ensures Calls(effs) == []
  {
    AfterCons(s, Rest(call), [Update(settle)]);
    AfterUpdate(s, settle);
    [Rest(call), Update(settle)]
  }

  /** At most one socket call after the state updates. */
  function SendIf(c: bool, m: Transport.Message): seq<Effect> {
    if c then [Send(m)] else []
  }

  lemma SendIfEffects(x: GameState, c: bool, m: Transport.Message)
    ensures After(x, SendIf(c, m)) == x
    ensures Calls(SendIf(c, m)) == if c then [m] else []
  {
    AfterCons(x, Send(m), []);
  }

  // ---------------------------------------------------------------------------
  // Authentication

  /** The `createOrGetPlayer` reply fields the action reads. */
  datatype PlayerRecord = PlayerRecord(id: int, username: string, balance: real, rating: int)

  const EmptyUsername: string := "Username cannot be empty"

  function RegisterBegin(): Patch {
    NoChange.(isRegistering := Some(true), error := Some(None))
  }

  /** A fetched player: signed in, sent home and welcomed; announced on the socket
      when the client was connected at that point. */
  function SignedIn(s: GameState, env: Env, username: string, p: PlayerRecord, connected: bool): (o: Outcome)
    ensures |o.effects| > 1 && o.effects[1] == Rest(CreateOrGetPlayer(username))
    ensures var t := After(s, o.effects);
            && o.thrown.None? && !t.isRegistering
            && t.player == Player(DecimalString(p.id), p.username, p.balance, p.rating, 0, true)
            && ParseInt(t.player.id) == Some(p.id)
            && t.currentView == Home && t.error.None?
            && t.notifications == Notify(s, env, 0, "Welcome back, " + p.username + "!", Success)
            && t == s.(player := t.player, isRegistering := false, currentView := Home, error := None,
                       notifications := t.notifications)
            && Calls(o.effects) == if connected then [Transport.JoinPlayer(Some(p.id))] else []
  {
    var settle := NoChange.(
      player := Some(Player(DecimalString(p.id), p.username, p.balance, p.rating, 0, true)),
      isRegistering := Some(false),
      currentView := Some(Home),
      notifications := Some(Notify(s, env, 0, "Welcome back, " + p.username + "!", Success)));
    var after := SendIf(connected, Transport.JoinPlayer(Some(p.id)));
    FlowEffects(s, RegisterBegin(), CreateOrGetPlayer(username), settle, after);
    SendIfEffects(Merge(Merge(s, RegisterBegin()), settle), connected, Transport.JoinPlayer(Some(p.id)));
    ParseIntOfDecimal(p.id);
    var effs := Flow(RegisterBegin(), CreateOrGetPlayer(username), settle, after);
    assert effs[1] == Rest(CreateOrGetPlayer(username));
    Outcome(effs, None)
  }

  /** A failed fetch: the failure is recorded, shown and rethrown. */
  function RegisterFailed(s: GameState, env: Env, username: string, e: Option<string>): (o: Outcome)
    ensures |o.effects| > 1 && o.effects[1] == Rest(CreateOrGetPlayer(username))
    ensures var m := FailureMessage(e, "Registration failed");
            var t := After(s, o.effects);
            && o.thrown == Some(m) && !t.isRegistering && t.error == Some(m) && t.player == s.player
            && t.notifications == Notify(s, env, 0, "Registration failed: " + m, Error)
            && t == s.(isRegistering := false, error := Some(m), notifications := t.notifications)
            && Calls(o.effects) == []
  {
    var m := FailureMessage(e, "Registration failed");
    var settle := NoChange.(
      isRegistering := Some(false),
      error := Some(Some(m)),
      notifications := Some(Notify(s, env, 0, "Registration failed: " + m, Error)));
    FlowEffects(s, RegisterBegin(), CreateOrGetPlayer(username), settle, []);
    var effs := Flow(RegisterBegin(), CreateOrGetPlayer(username), settle, []);
    assert effs[1] == Rest(CreateOrGetPlayer(username));
    Outcome(effs, Some(m))
  }

  /** `register(username)`. A blank name throws before anything happens. Otherwise the
      client is marked registering, the player is fetched, and then either the player
      is signed in (and announced on the socket if it was connected when the reply
      came) or the failure is recorded and rethrown. */
  function Register(s: GameState, env: Env, username: string, reply: Reply<PlayerRecord>, connected: bool): (o: Outcome)
    ensures Trim(username) == [] ==> o == Outcome([], Some(EmptyUsername))
    ensures Trim(username) != [] ==> |o.effects| > 1 && o.effects[1] == Rest(CreateOrGetPlayer(username))
    ensures Trim(username) != [] ==> !After(s, o.effects).isRegistering
    ensures Trim(username) != [] && reply.Replied? ==>
              var t := After(s, o.effects);
              && o.thrown.None?
              && t.player == Player(DecimalString(reply.value.id), reply.value.username, reply.value.balance,
                                    reply.value.rating, 0, true)
              && t.player.isAuthenticated
              && ParseInt(t.player.id) == Some(reply.value.id)
              && t.currentView == Home && t.error.None?
              && t.notifications == Notify(s, env, 0, "Welcome back, " + reply.value.username + "!", Success)
              && t == s.(player := t.player, isRegistering := false, currentView := Home, error := None,
                         notifications := t.notifications)
              && Calls(o.effects) == if connected then [Transport.JoinPlayer(Some(reply.value.id))] else []
    ensures Trim(username) != [] && reply.Failed? ==>
              var m := FailureMessage(reply.error, "Registration failed");
              var t := After(s, o.effects);
              && o.thrown == Some(m) && t.error == Some(m) && t.player == s.player
              && t.notifications == Notify(s, env, 0, "Registration failed: " + m, Error)
              && t == s.(isRegistering := false, error := Some(m), notifications := t.notifications)
              && Calls(o.effects) == []
  {
    if Trim(username) == [] then Outcome([], Some(EmptyUsername))
    else
      match reply
      case Replied(p) => SignedIn(s, env, username, p, connected)
      case Failed(e) => RegisterFailed(s, env, username, e)
  }

  /** The fields `logout` resets, with the values it writes. */
  function LogoutPatch(): Patch {
    NoChange.(
      player := Some(InitialPlayer()),
      currentView := Some(Login),
      previousView := Some(None),
      room := Some(None),
      players := Some([]),
      isInRoom := Some(false),
      round := Some(None),
      currentRound := Some(None),
      results := Some(None),
      commitState := Some(InitialCommitState()),
      notifications := Some([]),
      recentEmotes := Some([]),
      queueState := Some(InitialQueueState()),
      error := Some(None))
  }

  /** The signed-out state `logout` leaves: everything about the session cleared,
      settings and preferences kept. */
  predicate SignedOut(t: GameState) {
    && t.player == InitialPlayer() && !t.player.isAuthenticated
    && t.currentView == Login && t.previousView.None?
    && t.room.None? && !t.isInRoom && t.players == []
    && t.round.None? && t.currentRound.None? && t.results.None?
    && t.commitState == InitialCommitState() && t.queueState == InitialQueueState()
    && t.notifications == [] && t.recentEmotes == [] && t.error.None?
  }

  /** `logout()`: leave the room on the socket if in one, close the socket, then clear
      the session. */
  function Logout(s: GameState): (effs: seq<Effect>)
    ensures SignedOut(After(s, effs))
    ensures var t := After(s, effs);
            t.settings == s.settings && t.lastChoice == s.lastChoice && t.stake == s.stake
            && t.endOfRoundAction == s.endOfRoundAction
    ensures var t := After(s, effs);
            t == s.(player := t.player, currentView := t.currentView, previousView := t.previousView,
                    room := t.room, players := t.players, isInRoom := t.isInRoom, round := t.round,
                    currentRound := t.currentRound, results := t.results, commitState := t.commitState,
                    notifications := t.notifications, recentEmotes := t.recentEmotes,
                    queueState := t.queueState, error := t.error)
    ensures Calls(effs) == if s.isInRoom then [Transport.LeaveRoom] else []
    ensures CloseSocket in effs
    // `leaveRoom` goes out first, then the socket closes, and the state is cleared last.
    ensures |effs| == if s.isInRoom then 3 else 2
    ensures s.isInRoom ==> effs[0] == Send(Transport.LeaveRoom)
    ensures effs[|effs| - 2] == CloseSocket && effs[|effs| - 1].Update?
  {
    var tail := [CloseSocket] + [Update(LogoutPatch())];
    AfterCons(s, CloseSocket, [Update(LogoutPatch())]);
    AfterUpdate(s, LogoutPatch());
    AfterCons(s, Send(Transport.LeaveRoom), tail);
    assert tail[0] == CloseSocket;
    if s.isInRoom then [Send(Transport.LeaveRoom)] + tail else tail
  }

  /** Logging out a second time changes nothing and sends nothing: the first logout
      left the room. */
  lemma LogoutIdempotent(s: GameState)
    ensures var t := After(s, Logout(s));
            After(t, Logout(t)) == t && Calls(Logout(t)) == []
  {
    var t := After(s, Logout(s));
    assert !t.isInRoom;
    AfterCons(t, CloseSocket, [Update(LogoutPatch())]);
    AfterUpdate(t, LogoutPatch());
    assert After(t, Logout(t)) == Merge(t, LogoutPatch());
  }

  // ---------------------------------------------------------------------------
  // Rooms

  /** `tier || null`. */
  function TierArgument(tier: Option<string>): (r: Option<string>)
    ensures r.Some? <==> tier.Some? && tier.value != ""
    ensures r.Some? ==> r == tier
  {
    if tier.Some? && tier.value != "" then tier else None
  }

  const MustLogInToJoin: string := "Must be logged in to join a room"
  const MustLogInToSpectate: string := "Must be logged in to spectate a room"

  function LoadingBegin(): Patch {
    NoChange.(isLoading := Some(true), error := Some(None))
  }

  /** A join or spectate whose REST call failed: the failure is recorded, shown and
      rethrown; nothing is sent. */
  function JoinFailed(s: GameState, env: Env, call: RestCall, fallback: string, prefix: string, e: Option<string>): (o: Outcome)
    ensures |o.effects| > 1 && o.effects[1] == Rest(call)
    ensures var m := FailureMessage(e, fallback);
            var t := After(s, o.effects);
            && o.thrown == Some(m) && t.error == Some(m) && !t.isLoading && t.player == s.player
            && t.notifications == Notify(s, env, 0, prefix + m, Error)
            && t == s.(isLoading := false, error := Some(m), notifications := t.notifications)
            && Calls(o.effects) == []
  {
    var m := FailureMessage(e, fallback);
    var settle := NoChange.(isLoading := Some(false), error := Some(Some(m)),
                            notifications := Some(Notify(s, env, 0, prefix + m, Error)));
    FlowEffects(s, LoadingBegin(), call, settle, []);
    var effs := Flow(LoadingBegin(), call, settle, []);
    assert After(s, effs) == Merge(Merge(s, LoadingBegin()), settle);
    assert effs[1] == Rest(call);
    Outcome(effs, Some(m))
  }

  /** A join or spectate whose REST call replied: the settling update, then the socket
      join with the returned token. */
  function Joined(s: GameState, call: RestCall, settle: Patch, token: string, asSpectator: bool): (o: Outcome)
    ensures |o.effects| > 1 && o.effects[1] == Rest(call)
    ensures o.thrown.None?
    ensures After(s, o.effects) == Merge(Merge(s, LoadingBegin()), settle)
    ensures Calls(o.effects) == [Transport.JoinRoom(token, asSpectator)]
  {
    var after := SendIf(true, Transport.JoinRoom(token, asSpectator));
    FlowEffects(s, LoadingBegin(), call, settle, after);
    SendIfEffects(Merge(Merge(s, LoadingBegin()), settle), true, Transport.JoinRoom(token, asSpectator));
    var effs := Flow(LoadingBegin(), call, settle, after);
    assert effs[1] == Rest(call);
    Outcome(effs, None)
  }

  /** The `quickJoinRoom` reply fields the action reads. */
  datatype QuickJoinReply = QuickJoinReply(room_token: string, tier: string, stake: real, new_balance: real)

  /** `quickJoin(tier)`: asks the server for a room of the tier and, on success,
      records the tier, stake and charged balance and joins over the socket with the
      returned token. */
  function QuickJoin(s: GameState, env: Env, tier: Option<string>, reply: Reply<QuickJoinReply>): (o: Outcome)
    ensures !s.player.isAuthenticated ==> o == Outcome([], Some(MustLogInToJoin))
    ensures s.player.isAuthenticated ==>
              |o.effects| > 1 && o.effects[1] == Rest(QuickJoinRoom(ParseInt(s.player.id), TierArgument(tier), false))
              && !After(s, o.effects).isLoading
    ensures s.player.isAuthenticated && reply.Replied? ==>
              var t := After(s, o.effects);
              && o.thrown.None? && t.error.None?
              && t.lastTier == Some(reply.value.tier) && t.lastStake == Some(reply.value.stake)
              && t.player == s.player.(balance := reply.value.new_balance)
              && t.notifications == Notify(s, env, 0, "Joining " + reply.value.tier + " room...", Info)
              && t == s.(isLoading := false, error := None, lastTier := t.lastTier, lastStake := t.lastStake,
                         player := t.player, notifications := t.notifications)
              && Calls(o.effects) == [Transport.JoinRoom(reply.value.room_token, false)]
    ensures s.player.isAuthenticated && reply.Failed? ==>
              var m := FailureMessage(reply.error, "Failed to join room");
              var t := After(s, o.effects);
              && o.thrown == Some(m) && t.error == Some(m) && t.player == s.player
              && t.notifications == Notify(s, env, 0, "Failed to join room: " + m, Error)
              && t == s.(isLoading := false, error := Some(m), notifications := t.notifications)
              && Calls(o.effects) == []
  {
    if !s.player.isAuthenticated then Outcome([], Some(MustLogInToJoin))
    else
      var call := QuickJoinRoom(ParseInt(s.player.id), TierArgument(tier), false);
      match reply
      case Failed(e) => JoinFailed(s, env, call, "Failed to join room", "Failed to join room: ", e)
      case Replied(r) =>
        Joined(s, call, NoChange.(
          isLoading := Some(false), lastTier := Some(Some(r.tier)), lastStake := Some(Some(r.stake)),
          player := Some(s.player.(balance := r.new_balance)),
          notifications := Some(Notify(s, env, 0, "Joining " + r.tier + " room...", Info))),
          r.room_token, false)
  }

  /** The `joinSpecificRoom` reply fields the actions read. */
  datatype JoinReply = JoinReply(room_token: string, new_balance: real)

  /** `joinRoom(roomKey)`: joins a named room as a player; the balance becomes the
      charged one. */
  function JoinRoom(s: GameState, env: Env, roomKey: string, reply: Reply<JoinReply>): (o: Outcome)
    ensures !s.player.isAuthenticated ==> o == Outcome([], Some(MustLogInToJoin))
    ensures s.player.isAuthenticated ==>
              |o.effects| > 1 && o.effects[1] == Rest(JoinSpecificRoom(roomKey, ParseInt(s.player.id), false))
              && !After(s, o.effects).isLoading
    ensures s.player.isAuthenticated && reply.Replied? ==>
              var t := After(s, o.effects);
              && o.thrown.None? && t.error.None?
              && t.player == s.player.(balance := reply.value.new_balance)
              && t.notifications == Notify(s, env, 0, "Joining room...", Info)
              && t == s.(isLoading := false, error := None, player := t.player, notifications := t.notifications)
              && Calls(o.effects) == [Transport.JoinRoom(reply.value.room_token, false)]
    ensures s.player.isAuthenticated && reply.Failed? ==>
              var m := FailureMessage(reply.error, "Failed to join room");
              var t := After(s, o.effects);
              && o.thrown == Some(m) && t.error == Some(m) && t.player == s.player
              && t.notifications == Notify(s, env, 0, "Failed to join room: " + m, Error)
              && t == s.(isLoading := false, error := Some(m), notifications := t.notifications)
              && Calls(o.effects) == []
  {
    if !s.player.isAuthenticated then Outcome([], Some(MustLogInToJoin))
    else
      var call := JoinSpecificRoom(roomKey, ParseInt(s.player.id), false);
      match reply
      case Failed(e) => JoinFailed(s, env, call, "Failed to join room", "Failed to join room: ", e)
      case Replied(r) =>
        Joined(s, call, NoChange.(
          isLoading := Some(false),
          player := Some(s.player.(balance := r.new_balance)),
          notifications := Some(Notify(s, env, 0, "Joining room...", Info))),
          r.room_token, false)
  }

  /** `spectateRoom(roomKey)`: joins a named room as a spectator; the balance is not
      touched. */
  function SpectateRoom(s: GameState, env: Env, roomKey: string, reply: Reply<JoinReply>): (o: Outcome)
    ensures !s.player.isAuthenticated ==> o == Outcome([], Some(MustLogInToSpectate))
    ensures s.player.isAuthenticated ==>
              |o.effects| > 1 && o.effects[1] == Rest(JoinSpecificRoom(roomKey, ParseInt(s.player.id), true))
              && !After(s, o.effects).isLoading && After(s, o.effects).player == s.player
    ensures s.player.isAuthenticated && reply.Replied? ==>
              var t := After(s, o.effects);
              && o.thrown.None? && t.error.None?
              && t.notifications == Notify(s, env, 0, "Joining room as spectator...", Info)
              && t == s.(isLoading := false, error := None, notifications := t.notifications)
              && Calls(o.effects) == [Transport.JoinRoom(reply.value.room_token, true)]
    ensures s.player.isAuthenticated && reply.Failed? ==>
              var m := FailureMessage(reply.error, "Failed to spectate room");
              var t := After(s, o.effects);
              && o.thrown == Some(m) && t.error == Some(m)
              && t.notifications == Notify(s, env, 0, "Failed to spectate room: " + m, Error)
              && t == s.(isLoading := false, error := Some(m), notifications := t.notifications)
              && Calls(o.effects) == []
  {
    if !s.player.isAuthenticated then Outcome([], Some(MustLogInToSpectate))
    else
      var call := JoinSpecificRoom(roomKey, ParseInt(s.player.id), true);
      match reply
      case Failed(e) => JoinFailed(s, env, call, "Failed to spectate room", "Failed to spectate room: ", e)
      case Replied(r) =>
        Joined(s, call, NoChange.(
          isLoading := Some(false),
          notifications := Some(Notify(s, env, 0, "Joining room as spectator...", Info))),
          r.room_token, true)
  }

  /** `leaveRoom()`: without a room, nothing. Otherwise the leave is scheduled for the
      round's end over REST, then announced on the socket; a failure is only shown,
      never rethrown. The room is cleared later, by the `room_left` event. */
  function LeaveRoom(s: GameState, env: Env, reply: Reply<()>): (o: Outcome)
    ensures o.thrown.None?
    ensures s.room.None? ==> o.effects == []
    ensures s.room.Some? ==>
              && |o.effects| > 0
              && o.effects[0] == Rest(LeaveRoomCall(s.room.value.id, ParseInt(s.player.id), true))
              && After(s, o.effects) == s.(notifications := After(s, o.effects).notifications)
    ensures s.room.Some? && reply.Replied? ==>
              Calls(o.effects) == [Transport.LeaveRoom]
              && After(s, o.effects).notifications == Notify(s, env, 0, "Left the room", Info)
    ensures s.room.Some? && reply.Failed? ==>
              Calls(o.effects) == []
              && After(s, o.effects).notifications
                 == Notify(s, env, 0, "Failed to leave room: " + FailureMessage(reply.error, "Failed to leave room"), Error)
  {
    if s.room.None? then Outcome([], None)
    else
      var call := LeaveRoomCall(s.room.value.id, ParseInt(s.player.id), true);
      match reply
      case Replied(_) => Left(s, env, call)
      case Failed(e) => LeaveFailed(s, env, call, e)
  }

  /** A leave the server accepted: announced on the socket, then reported. */
  function Left(s: GameState, env: Env, call: RestCall): (o: Outcome)
    ensures o.thrown.None? && |o.effects| > 0 && o.effects[0] == Rest(call)
    ensures After(s, o.effects) == s.(notifications := After(s, o.effects).notifications)
    ensures Calls(o.effects) == [Transport.LeaveRoom]
            && After(s, o.effects).notifications == Notify(s, env, 0, "Left the room", Info)
  {
    Outcome(LeaveEffects(s, call, Notify(s, env, 0, "Left the room", Info), true), None)
  }

  /** A failed leave: only reported, never rethrown. */
  function LeaveFailed(s: GameState, env: Env, call: RestCall, e: Option<string>): (o: Outcome)
    ensures o.thrown.None? && |o.effects| > 0 && o.effects[0] == Rest(call)
    ensures After(s, o.effects) == s.(notifications := After(s, o.effects).notifications)
    ensures Calls(o.effects) == []
            && After(s, o.effects).notifications
               == Notify(s, env, 0, "Failed to leave room: " + FailureMessage(e, "Failed to leave room"), Error)
  {
    var m := "Failed to leave room: " + FailureMessage(e, "Failed to leave room");
    Outcome(LeaveEffects(s, call, Notify(s, env, 0, m, Error), false), None)
  }

  /** The awaited call, the socket leave when it succeeded, then the notice. */
  function LeaveEffects(s: GameState, call: RestCall, ns: seq<Notification>, announced: bool): (effs: seq<Effect>)
    ensures |effs| > 0 && effs[0] == Rest(call)
    ensures After(s, effs) == s.(notifications := ns)
    ensures Calls(effs) == if announced then [Transport.LeaveRoom] else []
  {
    var p := NoChange.(notifications := Some(ns));
    MergeNotifications(s, ns);
    if announced then
      AfterCons(s, Rest(call), [Send(Transport.LeaveRoom)] + [Update(p)]);
      AfterCons(s, Send(Transport.LeaveRoom), [Update(p)]);
      AfterUpdate(s, p);
      [Rest(call)] + ([Send(Transport.LeaveRoom)] + [Update(p)])
    else
      Awaited(s, call, p)
  }

  const NotInRoom: string := "Not in a room"

  /** `skipNext()`: without a room it throws; otherwise it asks the server to sit out
      the next round and reports the result, rethrowing a failure. */
  function SkipNext(s: GameState, env: Env, reply: Reply<()>): (o: Outcome)
    ensures s.room.None? ==> o == Outcome([], Some(NotInRoom))
    ensures s.room.Some? ==>
              && |o.effects| > 0
              && o.effects[0] == Rest(SkipNextCall(s.room.value.id, ParseInt(s.player.id)))
              && After(s, o.effects) == s.(notifications := After(s, o.effects).notifications)
              && Calls(o.effects) == []
    ensures s.room.Some? && reply.Replied? ==>
              o.thrown.None? && After(s, o.effects).notifications == Notify(s, env, 0, "Will skip the next round", Info)
    ensures s.room.Some? && reply.Failed? ==>
              var m := FailureMessage(reply.error, "Failed to skip round");
              o.thrown == Some(m) && After(s, o.effects).notifications == Notify(s, env, 0, "Failed to skip round: " + m, Error)
  {
    if s.room.None? then Outcome([], Some(NotInRoom))
    else
      var call := SkipNextCall(s.room.value.id, ParseInt(s.player.id));
      match reply
      case Replied(_) => Skipped(s, env, call)
      case Failed(e) => SkipFailed(s, env, call, e)
  }

  /** The server agreed to sit out the next round: reported only. */
  function Skipped(s: GameState, env: Env, call: RestCall): (o: Outcome)
    ensures |o.effects| > 0 && o.effects[0] == Rest(call)
    ensures After(s, o.effects) == s.(notifications := After(s, o.effects).notifications)
    ensures Calls(o.effects) == []
    ensures o.thrown.None? && After(s, o.effects).notifications == Notify(s, env, 0, "Will skip the next round", Info)
  {
    var ns := Notify(s, env, 0, "Will skip the next round", Info);
    MergeNotifications(s, ns);
    Outcome(Awaited(s, call, NoChange.(notifications := Some(ns))), None)
  }

  /** The request failed: reported and rethrown. */
  function SkipFailed(s: GameState, env: Env, call: RestCall, e: Option<string>): (o: Outcome)
    ensures |o.effects| > 0 && o.effects[0] == Rest(call)
    ensures After(s, o.effects) == s.(notifications := After(s, o.effects).notifications)
    ensures Calls(o.effects) == []
    ensures var m := FailureMessage(e, "Failed to skip round");
            o.thrown == Some(m) && After(s, o.effects).notifications == Notify(s, env, 0, "Failed to skip round: " + m, Error)
  {
    var m := FailureMessage(e, "Failed to skip round");
    var ns := Notify(s, env, 0, "Failed to skip round: " + m, Error);
    MergeNotifications(s, ns);
    Outcome(Awaited(s, call, NoChange.(notifications := Some(ns))), Some(m))
  }

  // ---------------------------------------------------------------------------
  // Gameplay

  const NoActiveRound: string := "No active round"
  const AlreadyCommitted: string := "Already committed for this round"
  const InvalidChoice: string := "Invalid choice"

  /** Why `commitChoice(choice)` refuses, in the order it checks, if it does. */
  function CommitRefusal(s: GameState, choice: int): (r: Option<string>)
    ensures r.None? <==> s.round.Some? && s.round.value.roundKey != "" && !s.commitState.hasCommitted
                         && 0 <= choice < |s.round.value.nouns|
    ensures (s.round.None? || s.round.value.roundKey == "") ==> r == Some(NoActiveRound)
  {
    if s.round.None? || s.round.value.roundKey == "" then Some(NoActiveRound)
    else if s.commitState.hasCommitted then Some(AlreadyCommitted)
    else if choice < 0 || choice >= |s.round.value.nouns| then Some(InvalidChoice)
    else None
  }

  /** `nouns?.[choice] || 'Unknown'`. */
  function NounLabel(nouns: seq<string>, choice: int): string {
    if 0 <= choice < |nouns| && nouns[choice] != "" then nouns[choice] else "Unknown"
  }

  /** `commitChoice(choice)` with the nonce it draws and the digest it hashes with: the
      commitment is sent first, then the choice, nonce and hash are stored. The store
      happens whether or not the socket was connected to carry the commitment. */
  function CommitChoice(s: GameState, env: Env, choice: int, nonce: string, digest: Digest): (o: Outcome)
    ensures CommitRefusal(s, choice).Some? ==> o == Outcome([], CommitRefusal(s, choice))
    ensures CommitRefusal(s, choice).None? ==>
              var t := After(s, o.effects);
              var h := CommitHash(digest, ParseInt(s.player.id), s.round.value.roundKey, choice, nonce);
              && o.thrown.None?
              && Calls(o.effects) == [Transport.Commit(h)]
              && o.effects[0] == Send(Transport.Commit(h))
              && t.commitState == CommitState(true, false, Some(choice), Some(nonce), Some(h))
              && t.lastChoice == Some(choice)
              && t.notifications == Notify(s, env, 0, "Choice submitted: " + NounLabel(s.round.value.nouns, choice), Success)
              && t == s.(commitState := t.commitState, lastChoice := t.lastChoice, notifications := t.notifications)
  {
    if CommitRefusal(s, choice).Some? then Outcome([], CommitRefusal(s, choice))
    else
      var h := CommitHash(digest, ParseInt(s.player.id), s.round.value.roundKey, choice, nonce);
      var p := NoChange.(
        commitState := Some(CommitState(true, false, Some(choice), Some(nonce), Some(h))),
        lastChoice := Some(Some(choice)),
        notifications := Some(Notify(s, env, 0, "Choice submitted: " + NounLabel(s.round.value.nouns, choice), Success)));
      AfterCons(s, Send(Transport.Commit(h)), [Update(p)]);
      AfterUpdate(s, p);
      Outcome([Send(Transport.Commit(h))] + [Update(p)], None)
  }

  /** The commit-reveal round trip: after a successful commit with a non-empty nonce,
      the `request_reveal` handler for the same round reveals exactly the committed
      choice and nonce, and they open the commitment that was sent. */
  lemma CommitThenReveal(s: GameState, env: Env, choice: int, nonce: string, digest: Digest)
    requires CommitRefusal(s, choice).None?
    requires nonce != ""
    ensures var o := CommitChoice(s, env, choice, nonce, digest);
            var t := After(s, o.effects);
            var key := s.round.value.roundKey;
            && Events.AutoReveals(t.commitState)
            && Calls(Events.OnRequestReveal(t, key)) == [Transport.Reveal(choice, nonce, key)]
            && Calls(o.effects) == [Transport.Commit(t.commitState.hash.value)]
            && RevealMatches(digest, ParseInt(t.player.id), key, choice, nonce, t.commitState.hash.value)
  {
  }

  /** `sendEmote(emote)`: outside a room only a warning; inside, the emote is sent. */
  function SendEmote(s: GameState, env: Env, emote: string): (effs: seq<Effect>)
    ensures !s.isInRoom ==>
              Calls(effs) == []
              && After(s, effs).notifications == Notify(s, env, 0, "Must be in a room to send emotes", Warning)
    ensures s.isInRoom ==> Calls(effs) == [Transport.SendEmote(emote)] && After(s, effs) == s
    ensures After(s, effs) == s.(notifications := After(s, effs).notifications)
  {
    var p := NoChange.(notifications := Some(Notify(s, env, 0, "Must be in a room to send emotes", Warning)));
    AfterUpdate(s, p);
    SendIfEffects(s, true, Transport.SendEmote(emote));
    if s.isInRoom then SendIf(true, Transport.SendEmote(emote)) else [Update(p)]
  }

  /** `toggleSpectatorQueue()`: asks for the opposite of the current queue membership;
      the state changes only when the server answers with `queue_update`. */
  function ToggleSpectatorQueue(s: GameState): (effs: seq<Effect>)
    ensures Calls(effs) == [Transport.SpectatorQueue(!s.queueState.isInQueue)]
    ensures After(s, effs) == s
  {
    SendIfEffects(s, true, Transport.SpectatorQueue(!s.queueState.isInQueue));
    SendIf(true, Transport.SpectatorQueue(!s.queueState.isInQueue))
  }

  // ---------------------------------------------------------------------------
  // Navigation

  /** `setCurrentView(view)`: the current screen becomes the previous one. */
  function SetCurrentView(s: GameState, view: Screen): (effs: seq<Effect>)
    ensures var t := After(s, effs);
            t.currentView == view && t.previousView == Some(s.currentView)
            && t == s.(currentView := view, previousView := t.previousView)
    ensures Calls(effs) == []
  {
    var p := NoChange.(previousView := Some(Some(s.currentView)), currentView := Some(view));
    AfterUpdate(s, p);
    [Update(p)]
  }

  /** `goBack()`: to the previous screen, forgetting it; nothing without one. */
  function GoBack(s: GameState): (effs: seq<Effect>)
    ensures s.previousView.None? ==> effs == []
    ensures s.previousView.Some? ==>
              After(s, effs) == s.(currentView := s.previousView.value, previousView := None)
  {
    if s.previousView.None? then []
    else
      var p := NoChange.(currentView := Some(s.previousView.value), previousView := Some(None));
      AfterUpdate(s, p);
      [Update(p)]
  }

  /** Going somewhere and back returns to the screen we came from; a second `goBack`
      does nothing, since only one screen of history is kept. */
  lemma NavigateThenBack(s: GameState, view: Screen)
    ensures var t := After(s, SetCurrentView(s, view));
            var u := After(t, GoBack(t));
            u == s.(previousView := None) && GoBack(u) == []
  {
  }

  // ---------------------------------------------------------------------------
  // Settings

  datatype SettingKey = SoundEffects | Haptics | AutoAdvance | ShowTimers | DataSaver | AllowSpectators

  function Setting(g: GameSettings, k: SettingKey): bool {
    match k
    case SoundEffects => g.soundEffects
    case Haptics => g.haptics
    case AutoAdvance => g.autoAdvance
    case ShowTimers => g.showTimers
    case DataSaver => g.dataSaver
    case AllowSpectators => g.allowSpectators
  }

  /** `{ ...settings, [key]: value }`. */
  function WithSetting(g: GameSettings, k: SettingKey, v: bool): (r: GameSettings)
    ensures Setting(r, k) == v
    ensures forall k' :: k' != k ==> Setting(r, k') == Setting(g, k')
  {
    match k
    case SoundEffects => g.(soundEffects := v)
    case Haptics => g.(haptics := v)
    case AutoAdvance => g.(autoAdvance := v)
    case ShowTimers => g.(showTimers := v)
    case DataSaver => g.(dataSaver := v)
    case AllowSpectators => g.(allowSpectators := v)
  }

  /** What `saveSettingsToStorage` writes, as `loadSettingsFromStorage` reads it back:
      every key present. */
  function Saved(g: GameSettings): StoredSettings {
    StoredSettings(Some(g.soundEffects), Some(g.haptics), Some(g.autoAdvance),
                   Some(g.showTimers), Some(g.dataSaver), Some(g.allowSpectators))
  }

  /** `updateSetting(key, value)`: one key changes in the state, and the whole new
      settings object is saved. */
  function UpdateSetting(s: GameState, k: SettingKey, v: bool): (effs: seq<Effect>)
    ensures var t := After(s, effs);
            && Setting(t.settings, k) == v
            && (forall k' :: k' != k ==> Setting(t.settings, k') == Setting(s.settings, k'))
            && t == s.(settings := t.settings)
            && |effs| == 2 && effs[1] == SaveSettings(t.settings)
    ensures Calls(effs) == []
  {
    var g := WithSetting(s.settings, k, v);
    var p := NoChange.(settings := Some(g));
    AfterCons(s, Update(p), [SaveSettings(g)]);
    AfterCons(Merge(s, p), SaveSettings(g), []);
    [Update(p)] + [SaveSettings(g)]
  }

  /** A saved setting survives a reload: the next provider starts from exactly the
      settings that were saved. */
  lemma SettingSurvivesReload(s: GameState, k: SettingKey, v: bool)
    ensures var effs := UpdateSetting(s, k, v);
            var saved := effs[1].settings;
            ProviderInitialState(Saved(saved)).settings == After(s, effs).settings
            && Setting(ProviderInitialState(Saved(saved)).settings, k) == v
  {
  }

  // ---------------------------------------------------------------------------
  // Notifications and utilities

  /** `addNotification(message, type)`. */
  function AddNotificationAction(s: GameState, env: Env, message: string, kind: Severity): (effs: seq<Effect>)
    ensures var t := After(s, effs);
            t == s.(notifications := AddNotification(s.notifications, message, env.ids(0), env.now, kind))
            && Posted(t, message, kind)
  {
    var p := NoChange.(notifications := Some(Notify(s, env, 0, message, kind)));
    AfterUpdate(s, p);
    [Update(p)]
  }

  /** `removeNotification(id)`. */
  function RemoveNotificationAction(s: GameState, id: string): (effs: seq<Effect>)
    ensures var t := After(s, effs);
            && t == s.(notifications := t.notifications)
            && (forall i :: 0 <= i < |t.notifications| ==> t.notifications[i].id != id)
            && |t.notifications| <= |s.notifications|
            && t.notifications == RemoveNotification(s.notifications, id)
  {
    var p := NoChange.(notifications := Some(RemoveNotification(s.notifications, id)));
    AfterUpdate(s, p);
    [Update(p)]
  }

  /** Removing a notice that was just added by id gives back the list it was added to,
      provided the id was fresh and the list was not full. */
  lemma AddThenRemoveNotification(s: GameState, env: Env, message: string, kind: Severity)
    requires |s.notifications| + 1 < MaxEntries
    requires forall i :: 0 <= i < |s.notifications| ==> s.notifications[i].id != env.ids(0)
    ensures var t := After(s, AddNotificationAction(s, env, message, kind));
            After(t, RemoveNotificationAction(t, env.ids(0))) == s
  {
    var id := env.ids(0);
    var added := AddNotification(s.notifications, message, id, env.now, kind);
    var t := After(s, AddNotificationAction(s, env, message, kind));
    assert t == s.(notifications := added);
    AutoRemovalRemovesAdded(s.notifications, message, id, env.now, kind);
    assert added[..|added| - 1] == s.notifications;
    assert RemoveNotification(added, id) == s.notifications;
    var p := NoChange.(notifications := Some(RemoveNotification(t.notifications, id)));
    assert RemoveNotificationAction(t, id) == [Update(p)];
    AfterUpdate(t, p);
    MergeNotifications(t, s.notifications);
  }

  /** `clearNotifications()`. */
  function ClearNotifications(s: GameState): (effs: seq<Effect>)
    ensures After(s, effs) == s.(notifications := [])
  {
    AfterUpdate(s, NoChange.(notifications := Some([])));
    [Update(NoChange.(notifications := Some([])))]
  }

  /** `setQuickStake(stake)`: only the quick-play stake changes. */
  function SetQuickStake(s: GameState, stake: real): (effs: seq<Effect>)
    ensures After(s, effs) == s.(stake := Some(stake))
    ensures Calls(effs) == []
  {
    AfterUpdate(s, NoChange.(stake := Some(Some(stake))));
    [Update(NoChange.(stake := Some(Some(stake))))]
  }
}

=== FILE: classnames.dfy ===
/** The class-name helpers of lib/utils.ts: `clsx` flattens class values into a
    space-separated string, `twMerge` drops empty and repeated tokens keeping each
    token's last occurrence, and `cn` is the two in sequence. */
module ClassNames {

  import opened Seqs
  import opened JsText

  /** An object key and whether its value is truthy. */
  datatype Entry = Entry(key: string, truthy: bool)

  /** The values `clsx` accepts. Numbers are integers here. */
  datatype ClassValue =
    | Str(s: string)
    | Num(n: int)
    | Bool(b: bool)
    | Undefined
    | Null
    | Arr(items: seq<ClassValue>)
    | Obj(entries: seq<Entry>)

  /** JavaScript falsiness of a class value. Arrays and objects are always truthy. */
  predicate Falsy(v: ClassValue) {
    match v
    case Str(s) => s == ""
    case Num(n) => n == 0
    case Bool(b) => !b
    case Undefined => true
    case Null => true
    case Arr(_) => false
    case Obj(_) => false
  }

  /** What one input pushes onto `classes`. */
  function Pieces(v: ClassValue): (r: seq<string>)
    ensures Falsy(v) || v.Bool? ==> r == []
    ensures |r| <= 1 || v.Obj?
    decreases v
  {
    match v
    case Str(s) => if s == "" then [] else [s]
    case Num(n) => if n == 0 then [] else [DecimalString(n)]
    case Bool(_) => []
    case Undefined => []
    case Null => []
    case Arr(items) =>
      var nested := Join(AllPieces(items));
      if nested == "" then [] else [nested]
    case Obj(es) => TruthyKeys(es)
  }

  function AllPieces(vs: seq<ClassValue>): seq<string>
    decreases vs
  {
    if vs == [] then [] else Pieces(vs[0]) + AllPieces(vs[1..])
  }

  /** The keys of the entries with truthy values, in entry order. */
  function TruthyKeys(es: seq<Entry>): seq<string> {
    if es == [] then [] else (if es[0].truthy then [es[0].key] else []) + TruthyKeys(es[1..])
  }

  /** An object contributes a key exactly when some entry with that key is truthy. */
  lemma {:induction false} TruthyKeysMembership(es: seq<Entry>, x: string)
    ensures x in TruthyKeys(es) <==> exists k :: 0 <= k < |es| && es[k].truthy && es[k].key == x
    decreases |es|
  {
    if es != [] {
      TruthyKeysMembership(es[1..], x);
      if exists k :: 0 <= k < |es[1..]| && es[1..][k].truthy && es[1..][k].key == x {
        var k :| 0 <= k < |es[1..]| && es[1..][k].truthy && es[1..][k].key == x;
        assert es[k + 1] == es[1..][k];
      }
      if exists k :: 0 <= k < |es| && es[k].truthy && es[k].key == x {
        var k :| 0 <= k < |es| && es[k].truthy && es[k].key == x;
        if k > 0 {
          assert es[1..][k - 1] == es[k];
        }
      }
    }
  }

  /** `clsx(...inputs)`. */
  function Clsx(inputs: seq<ClassValue>): string {
    Join(AllPieces(inputs))
  }

  lemma {:induction false} AllPiecesConcat(a: seq<ClassValue>, b: seq<ClassValue>)
    ensures AllPieces(a + b) == AllPieces(a) + AllPieces(b)
    decreases |a|
  {
    if a == [] {
      assert a + b == b;
    } else {
      assert (a + b)[0] == a[0] && (a + b)[1..] == a[1..] + b;
      AllPiecesConcat(a[1..], b);
    }
  }

  /** A nested array contributes exactly what `clsx` makes of its items. */
  lemma ClsxFlattens(items: seq<ClassValue>)
    ensures Clsx([Arr(items)]) == Clsx(items)
  {
    var n := Join(AllPieces(items));
    assert [Arr(items)][0] == Arr(items) && [Arr(items)][1..] == [];
    assert AllPieces([Arr(items)]) == Pieces(Arr(items)) + [];
    assert Pieces(Arr(items)) == if n == "" then [] else [n];
  }

  /** Falsy inputs and booleans change nothing, wherever they stand. */
  lemma ClsxSkips(a: seq<ClassValue>, v: ClassValue, b: seq<ClassValue>)
    requires Falsy(v) || v.Bool?
    ensures Clsx(a + [v] + b) == Clsx(a + b)
  {
    AllPiecesConcat(a + [v], b);
    AllPiecesConcat(a, [v]);
    AllPiecesConcat(a, b);
    assert AllPieces([v]) == [] by {
      assert [v][1..] == [];
    }
    assert AllPieces(a) + [] == AllPieces(a);
  }

  // ---------------------------------------------------------------------------
  // twMerge

  /** `arr.lastIndexOf(x)`: -1 when absent. */
  function LastIndexOf(a: seq<string>, x: string): (r: int)
    ensures r == -1 <==> x !in a
    ensures r != -1 ==> 0 <= r < |a| && a[r] == x && x !in a[r + 1..]
  {
    if a == [] then -1
    else if a[|a| - 1] == x then
      assert a[|a|..] == [];
      |a| - 1
    else
      var r := LastIndexOf(a[..|a| - 1], x);
      assert x in a <==> x in a[..|a| - 1] by {
        assert a == a[..|a| - 1] + [a[|a| - 1]];
      }
      assert r != -1 ==> a[r + 1..] == a[..|a| - 1][r + 1..] + [a[|a| - 1]];
      r
  }

  /** The index `lastIndexOf` finds is the only one with nothing equal after it. */
  lemma LastIndexUnique(a: seq<string>, x: string, k: nat)
    requires k < |a| && a[k] == x && x !in a[k + 1..]
    ensures LastIndexOf(a, x) == k
  {
    var r := LastIndexOf(a, x);
    assert a[k] in a;
  }

  /** Dropping the head shifts the last index of a token still in the tail by one. */
  lemma LastIndexOfTail(a: seq<string>, x: string)
    requires a != [] && x in a[1..]
    ensures LastIndexOf(a, x) == 1 + LastIndexOf(a[1..], x)
  {
    var k := LastIndexOf(a[1..], x);
    assert a[k + 1] == a[1..][k];
    assert a[k + 2..] == a[1..][k + 1..];
    LastIndexUnique(a, x, k + 1);
  }

  /** The filter of `twMerge`, from index `i` on: a token stays when it is non-empty and
      `lastIndexOf` finds it at its own index. */
  function KeepLastFrom(arr: seq<string>, i: nat): seq<string>
    requires i <= |arr|
    decreases |arr| - i
  {
    if i == |arr| then []
    else (if arr[i] != "" && LastIndexOf(arr, arr[i]) == i then [arr[i]] else []) + KeepLastFrom(arr, i + 1)
  }

  /** The same filter over a suffix, in the form the proofs use. */
  function KeepLast(a: seq<string>): seq<string> {
    if a == [] then []
    else (if a[0] != "" && a[0] !in a[1..] then [a[0]] else []) + KeepLast(a[1..])
  }

  /** The kept tokens are non-empty, pairwise different, and exactly the non-empty
      tokens of the input. */
  lemma {:induction false} KeepLastFacts(a: seq<string>)
    ensures var r := KeepLast(a);
            && (forall i :: 0 <= i < |r| ==> r[i] != "")
            && (forall i, j :: 0 <= i < j < |r| ==> r[i] != r[j])
            && (forall x :: x in r <==> x in a && x != "")
    decreases |a|
  {
    if a != [] {
      KeepLastFacts(a[1..]);
      var rest := KeepLast(a[1..]);
      assert forall x :: x in a <==> x == a[0] || x in a[1..] by {
        assert a == [a[0]] + a[1..];
      }
      if a[0] != "" && a[0] !in a[1..] {
        var r := [a[0]] + rest;
        assert forall i :: 1 <= i < |r| ==> r[i] == rest[i - 1];
        assert forall x :: x in r <==> x == a[0] || x in rest;
      }
    }
  }

  lemma {:induction false} KeepLastFromSuffix(arr: seq<string>, i: nat)
    requires i <= |arr|
    ensures KeepLastFrom(arr, i) == KeepLast(arr[i..])
    decreases |arr| - i
  {
    if i < |arr| {
      KeepLastFromSuffix(arr, i + 1);
      assert arr[i..][0] == arr[i] && arr[i..][1..] == arr[i + 1..];
      if arr[i] !in arr[i + 1..] {
        LastIndexUnique(arr, arr[i], i);
      }
    }
  }

  /** `twMerge(s)`. */
  function TwMerge(s: string): string {
    Join(KeepLastFrom(Split(s), 0))
  }

  /** The tokens `twMerge` keeps, in order. */
  function Tokens(s: string): seq<string> {
    KeepLast(Split(s))
  }

  lemma TwMergeIsJoinOfTokens(s: string)
    ensures TwMerge(s) == Join(Tokens(s))
  {
    KeepLastFromSuffix(Split(s), 0);
    assert Split(s)[0..] == Split(s);
  }

  /** A token kept from the tail sits one place later in the whole list. */
  lemma KeepLastShift(a: seq<string>, x: string)
    requires a != [] && x in KeepLast(a[1..])
    ensures 0 <= LastIndexOf(a[1..], x) && LastIndexOf(a, x) == 1 + LastIndexOf(a[1..], x)
  {
    KeepLastFacts(a[1..]);
    LastIndexOfTail(a, x);
  }

  /** `r` lists its tokens in the order of their last occurrences in `a`. */
  predicate OrderedByLast(a: seq<string>, r: seq<string>) {
    forall i, j :: 0 <= i < j < |r| ==> LastIndexOf(a, r[i]) < LastIndexOf(a, r[j])
  }

  /** Among the kept tokens, the order is the order of their last occurrences. */
  lemma {:induction false} KeepLastOrder(a: seq<string>)
    ensures OrderedByLast(a, KeepLast(a))
    decreases |a|
  {
    if a != [] {
      KeepLastOrder(a[1..]);
      if a[0] != "" && a[0] !in a[1..] {
        assert KeepLast(a) == [a[0]] + KeepLast(a[1..]);
        OrderWithHead(a);
      } else {
        assert KeepLast(a) == KeepLast(a[1..]);
        OrderWithoutHead(a);
      }
    }
  }

  lemma OrderWithHead(a: seq<string>)
    requires a != [] && a[0] !in a[1..]
    requires OrderedByLast(a[1..], KeepLast(a[1..]))
    ensures OrderedByLast(a, [a[0]] + KeepLast(a[1..]))
  {
    var rest := KeepLast(a[1..]);
    var r := [a[0]] + rest;
    LastIndexUnique(a, a[0], 0);
    forall i, j | 0 <= i < j < |r| ensures LastIndexOf(a, r[i]) < LastIndexOf(a, r[j]) {
      var y := rest[j - 1];
      assert r[j] == y;
      KeepLastShift(a, y);
      if i > 0 {
        var x := rest[i - 1];
        assert r[i] == x;
        KeepLastShift(a, x);
        assert LastIndexOf(a[1..], x) < LastIndexOf(a[1..], y);
      }
    }
  }

  lemma OrderWithoutHead(a: seq<string>)
    requires a != []
    requires OrderedByLast(a[1..], KeepLast(a[1..]))
    ensures OrderedByLast(a, KeepLast(a[1..]))
  {
    var r := KeepLast(a[1..]);
    forall i, j | 0 <= i < j < |r| ensures LastIndexOf(a, r[i]) < LastIndexOf(a, r[j]) {
      KeepLastShift(a, r[i]);
      KeepLastShift(a, r[j]);
    }
  }

  /** Keeping last occurrences of a list that has no empty and no repeated token
      changes nothing. */
  lemma {:induction false} KeepLastOfDistinct(a: seq<string>)
    requires forall i :: 0 <= i < |a| ==> a[i] != ""
    requires forall i, j :: 0 <= i < j < |a| ==> a[i] != a[j]
    ensures KeepLast(a) == a
    decreases |a|
  {
    if a != [] {
      KeepLastOfDistinct(a[1..]);
      assert a[0] !in a[1..] by {
        forall k | 0 <= k < |a[1..]| ensures a[1..][k] != a[0] {
          assert a[1..][k] == a[k + 1];
        }
      }
    }
  }

  /** The elements of `r` that do not occur in `b`, in their order. */
  function Without(r: seq<string>, b: seq<string>): seq<string> {
    if r == [] then [] else (if r[0] !in b then [r[0]] else []) + Without(r[1..], b)
  }

  lemma {:induction false} WithoutMembership(r: seq<string>, b: seq<string>, x: string)
    ensures x in Without(r, b) <==> x in r && x !in b
    decreases |r|
  {
    if r != [] {
      WithoutMembership(r[1..], b, x);
      assert x in r <==> x == r[0] || x in r[1..] by {
        assert r == [r[0]] + r[1..];
      }
    }
  }

  /** Tokens later in the list win: a token of `b` survives only from `b`. */
  lemma {:induction false} KeepLastConcat(a: seq<string>, b: seq<string>)
    ensures KeepLast(a + b) == Without(KeepLast(a), b) + KeepLast(b)
    decreases |a|
  {
    if a == [] {
      assert a + b == b;
    } else {
      var t := a[1..];
      assert (a + b)[0] == a[0] && (a + b)[1..] == t + b;
      assert a[0] in t + b <==> a[0] in t || a[0] in b;
      KeepLastConcat(t, b);
      if a[0] != "" && a[0] !in t {
        var r := [a[0]] + KeepLast(t);
        assert KeepLast(a) == r;
        assert r[0] == a[0] && r[1..] == KeepLast(t);
      } else {
        assert KeepLast(a) == KeepLast(t);
      }
    }
  }

  /** Every kept token is a piece of the split input, so it holds no space. */
  lemma TokensSpaceFree(s: string)
    ensures forall i :: 0 <= i < |Tokens(s)| ==> ' ' !in Tokens(s)[i]
  {
    var out := Tokens(s);
    KeepLastFacts(Split(s));
    forall i | 0 <= i < |out| ensures ' ' !in out[i] {
      assert out[i] in Split(s);
      var k :| 0 <= k < |Split(s)| && Split(s)[k] == out[i];
    }
  }

  /** Merging merged output again keeps every token. */
  lemma TokensOfMerged(s: string)
    ensures Tokens(TwMerge(s)) == Tokens(s)
  {
    var out := Tokens(s);
    TwMergeIsJoinOfTokens(s);
    KeepLastFacts(Split(s));
    TokensSpaceFree(s);
    if out == [] {
      assert Split([]) == [[]];
      assert KeepLast([[]]) == [];
    } else {
      assert out == KeepLast(Split(s));
      SplitJoin(out);
      assert forall i :: 0 <= i < |out| ==> out[i] != "";
      assert forall i, j :: 0 <= i < j < |out| ==> out[i] != out[j];
      KeepLastOfDistinct(out);
    }
  }

  /** `twMerge` output has no empty and no repeated token, holds exactly the
      non-empty tokens of its input, orders them by last occurrence, and is
      unchanged by a second `twMerge`. */
  lemma TwMergeProperties(s: string)
    ensures var out := Tokens(s);
            && TwMerge(s) == Join(out)
            && (forall i :: 0 <= i < |out| ==> out[i] != "" && ' ' !in out[i])
            && (forall i, j :: 0 <= i < j < |out| ==> out[i] != out[j])
            && (forall x :: x in out <==> x in Split(s) && x != "")
            && OrderedByLast(Split(s), out)
    ensures TwMerge(TwMerge(s)) == TwMerge(s)
  {
    TwMergeIsJoinOfTokens(s);
    KeepLastOrder(Split(s));
    KeepLastFacts(Split(s));
    TokensSpaceFree(s);
    TokensOfMerged(s);
    TwMergeIsJoinOfTokens(TwMerge(s));
  }

  /** `cn(...inputs)`. */
  function Cn(inputs: seq<ClassValue>): string {
    TwMerge(Clsx(inputs))
  }

  /** Every token `cn` outputs is a token of the `clsx` string it merged. */
  lemma CnTokensFromClsx(inputs: seq<ClassValue>)
    ensures forall x :: x in Split(Cn(inputs)) && x != "" ==> x in Split(Clsx(inputs))
  {
    var s := Clsx(inputs);
    TwMergeProperties(s);
    var out := Tokens(s);
    if out == [] {
      assert Split([]) == [[]];
    } else {
      SplitJoin(out);
    }
  }

  /** A non-empty string followed by a value that renders to something: `clsx` puts
      one space between the two. */
  lemma ClsxPair(x: string, v: ClassValue)
    requires x != "" && Clsx([v]) != ""
    ensures Clsx([Str(x), v]) == x + " " + Clsx([v])
  {
    assert [Str(x), v][1..] == [v];
    assert [v][1..] == [];
    assert AllPieces([v]) == Pieces(v);
    assert AllPieces([Str(x), v]) == [x] + Pieces(v);
  }

  /** In `cn(x, v)` the tokens of `v` come last and take precedence: a token of `x`
      that `v` repeats survives only at its place among `v`'s tokens. */
  lemma CnLaterWins(x: string, v: ClassValue)
    requires x != "" && Clsx([v]) != ""
    ensures var c := Clsx([v]);
            Cn([Str(x), v]) == Join(Without(Tokens(x), Split(c)) + Tokens(c))
  {
    var c := Clsx([v]);
    ClsxPair(x, v);
    SplitConcat(x, c);
    KeepLastConcat(Split(x), Split(c));
    TwMergeIsJoinOfTokens(x + " " + c);
  }
}

=== FILE: codec.dfy ===
/** The commit-reveal codec of `lib/socket.ts`: the commit payload string and the
    lowercase hexadecimal rendering of the SHA-256 digest. SHA-256 itself (the browser's
    `crypto.subtle.digest` over the UTF-8 bytes of the payload) is a parameter. */
module Codec {

  import opened Wrappers
  import opened JsText

  newtype byte = x: int | 0 <= x < 256

  /** A digest function from payload text to digest bytes (SHA-256 in the source). */
  type Digest = string -> seq<byte>

  /** Length of a SHA-256 digest in bytes (FIPS 180-4). */
  const Sha256Bytes: nat := 32

  /** `${playerId}${roundKey}${choice}${nonce}` where `playerId` is the result of
      `parseInt` on the stored player id (`None` renders as `NaN`). */
  function CommitPayload(playerId: Option<int>, roundKey: string, choice: int, nonce: string): (p: string)
    ensures p == NumberText(playerId) + roundKey + DecimalString(choice) + nonce
    ensures |p| > |roundKey| + |nonce|
  {
    NumberText(playerId) + roundKey + DecimalString(choice) + nonce
  }

  // ---------------------------------------------------------------------------
  // Hexadecimal

  predicate IsLowerHex(c: char) {
    '0' <= c <= '9' || 'a' <= c <= 'f'
  }

  function HexDigit(d: nat): (c: char)
    requires d < 16
    ensures IsLowerHex(c)
    ensures d < 10 ==> c as int == '0' as int + d
    ensures d >= 10 ==> c as int == 'a' as int + d - 10
  {
    "0123456789abcdef"[d]
  }

  /** Inverse of `HexDigit` on lowercase hexadecimal characters. */
  function HexValue(c: char): (v: nat)
    requires IsLowerHex(c)
    ensures v < 16 && HexDigit(v) == c
  {
    if '0' <= c <= '9' then (c as int) - ('0' as int) else (c as int) - ('a' as int) + 10
  }

  /** `b.toString(16)`: no leading zero, so one character below 16. */
  function ToRadix16(b: byte): (r: string)
    ensures |r| == if b < 16 then 1 else 2
  {
    if b < 16 then [HexDigit(b as nat)]
    else [HexDigit((b / 16) as nat), HexDigit((b % 16) as nat)]
  }

  /** `s.padStart(2, "0")`. */
  function PadStart2(s: string): (r: string)
    ensures |s| >= 2 ==> r == s
    ensures |s| < 2 ==> |r| == 2 && r[2 - |s|..] == s
  {
    if |s| == 0 then "00" else if |s| == 1 then "0" + s else s
  }

  /** One digest byte as `b.toString(16).padStart(2, "0")`. */
  function ByteHex(b: byte): (r: string)
    ensures |r| == 2 && IsLowerHex(r[0]) && IsLowerHex(r[1])
  {
    var r := PadStart2(ToRadix16(b));
    assert b < 16 ==> r == "0" + [HexDigit(b as nat)];
    assert b >= 16 ==> r == [HexDigit((b / 16) as nat), HexDigit((b % 16) as nat)];
    r
  }

  /** The two characters spell the byte's value in base 16. */
  lemma ByteHexValue(b: byte)
    ensures var r := ByteHex(b);
            HexValue(r[0]) * 16 + HexValue(r[1]) == b as int
  {
    var r := ByteHex(b);
    assert b < 16 ==> r == "0" + [HexDigit(b as nat)];
    assert b >= 16 ==> r == [HexDigit((b / 16) as nat), HexDigit((b % 16) as nat)];
  }

  /** `hashArray.map(byteHex).join("")`. */
  function HexEncode(bs: seq<byte>): (r: string)
    ensures |r| == 2 * |bs|
    ensures forall i :: 0 <= i < |bs| ==> r[2 * i..2 * i + 2] == ByteHex(bs[i])
  {
    if bs == [] then []
    else
      var rest := HexEncode(bs[1..]);
      forall i | 0 < i < |bs| ensures (ByteHex(bs[0]) + rest)[2 * i..2 * i + 2] == ByteHex(bs[i]) {
        PairAfterHead(ByteHex(bs[0]), rest, i);
        assert bs[i] == bs[1..][i - 1];
      }
      assert (ByteHex(bs[0]) + rest)[0..2] == ByteHex(bs[0]);
      ByteHex(bs[0]) + rest
  }

  /** The `i`-th character pair after a two-character head is the `i - 1`-th of the tail. */
  lemma PairAfterHead(h: string, t: string, i: int)
    requires |h| == 2 && 0 < i && 2 * i + 2 <= |h| + |t|
    ensures (h + t)[2 * i..2 * i + 2] == t[2 * (i - 1)..2 * (i - 1) + 2]
  {
    assert (h + t)[2..] == t;
  }

  predicate AllLowerHex(s: string) {
    forall i :: 0 <= i < |s| ==> IsLowerHex(s[i])
  }

  lemma AllLowerHexConcat(h: string, t: string)
    requires AllLowerHex(h) && AllLowerHex(t)
    ensures AllLowerHex(h + t)
  {
    forall i | 0 <= i < |h + t| ensures IsLowerHex((h + t)[i]) {
      if i >= |h| {
        assert (h + t)[i] == t[i - |h|];
      }
    }
  }

  lemma AllLowerHexPair(h: string)
    requires |h| == 2 && IsLowerHex(h[0]) && IsLowerHex(h[1])
    ensures AllLowerHex(h)
  {
    forall i | 0 <= i < |h| ensures IsLowerHex(h[i]) {
      assert i == 0 || i == 1;
    }
  }

  /** Every character of the rendering is a lowercase hexadecimal digit. */
  lemma {:induction false} HexEncodeLowerHex(bs: seq<byte>)
    ensures AllLowerHex(HexEncode(bs))
    decreases |bs|
  {
    if bs != [] {
      var h := ByteHex(bs[0]);
      AllLowerHexPair(h);
      HexEncodeLowerHex(bs[1..]);
      AllLowerHexConcat(h, HexEncode(bs[1..]));
    }
  }

  /** Reads an even-length lowercase hexadecimal string back into bytes. */
  function HexDecode(s: string): (r: Option<seq<byte>>)
    ensures r.Some? ==> |r.value| * 2 == |s|
  {
    if s == [] then Some([])
    else if |s| < 2 || !IsLowerHex(s[0]) || !IsLowerHex(s[1]) then None
    else
      match HexDecode(s[2..])
      case None => None
      case Some(rest) => Some([(HexValue(s[0]) * 16 + HexValue(s[1])) as byte] + rest)
  }

  /** Decoding the rendered digest gives back the digest bytes; in particular the
      rendering is injective, so distinct digests never print the same. */
  lemma {:induction false} HexRoundTrip(bs: seq<byte>)
    ensures HexDecode(HexEncode(bs)) == Some(bs)
    decreases |bs|
  {
    if bs != [] {
      var h := ByteHex(bs[0]);
      ByteHexValue(bs[0]);
      HexRoundTrip(bs[1..]);
      assert HexEncode(bs) == h + HexEncode(bs[1..]);
      HexDecodeStep(h, HexEncode(bs[1..]), bs[1..]);
      assert (HexValue(h[0]) * 16 + HexValue(h[1])) as byte == bs[0];
      assert bs == [bs[0]] + bs[1..];
    }
  }

  /** Decoding consumes one leading pair of hexadecimal digits at a time. */
  lemma HexDecodeStep(h: string, t: string, rest: seq<byte>)
    requires |h| == 2 && IsLowerHex(h[0]) && IsLowerHex(h[1])
    requires HexDecode(t) == Some(rest)
    ensures HexDecode(h + t) == Some([(HexValue(h[0]) * 16 + HexValue(h[1])) as byte] + rest)
  {
    var s := h + t;
    assert s[0] == h[0] && s[1] == h[1] && s[2..] == t;
  }

  /** The string sent in `commit{hash}`. */
  function CommitHash(digest: Digest, playerId: Option<int>, roundKey: string, choice: int, nonce: string): (h: string)
    ensures |h| == 2 * |digest(CommitPayload(playerId, roundKey, choice, nonce))|
    ensures forall i :: 0 <= i < |h| ==> IsLowerHex(h[i])
    ensures HexDecode(h) == Some(digest(CommitPayload(playerId, roundKey, choice, nonce)))
  {
    var d := digest(CommitPayload(playerId, roundKey, choice, nonce));
    HexRoundTrip(d);
    HexEncodeLowerHex(d);
    HexEncode(d)
  }

  /** A 32-byte SHA-256 digest prints as 64 lowercase hexadecimal characters. */
  lemma CommitHashShape(digest: Digest, playerId: Option<int>, roundKey: string, choice: int, nonce: string)
    requires |digest(CommitPayload(playerId, roundKey, choice, nonce))| == Sha256Bytes
    ensures |CommitHash(digest, playerId, roundKey, choice, nonce)| == 64
  {
  }

  /** The server's check of a reveal: recompute the commitment from the revealed
      choice and nonce and compare it with the hash received at commit time. */
  predicate RevealMatches(digest: Digest, playerId: Option<int>, roundKey: string, choice: int, nonce: string, committed: string) {
    CommitHash(digest, playerId, roundKey, choice, nonce) == committed
  }

  /** The payload is not an injective encoding: player 1 in round "23" and player 12 in
      round "3" produce the same payload, and so the same hash, for any choice and nonce. */
  lemma PayloadCollision(choice: int, nonce: string)
    ensures CommitPayload(Some(1), "23", choice, nonce) == CommitPayload(Some(12), "3", choice, nonce)
  {
    assert NumberText(Some(1)) == "1" by {
      assert Digits(1) == [DigitChar(1)];
    }
    assert NumberText(Some(12)) == "12" by {
      assert Digits(12) == Digits(1) + [DigitChar(2)];
    }
    assert "1" + "23" == "12" + "3";
  }
}

=== FILE: events.dfy ===
/** The socket event handlers of `createSocketEventHandlers` in
    components/context/gameActions.ts. Each handler reads the state snapshot it was
    created with and returns its effects in source order. */
module Events {

  import opened Wrappers
  import opened JsText
  import opened Transient
  import opened Types
  import opened Store
  import Transport

  /** The error a handler throws when it reaches a use of `socket`, a name its factory
      never binds. */
  const SocketNotDefined: string := "ReferenceError: socket is not defined"

  /** `x || d` for a string field that may be missing. */
  function OrString(x: Option<string>, d: string): string {
    if x.Some? && x.value != "" then x.value else d
  }

  /** `x || d` for an integer field that may be missing. */
  function OrInt(x: Option<int>, d: int): int {
    if x.Some? && x.value != 0 then x.value else d
  }

  /** `x || d` for an amount that may be missing. */
  function OrAmount(x: Option<real>, d: real): real {
    if x.Some? && x.value != 0.0 then x.value else d
  }

  // ---------------------------------------------------------------------------
  // Connection

  /** Whether `onConnect` re-announces the player. */
  predicate RejoinsOnConnect(s: GameState) {
    s.player.isAuthenticated
  }

  /** The state update `onConnect` makes before anything else. */
  function ConnectedPatch(s: GameState, env: Env): Patch {
    NoChange.(isConnecting := Some(false),
              notifications := Some(Notify(s, env, 0, "Connected to game server", Success)))
  }

  /** `onConnect`, with the re-announcement going through the provider's socket as the
      code intends. */
  function OnConnect(s: GameState, env: Env): (effs: seq<Effect>)
    ensures After(s, effs) == s.(isConnecting := false, notifications := AddNotification(s.notifications, "Connected to game server", env.ids(0), env.now, Success))
    ensures Posted(After(s, effs), "Connected to game server", Success)
    ensures Calls(effs) == if RejoinsOnConnect(s) then [Transport.JoinPlayer(ParseInt(s.player.id))] else []
  {
    var p := ConnectedPatch(s, env);
    var x := Merge(s, p);
    assert x == s.(isConnecting := false, notifications := Notify(s, env, 0, "Connected to game server", Success));
    AfterUpdate(s, p);
    if RejoinsOnConnect(s) then
      var m := Transport.JoinPlayer(ParseInt(s.player.id));
      AfterCons(s, Update(p), [Send(m)]);
      AfterCons(x, Send(m), []);
      [Update(p)] + [Send(m)]
    else
      [Update(p)]
  }

  /** `onConnect` as written: after the state update, an authenticated client reaches
      `socket.joinPlayer` with `socket` unbound and throws, so nothing is sent. */
  function OnConnectAsWritten(s: GameState, env: Env): (o: Outcome)
    ensures Calls(o.effects) == []
    ensures o.thrown.Some? <==> RejoinsOnConnect(s)
    ensures After(s, o.effects) == s.(isConnecting := false, notifications := AddNotification(s.notifications, "Connected to game server", env.ids(0), env.now, Success))
  {
    var p := ConnectedPatch(s, env);
    AfterUpdate(s, p);
    if RejoinsOnConnect(s) then Outcome([Update(p)], Some(SocketNotDefined)) else Outcome([Update(p)], None)
  }

  /** A signed-in player with id "7" whose connection comes back: as written the
      handler throws before re-announcing, so the server never hears `joinPlayer`; the
      corrected handler sends `joinPlayer(7)`. */
  lemma ReconnectCounterexample(env: Env)
    ensures var s := InitialState().(player := InitialPlayer().(id := "7", isAuthenticated := true));
            && OnConnectAsWritten(s, env).thrown == Some(SocketNotDefined)
            && Calls(OnConnectAsWritten(s, env).effects) == []
            && Calls(OnConnect(s, env)) == [Transport.JoinPlayer(Some(7))]
  {
    ParseIntOfDecimal(7);
    assert DecimalString(7) == "7";
  }

  /** `onDisconnect`: the client keeps its room and round; it only clears
      `isConnecting` and posts a warning. */
  function OnDisconnect(s: GameState, env: Env): (effs: seq<Effect>)
    ensures !After(s, effs).isConnecting
    ensures After(s, effs).notifications == Notify(s, env, 0, "Disconnected from game server", Warning)
    ensures After(s, effs) == s.(isConnecting := false, notifications := After(s, effs).notifications)
    ensures Calls(effs) == []
  {
    var p := NoChange.(isConnecting := Some(false),
                       notifications := Some(Notify(s, env, 0, "Disconnected from game server", Warning)));
    AfterUpdate(s, p);
    [Update(p)]
  }

  // ---------------------------------------------------------------------------
  // Player and room

  datatype PlayerJoinedGameData = PlayerJoinedGameData(player_id: int, username: string, balance: real)

  /** `onPlayerJoinedGame`: the server confirms the identity. */
  function OnPlayerJoinedGame(s: GameState, d: PlayerJoinedGameData): (effs: seq<Effect>)
    ensures var p := After(s, effs).player;
            p.isAuthenticated && p.id == DecimalString(d.player_id) && ParseInt(p.id) == Some(d.player_id)
            && p.username == d.username && p.balance == d.balance
            && p.rating == s.player.rating && p.wins == s.player.wins
    ensures After(s, effs) == s.(player := After(s, effs).player)
  {
    ParseIntOfDecimal(d.player_id);
    var p := NoChange.(player := Some(s.player.(id := DecimalString(d.player_id), username := d.username,
                                               balance := d.balance, isAuthenticated := true)));
    AfterUpdate(s, p);
    [Update(p)]
  }

  /** The `room_joined` payload; every key may be missing. */
  datatype RoomJoinedData = RoomJoinedData(
    room_key_last_5: Option<string>,
    tier: Option<string>,
    stake: Option<real>,
    entry_fee: Option<real>,
    capacity: Option<int>,
    player_count: Option<int>,
    state: Option<string>,
    spectators: Option<int>,
    pot: Option<real>)

  /** `onRoomJoined`: membership confirmed; missing or falsy keys take the defaults.
      Only the membership fields, the room, the prize pool, the capacity and the
      notifications change. */
  function OnRoomJoined(s: GameState, env: Env, d: RoomJoinedData): (effs: seq<Effect>)
    ensures var t := After(s, effs);
            && t.isInRoom && t.room.Some?
            && t.room.value.id == OrString(d.room_key_last_5, "unknown")
            && t.room.value.tier == OrString(d.tier, "casual")
            && t.room.value.stake == OrAmount(d.stake, 0.0)
            && t.room.value.entryFee == OrAmount(d.entry_fee, 0.0)
            && t.room.value.minPlayers == 2
            && t.room.value.maxPlayers == OrInt(d.capacity, 12)
            && t.room.value.currentPlayers == OrInt(d.player_count, 0)
            && t.room.value.phase == OrString(d.state, "waiting")
            && t.room.value.spectators == OrInt(d.spectators, 0)
    ensures var t := After(s, effs);
            && t.prizePool == Some(OrAmount(d.pot, 0.0))
            && t.capacity == Some(OrInt(d.capacity, 12))
            && (t.currentView == Spectator <==> d.spectators.Some? && d.spectators.value > 0)
            && (t.currentView != Spectator ==> t.currentView == WaitingRoom)
            && t.notifications == Notify(s, env, 0, "Joined room successfully", Success)
    ensures var t := After(s, effs);
            t == s.(isInRoom := true, currentView := t.currentView, room := t.room, prizePool := t.prizePool,
                    capacity := t.capacity, notifications := t.notifications)
    ensures Calls(effs) == []
  {
    var p := NoChange.(
      isInRoom := Some(true),
      currentView := Some(if d.spectators.Some? && d.spectators.value > 0 then Spectator else WaitingRoom),
      room := Some(Some(Room(
        OrString(d.room_key_last_5, "unknown"),
        OrString(d.tier, "casual"),
        OrAmount(d.stake, 0.0),
        OrAmount(d.entry_fee, 0.0),
        2,
        OrInt(d.capacity, 12),
        OrInt(d.player_count, 0),
        OrString(d.state, "waiting"),
        OrInt(d.spectators, 0)))),
      prizePool := Some(Some(OrAmount(d.pot, 0.0))),
      capacity := Some(Some(OrInt(d.capacity, 12))),
      notifications := Some(Notify(s, env, 0, "Joined room successfully", Success)));
    AfterUpdate(s, p);
    [Update(p)]
  }

  /** `room` with its player count replaced; no room stays no room. */
  function WithPlayerCount(r: Option<Room>, count: int): (r': Option<Room>)
    ensures r'.Some? <==> r.Some?
    ensures r.Some? ==> r'.value == r.value.(currentPlayers := count)
  {
    if r.Some? then Some(r.value.(currentPlayers := count)) else None
  }

  datatype PlayerJoinedRoomData = PlayerJoinedRoomData(username: string, is_spectator: bool, player_count: int)

  /** `onPlayerJoinedRoom`: only the room's player count and a notice change. */
  function OnPlayerJoinedRoom(s: GameState, env: Env, d: PlayerJoinedRoomData): (effs: seq<Effect>)
    ensures var t := After(s, effs);
            t == s.(room := WithPlayerCount(s.room, d.player_count), notifications := t.notifications)
    ensures After(s, effs).notifications
            == Notify(s, env, 0, d.username + (if d.is_spectator then " is spectating" else " joined the game"), Info)
  {
    var p := NoChange.(
      room := Some(WithPlayerCount(s.room, d.player_count)),
      notifications := Some(Notify(s, env, 0,
        d.username + (if d.is_spectator then " is spectating" else " joined the game"), Info)));
    AfterUpdate(s, p);
    [Update(p)]
  }

  datatype PlayerLeftRoomData = PlayerLeftRoomData(username: string, player_count: int)

  /** `onPlayerLeftRoom`: only the room's player count and a notice change. */
  function OnPlayerLeftRoom(s: GameState, env: Env, d: PlayerLeftRoomData): (effs: seq<Effect>)
    ensures var t := After(s, effs);
            t == s.(room := WithPlayerCount(s.room, d.player_count), notifications := t.notifications)
    ensures After(s, effs).notifications == Notify(s, env, 0, d.username + " left the room", Info)
  {
    var p := NoChange.(
      room := Some(WithPlayerCount(s.room, d.player_count)),
      notifications := Some(Notify(s, env, 0, d.username + " left the room", Info)));
    AfterUpdate(s, p);
    [Update(p)]
  }

  /** The membership fields both ways of leaving a room clear. */
  predicate LeftRoom(t: GameState) {
    && !t.isInRoom && t.currentView == Home
    && t.room.None? && t.round.None? && t.currentRound.None? && t.results.None?
    && t.commitState == InitialCommitState()
  }

  /** `onRoomLeft`: membership, round and commit cleared; queue and prize pool reset;
      a notice. Nothing else changes. */
  function OnRoomLeft(s: GameState, env: Env): (effs: seq<Effect>)
    ensures var t := After(s, effs);
            LeftRoom(t) && t.queueState == InitialQueueState() && t.prizePool == Some(0.0)
            && t.player == s.player && t.settings == s.settings
    ensures var t := After(s, effs);
            && t.notifications == Notify(s, env, 0, "Left the room", Info)
            && t == s.(isInRoom := false, currentView := Home, room := None, round := None, currentRound := None,
                       results := None, commitState := t.commitState, queueState := t.queueState,
                       prizePool := t.prizePool, notifications := t.notifications)
    ensures Calls(effs) == []
  {
    var p := NoChange.(
      isInRoom := Some(false),
      currentView := Some(Home),
      room := Some(None),
      round := Some(None),
      currentRound := Some(None),
      results := Some(None),
      commitState := Some(InitialCommitState()),
      queueState := Some(InitialQueueState()),
      prizePool := Some(Some(0.0)),
      notifications := Some(Notify(s, env, 0, "Left the room", Info)));
    AfterUpdate(s, p);
    [Update(p)]
  }

  /** `onRemovedFromRoom`: like leaving, but the queue and prize pool are kept. */
  function OnRemovedFromRoom(s: GameState, env: Env, message: Option<string>): (effs: seq<Effect>)
    ensures var t := After(s, effs);
            LeftRoom(t) && t.queueState == s.queueState && t.prizePool == s.prizePool
            && t.player == s.player
    ensures var t := After(s, effs);
            && t.notifications == Notify(s, env, 0, OrString(message, "Removed from room"), Warning)
            && t == s.(isInRoom := false, currentView := Home, room := None, round := None, currentRound := None,
                       results := None, commitState := t.commitState, notifications := t.notifications)
    ensures Calls(effs) == []
  {
    var p := NoChange.(
      isInRoom := Some(false),
      currentView := Some(Home),
      room := Some(None),
      round := Some(None),
      currentRound := Some(None),
      results := Some(None),
      commitState := Some(InitialCommitState()),
      notifications := Some(Notify(s, env, 0, OrString(message, "Removed from room"), Warning)));
    AfterUpdate(s, p);
    [Update(p)]
  }

  // ---------------------------------------------------------------------------
  // Round flow

  /** The `deal` payload; `deadline` is `selection_deadline` already read as epoch ms. */
  datatype DealData = DealData(
    round_key: string,
    adjective: string,
    nouns: seq<string>,
    deadline: int,
    selection_duration: int,
    pot: real)

  function DealtRound(d: DealData, id: string, now: int): Round {
    Round(id, d.round_key, d.adjective, d.nouns, Max0(d.deadline - now), 0, Selecting, false,
          d.deadline, Some(d.selection_duration))
  }

  /** `onDeal`: a new round in `selecting`, a clean commit state, and `round` and
      `currentRound` equal apart from their generated ids. The previous results stay,
      and nothing but the view, the two rounds, the prize pool and the commit state
      changes. */
  function OnDeal(s: GameState, env: Env, d: DealData): (effs: seq<Effect>)
    ensures var t := After(s, effs);
            && t.round.Some? && t.currentRound.Some?
            && t.round.value.id == env.ids(0)
            && t.round.value.roundKey == d.round_key
            && t.round.value.adjective == d.adjective
            && t.round.value.nouns == d.nouns
            && t.round.value.timeLeft == Max0(d.deadline - env.now)
            && t.round.value.playersLockedIn == 0
            && t.round.value.phase == Selecting
            && !t.round.value.resultsRevealed
            && t.round.value.selectionDeadline == d.deadline
            && t.round.value.selectionDuration == Some(d.selection_duration)
            && t.currentRound.value == t.round.value.(id := env.ids(1))
    ensures var t := After(s, effs);
            && t.commitState == InitialCommitState()
            && t.results == s.results
            && t.currentView == RoundSelect
            && t.prizePool == Some(d.pot)
            && t == s.(currentView := RoundSelect, round := t.round, currentRound := t.currentRound,
                       prizePool := Some(d.pot), commitState := InitialCommitState())
    ensures Calls(effs) == []
  {
    var p := NoChange.(
      currentView := Some(RoundSelect),
      round := Some(Some(DealtRound(d, env.ids(0), env.now))),
      currentRound := Some(Some(DealtRound(d, env.ids(1), env.now))),
      prizePool := Some(Some(d.pot)),
      commitState := Some(InitialCommitState()));
    AfterUpdate(s, p);
    [Update(p)]
  }

  /** `onCommitsUpdate`: only the lock-in counter of an existing round changes. */
  function OnCommitsUpdate(s: GameState, commitsCount: int): (effs: seq<Effect>)
    ensures var t := After(s, effs);
            && (t.round.Some? <==> s.round.Some?)
            && (s.round.Some? ==> t.round.value == s.round.value.(playersLockedIn := commitsCount))
            && t == s.(round := t.round)
    ensures Calls(effs) == []
  {
    var p := NoChange.(round := Some(if s.round.Some? then Some(s.round.value.(playersLockedIn := commitsCount)) else None));
    AfterUpdate(s, p);
    [Update(p)]
  }

  /** `onCommitAck`: a notice only; the commit state was already written by the action. */
  function OnCommitAck(s: GameState, env: Env): (effs: seq<Effect>)
    ensures var t := After(s, effs);
            t == s.(notifications := t.notifications) && t.notifications == Notify(s, env, 0, "Choice locked in", Success)
  {
    var p := NoChange.(notifications := Some(Notify(s, env, 0, "Choice locked in", Success)));
    AfterUpdate(s, p);
    [Update(p)]
  }

  /** Whether `onRequestReveal` reveals: a commitment with a choice and a non-empty
      nonce. There is no `hasRevealed` test. */
  predicate AutoReveals(c: CommitState) {
    c.hasCommitted && c.choice.Some? && c.nonce.Some? && c.nonce.value != ""
  }

  function RevealingRound(r: Option<Round>): (r': Option<Round>)
    ensures r'.Some? <==> r.Some?
    ensures r.Some? ==> r'.value == r.value.(phase := Revealing)
  {
    if r.Some? then Some(r.value.(phase := Revealing)) else None
  }

  /** The state update `onRequestReveal` makes before anything else. */
  function RevealPatch(s: GameState): Patch {
    NoChange.(currentView := Some(RoundReveal), round := Some(RevealingRound(s.round)))
  }

  /** `onRequestReveal`, with the reveal going through the provider's socket as the code
      intends: the round enters `revealing`; the stored choice and nonce are revealed
      under the key from the event, and `hasRevealed` set, exactly when `AutoReveals`. */
  function OnRequestReveal(s: GameState, roundKey: string): (effs: seq<Effect>)
    ensures var t := After(s, effs);
            && t.round == RevealingRound(s.round)
            && t.currentView == RoundReveal
            && t.commitState == s.commitState.(hasRevealed := s.commitState.hasRevealed || AutoReveals(s.commitState))
            && t == s.(round := t.round, currentView := t.currentView, commitState := t.commitState)
    ensures AutoReveals(s.commitState) ==>
              Calls(effs) == [Transport.Reveal(s.commitState.choice.value, s.commitState.nonce.value, roundKey)]
    ensures !AutoReveals(s.commitState) ==> Calls(effs) == []
  {
    if AutoReveals(s.commitState) then RevealAndSend(s, roundKey) else EnterRevealing(s)
  }

  /** The first update alone: the round enters `revealing` and the reveal screen shows. */
  function EnterRevealing(s: GameState): (effs: seq<Effect>)
    ensures After(s, effs) == s.(round := RevealingRound(s.round), currentView := RoundReveal)
    ensures Calls(effs) == []
  {
    AfterUpdate(s, RevealPatch(s));
    [Update(RevealPatch(s))]
  }

  /** The first update, the reveal of the stored choice and nonce, then `hasRevealed`. */
  function RevealAndSend(s: GameState, roundKey: string): (effs: seq<Effect>)
    requires AutoReveals(s.commitState)
    ensures After(s, effs)
            == s.(round := RevealingRound(s.round), currentView := RoundReveal,
                  commitState := s.commitState.(hasRevealed := true))
    ensures Calls(effs) == [Transport.Reveal(s.commitState.choice.value, s.commitState.nonce.value, roundKey)]
  {
    var p := RevealPatch(s);
    var x := Merge(s, p);
    var m := Transport.Reveal(s.commitState.choice.value, s.commitState.nonce.value, roundKey);
    var q := NoChange.(commitState := Some(s.commitState.(hasRevealed := true)));
    assert x == s.(round := RevealingRound(s.round), currentView := RoundReveal);
    AfterCons(s, Update(p), [Send(m)] + [Update(q)]);
    AfterCons(x, Send(m), [Update(q)]);
    AfterUpdate(x, q);
    [Update(p)] + ([Send(m)] + [Update(q)])
  }

  /** `onRequestReveal` as written: with a commitment to reveal, the handler reaches
      `socket.reveal` with `socket` unbound and throws after entering `revealing`, so
      no reveal is sent and `hasRevealed` stays as it was. */
  function OnRequestRevealAsWritten(s: GameState, roundKey: string): (o: Outcome)
    ensures Calls(o.effects) == []
    ensures o.thrown.Some? <==> AutoReveals(s.commitState)
    ensures After(s, o.effects).commitState == s.commitState
    ensures After(s, o.effects).round == RevealingRound(s.round)
    ensures After(s, o.effects) == s.(round := RevealingRound(s.round), currentView := RoundReveal)
  {
    AfterUpdate(s, RevealPatch(s));
    Outcome([Update(RevealPatch(s))], if AutoReveals(s.commitState) then Some(SocketNotDefined) else None)
  }

  /** A committed player whose reveal request arrives: as written the handler throws
      and nothing is revealed, so the commitment is forfeited; the corrected handler
      reveals choice 2 with nonce "n0" under the event's key. */
  lemma RevealCounterexample()
    ensures var s := InitialState().(commitState := CommitState(true, false, Some(2), Some("n0"), Some("h")));
            && OnRequestRevealAsWritten(s, "k").thrown == Some(SocketNotDefined)
            && Calls(OnRequestRevealAsWritten(s, "k").effects) == []
            && !After(s, OnRequestRevealAsWritten(s, "k").effects).commitState.hasRevealed
            && Calls(OnRequestReveal(s, "k")) == [Transport.Reveal(2, "n0", "k")]
            && After(s, OnRequestReveal(s, "k")).commitState.hasRevealed
  {
  }

  /** Without a `hasRevealed` guard, a repeated reveal request reveals again, under
      whichever key the second event carries. */
  lemma RepeatedRequestRevealsAgain(s: GameState, key1: string, key2: string)
    requires AutoReveals(s.commitState)
    ensures var t := After(s, OnRequestReveal(s, key1));
            && t.commitState.hasRevealed
            && Calls(OnRequestReveal(t, key2))
                 == [Transport.Reveal(s.commitState.choice.value, s.commitState.nonce.value, key2)]
  {
  }

  /** `onRevealAck`: the reveal is confirmed; everything else about the commit stays. */
  function OnRevealAck(s: GameState): (effs: seq<Effect>)
    ensures var t := After(s, effs);
            t.commitState == s.commitState.(hasRevealed := true) && t == s.(commitState := t.commitState)
  {
    var p := NoChange.(commitState := Some(s.commitState.(hasRevealed := true)));
    AfterUpdate(s, p);
    [Update(p)]
  }

  /** `onRevealInvalid`: treated as revealed (the server picks for us), with a warning. */
  function OnRevealInvalid(s: GameState, env: Env): (effs: seq<Effect>)
    ensures var t := After(s, effs);
            && t.commitState == s.commitState.(hasRevealed := true)
            && t == s.(commitState := t.commitState, notifications := t.notifications)
            && t.notifications == Notify(s, env, 0, "Invalid reveal - random choice assigned", Warning)
  {
    var p := NoChange.(
      notifications := Some(Notify(s, env, 0, "Invalid reveal - random choice assigned", Warning)),
      commitState := Some(s.commitState.(hasRevealed := true)));
    AfterUpdate(s, p);
    [Update(p)]
  }

  datatype RoundResultsData = RoundResultsData(
    round_key: string,
    adjective: string,
    nouns: seq<string>,
    selection_counts: seq<int>,
    your_choice: int,
    pot: real,
    payout: real,
    new_balance: real)

  function Sum(xs: seq<int>): int {
    if xs == [] then 0 else xs[0] + Sum(xs[1..])
  }

  /** `nouns.map((noun, i) => ...)`: the count at the same index, and its share of the
      total in percent (`NaN`, here `None`, when the count is missing and the total
      positive). */
  function Tallies(nouns: seq<string>, counts: seq<int>, total: int): (r: seq<ChoiceTally>)
    ensures |r| == |nouns|
    ensures forall i :: 0 <= i < |r| ==> r[i].noun == nouns[i]
    ensures forall i :: 0 <= i < |r| ==> r[i].playerCount == if i < |counts| then Some(counts[i]) else None
  {
    seq(|nouns|, i requires 0 <= i < |nouns| =>
      ChoiceTally(
        nouns[i],
        if i < |counts| then Some(counts[i]) else None,
        if total > 0 then (if i < |counts| then Some(counts[i] as real / total as real * 100.0) else None)
        else Some(0.0)))
  }

  function CompletedRound(r: Option<Round>): (r': Option<Round>)
    ensures r'.Some? <==> r.Some?
    ensures r.Some? ==> r'.value == r.value.(phase := Complete, resultsRevealed := true)
  {
    if r.Some? then Some(r.value.(phase := Complete, resultsRevealed := true)) else None
  }

  /** The notice `onRoundResults` posts: the payout as a success, or a consolation. */
  function ResultNotice(s: GameState, env: Env, payout: real): seq<Notification> {
    if payout > 0.0 then Notify(s, env, 1, "You won " + env.numberText(payout) + " coins!", Success)
    else Notify(s, env, 1, "Better luck next round", Info)
  }

  /** `onRoundResults`: the round completes, the results are stored with the counts as
      received, the balance becomes the server's and the outcome is announced. Nothing
      else changes: the prize pool, the room and the commit state stay. */
  function OnRoundResults(s: GameState, env: Env, d: RoundResultsData): (effs: seq<Effect>)
    ensures var t := After(s, effs);
            && t.results.Some?
            && t.results.value.roundId == env.ids(0)
            && t.results.value.roundKey == d.round_key
            && |t.results.value.choices| == |d.nouns|
            && t.results.value.adjective == d.adjective
            && t.results.value.nouns == d.nouns
            && t.results.value.selectionCounts == d.selection_counts
            && t.results.value.yourChoice == d.your_choice
            && t.results.value.playerChoice == d.your_choice
            && t.results.value.winnings == d.payout
            && (t.results.value.isCorrect <==> d.payout > 0.0)
    ensures var t := After(s, effs);
            && t.player == s.player.(balance := d.new_balance)
            && t.round == CompletedRound(s.round)
            && t.commitState == s.commitState
            && t.currentView == WaitingRoom
            && (d.payout > 0.0 ==> t.notifications == Notify(s, env, 1, "You won " + env.numberText(d.payout) + " coins!", Success))
            && (d.payout <= 0.0 ==> t.notifications == Notify(s, env, 1, "Better luck next round", Info))
            && t == s.(currentView := WaitingRoom, results := t.results, player := t.player, round := t.round,
                       notifications := t.notifications)
    ensures Calls(effs) == []
  {
    var total := Sum(d.selection_counts);
    var won := d.payout > 0.0;
    var p := NoChange.(
      currentView := Some(WaitingRoom),
      results := Some(Some(GameResults(
        env.ids(0), d.round_key, Tallies(d.nouns, d.selection_counts, total), d.adjective, d.nouns,
        d.selection_counts, d.your_choice, d.your_choice, d.payout, won))),
      player := Some(s.player.(balance := d.new_balance)),
      round := Some(CompletedRound(s.round)),
      notifications := Some(ResultNotice(s, env, d.payout)));
    AfterUpdate(s, p);
    [Update(p)]
  }

  datatype NextRoundInfoData = NextRoundInfoData(start_time: string, player_count: int, spectators: int, pot: real)

  /** `onNextRoundInfo`: room counts and prize pool only; the round and its phase stay. */
  function OnNextRoundInfo(s: GameState, d: NextRoundInfoData): (effs: seq<Effect>)
    ensures var t := After(s, effs);
            && t.round == s.round && t.commitState == s.commitState && t.results == s.results
            && (t.room.Some? <==> s.room.Some?)
            && (s.room.Some? ==> t.room.value == s.room.value.(currentPlayers := d.player_count, spectators := d.spectators))
            && t == s.(room := t.room, prizePool := Some(d.pot))
    ensures Calls(effs) == []
  {
    var p := NoChange.(
      room := Some(if s.room.Some? then Some(s.room.value.(currentPlayers := d.player_count, spectators := d.spectators)) else None),
      prizePool := Some(Some(d.pot)));
    AfterUpdate(s, p);
    [Update(p)]
  }

  // ---------------------------------------------------------------------------
  // Emotes, queue, spectator view, errors

  /** `onPlayerEmote`. Three ids are drawn: the one handed to the removal timer, one
      passed as the emote's `playerId`, and the emote's own id. The timer's callback
      filters the emote list of this handler's snapshot. */
  function OnPlayerEmote(s: GameState, env: Env, emote: string, username: string): (effs: seq<Effect>)
    ensures After(s, effs) == s.(recentEmotes := AddEmote(s.recentEmotes, env.ids(1), username, emote, env.ids(2), env.now))
    ensures Calls(effs) == []
    ensures |effs| == 2 && effs[1] == Schedule(AutoRemovalDelayMs, EmoteRemoval(env.ids(0), s.recentEmotes))
  {
    var t := SetupAutoRemoval(env.ids(0));
    var p := NoChange.(recentEmotes := Some(AddEmote(s.recentEmotes, env.ids(1), username, emote, env.ids(2), env.now)));
    var timer := Schedule(t.delayMs, EmoteRemoval(t.targetId, s.recentEmotes));
    AfterCons(s, Update(p), [timer]);
    AfterCons(Merge(s, p), timer, []);
    [Update(p)] + [timer]
  }

  /** The id handed to the emote timer is never an id of a stored emote, so when the
      timer fires its filter removes nothing: it writes back the snapshot taken before
      the emote was added, which drops the new emote along with anything newer. */
  lemma EmoteTimerRestoresSnapshot(s: GameState, env: Env, emote: string, username: string)
    requires forall i :: 0 <= i < |s.recentEmotes| ==> s.recentEmotes[i].id != env.ids(0)
    ensures var effs := OnPlayerEmote(s, env, emote, username);
            FireTask(effs[1].task).recentEmotes == Some(s.recentEmotes)
  {
  }

  /** `onQueueUpdate`: in the queue, at the reported position, 30 s per place. */
  function OnQueueUpdate(s: GameState, position: int, totalWaiting: int): (effs: seq<Effect>)
    ensures var t := After(s, effs);
            t.queueState == QueueState(true, position, position * 30) && t == s.(queueState := t.queueState)
  {
    var p := NoChange.(queueState := Some(QueueState(true, position, position * 30)));
    AfterUpdate(s, p);
    [Update(p)]
  }

  datatype GameStateData = GameStateData(adjective: string, nouns: seq<string>, deadline: int, commits_count: int)

  /** `onGameState`: the spectator's view of the running round, keyed `"spectator"`. */
  function OnGameState(s: GameState, env: Env, d: GameStateData): (effs: seq<Effect>)
    ensures var t := After(s, effs);
            && t.currentView == Spectator
            && t.round.Some? && t.round.value.id == env.ids(0) && t.round.value.roundKey == "spectator"
            && t.round.value.adjective == d.adjective && t.round.value.nouns == d.nouns
            && t.round.value.timeLeft == Max0(d.deadline - env.now)
            && t.round.value.phase == Selecting && t.round.value.playersLockedIn == d.commits_count
            && !t.round.value.resultsRevealed
            && t.round.value.selectionDeadline == d.deadline
            && t.round.value.selectionDuration.None?
            && t == s.(currentView := Spectator, round := t.round)
  {
    var p := NoChange.(
      currentView := Some(Spectator),
      round := Some(Some(Round(env.ids(0), "spectator", d.adjective, d.nouns, Max0(d.deadline - env.now),
                               d.commits_count, Selecting, false, d.deadline, None))));
    AfterUpdate(s, p);
    [Update(p)]
  }

  /** `onError` and `onGameError` (identical): record the message and show it. */
  function OnError(s: GameState, env: Env, message: string): (effs: seq<Effect>)
    ensures var t := After(s, effs);
            && t.error == Some(message)
            && t.notifications == Notify(s, env, 0, message, Error)
            && t == s.(error := Some(message), notifications := t.notifications)
  {
    var p := NoChange.(error := Some(Some(message)), notifications := Some(Notify(s, env, 0, message, Error)));
    AfterUpdate(s, p);
    [Update(p)]
  }
}

=== FILE: jstext.dfy ===
/** The JavaScript string primitives the client relies on: `String(n)` for integers,
    `parseInt(s)` without a radix, `s.split(" ")`, `a.join(" ")` and `s.trim()`. */
module JsText {

  import opened Wrappers

  /** The characters `trim()` and `parseInt` treat as white space: tab, vertical tab,
      form feed, the byte-order mark, every space separator of Unicode category Zs
      (U+0020, U+00A0, U+1680, U+2000 to U+200A, U+202F, U+205F, U+3000) and the line
      terminators LF, CR, U+2028 and U+2029 (section 12.2 and 12.3 of ECMA-262). */
  predicate IsWhite(c: char) {
    c == ' ' || c == '\t' || c == '\n' || c == '\r' || c == '\U{000B}' || c == '\U{000C}'
    || c == '\U{00A0}' || c == '\U{1680}' || ('\U{2000}' <= c <= '\U{200A}')
    || c == '\U{202F}' || c == '\U{205F}' || c == '\U{3000}'
    || c == '\U{FEFF}' || c == '\U{2028}' || c == '\U{2029}'
  }

  function TrimStart(s: string): (r: string)
    ensures |r| <= |s|
    ensures r == s[|s| - |r|..]
    ensures r != [] ==> !IsWhite(r[0])
    ensures forall i :: 0 <= i < |s| - |r| ==> IsWhite(s[i])
  {
    if s != [] && IsWhite(s[0]) then TrimStart(s[1..]) else s
  }

  function TrimEnd(s: string): (r: string)
    ensures |r| <= |s|
    ensures r == s[..|r|]
    ensures r != [] ==> !IsWhite(r[|r| - 1])
    ensures forall i :: |r| <= i < |s| ==> IsWhite(s[i])
  {
    if s != [] && IsWhite(s[|s| - 1]) then TrimEnd(s[..|s| - 1]) else s
  }

  /** `s.trim()`. */
  function Trim(s: string): (r: string)
    ensures r == [] <==> forall i :: 0 <= i < |s| ==> IsWhite(s[i])
  {
    var t := TrimStart(s);
    var r := TrimEnd(t);
    assert r == [] ==> t == [];
    r
  }

  /** `trim()` cuts white space off both ends and nothing else: the result is a slice of
      the input, everything before and after it is white space, and its own first and
      last characters are not. */
  lemma TrimStripsEnds(s: string) returns (i: nat)
    ensures var r := Trim(s);
            && (r != [] ==> !IsWhite(r[0]) && !IsWhite(r[|r| - 1]))
            && i + |r| <= |s| && r == s[i..i + |r|]
            && (forall k :: 0 <= k < i ==> IsWhite(s[k]))
            && (forall k :: i + |r| <= k < |s| ==> IsWhite(s[k]))
  {
    TrimEnds(s);
    i := TrimSlice(s);
  }

  lemma TrimEnds(s: string)
    ensures var r := Trim(s); r != [] ==> !IsWhite(r[0]) && !IsWhite(r[|r| - 1])
  {
    var t := TrimStart(s);
    var r := TrimEnd(t);
    if r != [] {
      assert r[0] == t[0];
    }
  }

  lemma TrimSlice(s: string) returns (i: nat)
    ensures var r := Trim(s);
            && i + |r| <= |s| && r == s[i..i + |r|]
            && (forall k :: 0 <= k < i ==> IsWhite(s[k]))
            && (forall k :: i + |r| <= k < |s| ==> IsWhite(s[k]))
  {
    i := |s| - |TrimStart(s)|;
    TrimEndWithin(s, i);
  }

  /** Trimming the end of `s[i..]` leaves a slice of `s` followed by white space. */
  lemma TrimEndWithin(s: string, i: nat)
    requires i <= |s|
    ensures var r := TrimEnd(s[i..]);
            && r == s[i..i + |r|]
            && forall k :: i + |r| <= k < |s| ==> IsWhite(s[k])
  {
    var t := s[i..];
    var r := TrimEnd(t);
    forall k | i + |r| <= k < |s| ensures IsWhite(s[k]) {
      assert s[k] == t[k - i];
    }
  }

  /** Unicode space separators count as white space: names made only of them trim to
      nothing. */
  lemma TrimUnicodeSpaces()
    ensures Trim("\U{3000}") == []
    ensures Trim("\U{1680}\U{2007}\U{202F}") == []
  {
    var s := "\U{1680}\U{2007}\U{202F}";
    assert IsWhite(s[0]) && IsWhite(s[1]) && IsWhite(s[2]);
  }

  /** Trimming an already trimmed string changes nothing. */
  lemma TrimIdempotent(s: string)
    ensures Trim(Trim(s)) == Trim(s)
  {
    var _ := TrimStripsEnds(s);
    var r := Trim(s);
    assert TrimStart(r) == r;
  }

  // ---------------------------------------------------------------------------
  // Numbers as text

  function DigitChar(d: nat): (c: char)
    requires d < 10
  {
    "0123456789"[d]
  }

  predicate IsDigit(c: char) {
    '0' <= c <= '9'
  }

  /** Decimal digits of a natural number, most significant first, no leading zero. */
  function Digits(n: nat): (r: string)
    ensures |r| >= 1
    ensures forall i :: 0 <= i < |r| ==> IsDigit(r[i])
    ensures n >= 1 ==> r[0] != '0'
  {
    if n < 10 then [DigitChar(n)] else Digits(n / 10) + [DigitChar(n % 10)]
  }

  /** `String(n)` for an integer-valued JavaScript number. */
  function DecimalString(n: int): (r: string)
    ensures |r| >= 1
    ensures n >= 0 ==> r == Digits(n)
    ensures n < 0 ==> r == "-" + Digits(-n)
  {
    if n < 0 then "-" + Digits(-n) else Digits(n)
  }

  /** `String(x)` for the result of `parseInt`, where `None` stands for `NaN`. */
  function NumberText(x: Option<int>): string {
    match x
    case None => "NaN"
    case Some(n) => DecimalString(n)
  }

  /** Value of a radix-`radix` digit character, or `radix` when `c` is not one. */
  function DigitValue(c: char, radix: nat): (v: nat)
    requires radix == 10 || radix == 16
    ensures v <= radix
  {
    if '0' <= c <= '9' && (c as int) - ('0' as int) < radix then (c as int) - ('0' as int)
    else if radix == 16 && 'a' <= c <= 'f' then (c as int) - ('a' as int) + 10
    else if radix == 16 && 'A' <= c <= 'F' then (c as int) - ('A' as int) + 10
    else radix
  }

  /** Length of the longest prefix of `s` made of radix-`radix` digits. */
  function DigitRun(s: string, radix: nat): (k: nat)
    requires radix == 10 || radix == 16
    ensures k <= |s|
    ensures forall i :: 0 <= i < k ==> DigitValue(s[i], radix) < radix
    ensures k < |s| ==> DigitValue(s[k], radix) == radix
  {
    if s == [] || DigitValue(s[0], radix) == radix then 0 else 1 + DigitRun(s[1..], radix)
  }

  /** Value of a string of radix-`radix` digits. */
  function DigitsValue(s: string, radix: nat): (v: nat)
    requires radix == 10 || radix == 16
    requires forall i :: 0 <= i < |s| ==> DigitValue(s[i], radix) < radix
  {
    if s == [] then 0
    else DigitsValue(s[..|s| - 1], radix) * radix + DigitValue(s[|s| - 1], radix)
  }

  /** `parseInt(s)` with no radix argument: skip leading white space, read an optional
      sign, then the magnitude; `None` stands for `NaN`. */
  function ParseInt(s: string): Option<int> {
    ParseSigned(TrimStart(s))
  }

  /** Sign handling of `parseInt` on text that starts with a non-blank character. */
  function ParseSigned(t: string): Option<int> {
    var negative := t != [] && t[0] == '-';
    var u := if t != [] && (t[0] == '-' || t[0] == '+') then t[1..] else t;
    match ParseMagnitude(u)
    case None => None
    case Some(v) =>
      var x: int := if negative then -(v as int) else v;
      Some(x)
  }

  /** Magnitude part of `parseInt`: radix 16 after a `0x`/`0X` prefix, else radix 10;
      the value of the longest run of digits, `None` when that run is empty. */
  function ParseMagnitude(u: string): Option<nat> {
    var hex := |u| >= 2 && u[0] == '0' && (u[1] == 'x' || u[1] == 'X');
    var radix := if hex then 16 else 10;
    var body := if hex then u[2..] else u;
    var k := DigitRun(body, radix);
    if k == 0 then None else Some(DigitsValue(body[..k], radix))
  }

  /** The magnitude read back from decimal digits is the number they spell. */
  lemma MagnitudeOfDigits(n: nat)
    ensures ParseMagnitude(Digits(n)) == Some(n)
  {
    var d := Digits(n);
    DigitsValueOfDigits(n);
    DigitRunAll(d);
    assert d[..|d|] == d;
    assert |d| >= 2 ==> IsDigit(d[1]);
  }

  lemma {:induction false} DigitsValueOfDigits(n: nat)
    ensures forall i :: 0 <= i < |Digits(n)| ==> DigitValue(Digits(n)[i], 10) < 10
    ensures DigitsValue(Digits(n), 10) == n
    decreases n
  {
    var d := Digits(n);
    forall i | 0 <= i < |d| ensures DigitValue(d[i], 10) < 10 {
      assert IsDigit(d[i]);
    }
    if n >= 10 {
      DigitsValueOfDigits(n / 10);
      var p := Digits(n / 10);
      assert d == p + [DigitChar(n % 10)];
      assert d[..|d| - 1] == p;
    }
  }

  /** Text starting with a digit is read as an unsigned magnitude. */
  lemma ParseSignedUnsigned(u: string, m: nat)
    requires u != [] && IsDigit(u[0]) && ParseMagnitude(u) == Some(m)
    ensures ParseSigned(u) == Some(m)
  {
  }

  /** A minus sign negates the magnitude after it. */
  lemma ParseSignedNegated(u: string, m: nat)
    requires ParseMagnitude(u) == Some(m)
    ensures ParseSigned("-" + u) == Some(-(m as int))
  {
    var t := "-" + u;
    assert t[0] == '-' && t[1..] == u;
  }

  /** Unsigned decimal digits parse to their value. */
  lemma ParseSignedOfDigits(m: nat)
    ensures ParseSigned(Digits(m)) == Some(m)
  {
    MagnitudeOfDigits(m);
    ParseSignedUnsigned(Digits(m), m);
  }

  /** A minus sign before decimal digits negates their value. */
  lemma ParseSignedOfNegative(m: int)
    requires m >= 0
    ensures ParseSigned("-" + Digits(m)) == Some(-m)
  {
    MagnitudeOfDigits(m);
    ParseSignedNegated(Digits(m), m);
  }

  /** Reading back what `String(n)` wrote gives `n`: the player id survives the
      `toString()` / `parseInt` round trip the client performs on it. */
  lemma ParseIntOfDecimal(n: int)
    ensures ParseInt(DecimalString(n)) == Some(n)
  {
    if n < 0 {
      ParseIntOfNegative(n);
    } else {
      ParseIntOfNatural(n);
    }
  }

  lemma ParseIntOfNegative(n: int)
    requires n < 0
    ensures ParseInt(DecimalString(n)) == Some(n)
  {
    var m := -n;
    var s := DecimalString(n);
    assert s == "-" + Digits(m);
    SignOrDigitNotWhite(s[0]);
    ParseIntUntrimmed(s);
    ParseSignedOfNegative(m);
    assert ParseSigned(s) == Some(-m);
  }

  lemma ParseIntOfNatural(n: int)
    requires n >= 0
    ensures ParseInt(DecimalString(n)) == Some(n)
  {
    var s := DecimalString(n);
    assert s == Digits(n);
    SignOrDigitNotWhite(s[0]);
    ParseIntUntrimmed(s);
    ParseSignedOfDigits(n);
  }

  lemma SignOrDigitNotWhite(c: char)
    requires c == '-' || IsDigit(c)
    ensures !IsWhite(c)
  {
  }

  /** Text that does not start with white space goes straight to the sign. */
  lemma ParseIntUntrimmed(s: string)
    requires s != [] && !IsWhite(s[0])
    ensures ParseInt(s) == ParseSigned(s)
  {
  }

  lemma {:induction false} DigitRunAll(s: string)
    requires forall i :: 0 <= i < |s| ==> IsDigit(s[i])
    ensures DigitRun(s, 10) == |s|
    decreases |s|
  {
    if s != [] {
      assert DigitValue(s[0], 10) < 10;
      DigitRunAll(s[1..]);
    }
  }

  // ---------------------------------------------------------------------------
  // Space-separated token lists

  /** `tokens.join(" ")`. */
  function Join(ts: seq<string>): (r: string)
    ensures ts == [] ==> r == []
    ensures |ts| == 1 ==> r == ts[0]
  {
    if ts == [] then []
    else if |ts| == 1 then ts[0]
    else ts[0] + " " + Join(ts[1..])
  }

  /** `s.split(" ")`: always at least one piece; consecutive, leading or trailing
      spaces yield empty pieces. */
  function Split(s: string): (r: seq<string>)
    ensures |r| >= 1
    ensures forall i :: 0 <= i < |r| ==> ' ' !in r[i]
  {
    Scan(s, [])
  }

  /** The scan behind `Split`: `cur` is the piece read so far, closed at each
      space and at the end of the input. */
  function Scan(s: string, cur: string): (r: seq<string>)
    requires ' ' !in cur
    ensures |r| >= 1
    ensures forall i :: 0 <= i < |r| ==> ' ' !in r[i]
    decreases |s|
  {
    if s == [] then [cur]
    else if s[0] == ' ' then [cur] + Scan(s[1..], [])
    else Scan(s[1..], cur + [s[0]])
  }

  /** Without a space the scan only extends the current piece. */
  lemma {:induction false} ScanNoSpace(t: string, cur: string)
    requires ' ' !in t && ' ' !in cur
    ensures Scan(t, cur) == [cur + t]
    decreases |t|
  {
    if t == [] {
      assert cur + t == cur;
    } else {
      assert t[0] in t;
      assert forall c :: c in t[1..] ==> c in t;
      ScanNoSpace(t[1..], cur + [t[0]]);
      assert cur + [t[0]] + t[1..] == cur + t;
    }
  }

  /** A space inserted between `x` and `y` closes the last piece of `x`. */
  lemma {:induction false} ScanConcat(x: string, y: string, cur: string)
    requires ' ' !in cur
    ensures Scan(x + " " + y, cur) == Scan(x, cur) + Scan(y, [])
    decreases |x|
  {
    var s := x + " " + y;
    if x == [] {
      assert s[0] == ' ' && s[1..] == y;
    } else {
      assert s[0] == x[0] && s[1..] == x[1..] + " " + y;
      if x[0] == ' ' {
        ScanConcat(x[1..], y, []);
      } else {
        ScanConcat(x[1..], y, cur + [x[0]]);
      }
    }
  }

  /** Splitting at a space the caller inserted splits the two sides separately. */
  lemma SplitConcat(x: string, y: string)
    ensures Split(x + " " + y) == Split(x) + Split(y)
  {
    ScanConcat(x, y, []);
  }

  /** Splitting a joined list of space-free tokens gives the tokens back. */
  lemma {:induction false} SplitJoin(ts: seq<string>)
    requires |ts| >= 1
    requires forall i :: 0 <= i < |ts| ==> ' ' !in ts[i]
    ensures Split(Join(ts)) == ts
    decreases |ts|
  {
    ScanNoSpace(ts[0], []);
    assert [] + ts[0] == ts[0];
    if |ts| > 1 {
      SplitConcat(ts[0], Join(ts[1..]));
      SplitJoin(ts[1..]);
      assert ts == [ts[0]] + ts[1..];
    }
  }
}

=== FILE: legacy.dfy ===
/** The older handler set of components/context/socketHandlers.ts, still used by the
    raw-WebSocket manager. These handlers only write state; none sends anything. */
module Legacy {

  import opened Wrappers
  import opened Seqs
  import opened Transient
  import opened Types
  import opened Store

  /** `state.players.find(p => p.id === id)`: the first player with the id. */
  function FindPlayer(ps: seq<Player>, id: string): (r: Option<Player>)
    ensures r.None? <==> forall i :: 0 <= i < |ps| ==> ps[i].id != id
    ensures r.Some? ==> exists i :: 0 <= i < |ps| && ps[i] == r.value && r.value.id == id
                                    && forall j :: 0 <= j < i ==> ps[j].id != id
  {
    if ps == [] then None
    else if ps[0].id == id then Some(ps[0])
    else
      var r := FindPlayer(ps[1..], id);
      assert r.Some? ==> exists i :: 1 <= i < |ps| && ps[i] == r.value && r.value.id == id
                                     && forall j :: 0 <= j < i ==> ps[j].id != id by {
        if r.Some? {
          var k :| 0 <= k < |ps| - 1 && ps[1..][k] == r.value && r.value.id == id
                   && forall j :: 0 <= j < k ==> ps[1..][j].id != id;
          assert forall j :: 0 <= j < k + 1 ==> ps[j].id != id by {
            forall j | 0 <= j < k + 1 ensures ps[j].id != id {
              if j > 0 { assert ps[j] == ps[1..][j - 1]; }
            }
          }
        }
      }
      r
  }

  /** `players.filter(p => p.id !== id)`. */
  function WithoutPlayer(ps: seq<Player>, id: string): (r: seq<Player>)
    ensures forall i :: 0 <= i < |r| ==> r[i].id != id && r[i] in ps
    ensures forall i :: 0 <= i < |ps| && ps[i].id != id ==> ps[i] in r
    ensures forall p :: multiset(r)[p] == if p.id != id then multiset(ps)[p] else 0
    ensures Subseq(r, ps)
  {
    FilterCounts(ps, (p: Player) => p.id != id);
    FilterIsSubseq(ps, (p: Player) => p.id != id);
    Filter(ps, (p: Player) => p.id != id)
  }

  /** `onPlayerJoinedRoom`: the player is appended. */
  function OnPlayerJoinedRoom(s: GameState, env: Env, player: Player): (effs: seq<Effect>)
    ensures var t := After(s, effs);
            && t.players == s.players + [player]
            && t.notifications == Notify(s, env, 0, player.username + " joined the room", Info)
            && t == s.(players := t.players, notifications := t.notifications)
  {
    var p := NoChange.(players := Some(s.players + [player]),
                       notifications := Some(Notify(s, env, 0, player.username + " joined the room", Info)));
    AfterUpdate(s, p);
    [Update(p)]
  }

  /** `onPlayerLeftRoom`: every player with the id goes; a notice names the first of
      them, and there is no notice when nobody had the id. */
  function OnPlayerLeftRoom(s: GameState, env: Env, playerId: string): (effs: seq<Effect>)
    ensures var t := After(s, effs);
            && t.players == WithoutPlayer(s.players, playerId)
            && t == s.(players := t.players, notifications := t.notifications)
            && (FindPlayer(s.players, playerId).None? ==> t.notifications == s.notifications)
            && (FindPlayer(s.players, playerId).Some? ==>
                  t.notifications == Notify(s, env, 0, FindPlayer(s.players, playerId).value.username + " left the room", Info))
  {
    var leaving := FindPlayer(s.players, playerId);
    var rest := WithoutPlayer(s.players, playerId);
    if leaving.None? then PlayersUpdate(s, rest, s.notifications)
    else PlayersUpdate(s, rest, Notify(s, env, 0, leaving.value.username + " left the room", Info))
  }

  /** One update that replaces the player list and the notifications. */
  function PlayersUpdate(s: GameState, ps: seq<Player>, ns: seq<Notification>): (effs: seq<Effect>)
    ensures After(s, effs) == s.(players := ps, notifications := ns)
  {
    var p := NoChange.(players := Some(ps), notifications := Some(ns));
    AfterUpdate(s, p);
    [Update(p)]
  }

  /** A player who joins with an id nobody had and then leaves under that id leaves the
      player list as it was. */
  lemma JoinThenLeave(s: GameState, env: Env, player: Player)
    requires forall i :: 0 <= i < |s.players| ==> s.players[i].id != player.id
    ensures var t := After(s, OnPlayerJoinedRoom(s, env, player));
            After(t, OnPlayerLeftRoom(t, env, player.id)).players == s.players
  {
    var keep := (p: Player) => p.id != player.id;
    FilterConcat(s.players, [player], keep);
    FilterAll(s.players, keep);
    assert Filter([player], keep) == [];
  }

  /** `onRoomUpdate`: the room is replaced. */
  function OnRoomUpdate(s: GameState, room: Room): (effs: seq<Effect>)
    ensures After(s, effs) == s.(room := Some(room))
  {
    var p := NoChange.(room := Some(Some(room)));
    AfterUpdate(s, p);
    [Update(p)]
  }

  /** `onDeal`: the same round in both slots, a clean commit state, and — unlike the
      newer handler — the previous results cleared. */
  function OnDeal(s: GameState, round: Round): (effs: seq<Effect>)
    ensures var t := After(s, effs);
            && t.round == Some(round) && t.currentRound == t.round
            && t.commitState == InitialCommitState() && t.results.None?
            && t == s.(round := t.round, currentRound := t.currentRound, commitState := t.commitState, results := None)
  {
    var p := NoChange.(round := Some(Some(round)), currentRound := Some(Some(round)),
                       commitState := Some(InitialCommitState()), results := Some(None));
    AfterUpdate(s, p);
    [Update(p)]
  }

  /** `onRoundStart`: the round in both slots; the commit state is left alone. */
  function OnRoundStart(s: GameState, env: Env, round: Round): (effs: seq<Effect>)
    ensures var t := After(s, effs);
            && t.round == Some(round) && t.currentRound == t.round
            && t.commitState == s.commitState
            && t.notifications == Notify(s, env, 0, "New round started!", Info)
            && t == s.(round := t.round, currentRound := t.currentRound, notifications := t.notifications)
  {
    var p := NoChange.(round := Some(Some(round)), currentRound := Some(Some(round)),
                       notifications := Some(Notify(s, env, 0, "New round started!", Info)));
    AfterUpdate(s, p);
    [Update(p)]
  }

  /** `onRoundResults`: the results are stored and the commitment counts as revealed;
      the other commit fields stay. */
  function OnRoundResults(s: GameState, results: GameResults): (effs: seq<Effect>)
    ensures var t := After(s, effs);
            && t.results == Some(results)
            && t.commitState.hasRevealed
            && t.commitState.hasCommitted == s.commitState.hasCommitted
            && t.commitState.choice == s.commitState.choice
            && t.commitState.nonce == s.commitState.nonce
            && t.commitState.hash == s.commitState.hash
            && t == s.(results := t.results, commitState := t.commitState)
  {
    var p := NoChange.(results := Some(Some(results)), commitState := Some(s.commitState.(hasRevealed := true)));
    AfterUpdate(s, p);
    [Update(p)]
  }

  /** `onPlayerCommitted`: a notice only. */
  function OnPlayerCommitted(s: GameState, env: Env, playerId: string): (effs: seq<Effect>)
    ensures var t := After(s, effs);
            t == s.(notifications := t.notifications)
            && t.notifications == Notify(s, env, 0, "A player has locked in their choice", Info)
  {
    var p := NoChange.(notifications := Some(Notify(s, env, 0, "A player has locked in their choice", Info)));
    AfterUpdate(s, p);
    [Update(p)]
  }

  /** `onEmote`: the emote is appended, under the sender's real id, to the bounded
      list of earlier emotes. */
  function OnEmote(s: GameState, env: Env, playerId: string, playerName: string, emote: string): (effs: seq<Effect>)
    ensures var t := After(s, effs);
            && t == s.(recentEmotes := t.recentEmotes)
            && t.recentEmotes == AddEmote(s.recentEmotes, playerId, playerName, emote, env.ids(0), env.now)
            && |t.recentEmotes| > 0
            && t.recentEmotes[|t.recentEmotes| - 1] == Emote(env.ids(0), playerId, playerName, emote, env.now)
  {
    var p := NoChange.(recentEmotes := Some(AddEmote(s.recentEmotes, playerId, playerName, emote, env.ids(0), env.now)));
    AfterUpdate(s, p);
    [Update(p)]
  }

  /** `onQueueUpdate`: position and estimate overwritten, queue membership kept. */
  function OnQueueUpdate(s: GameState, position: int, estimatedWaitTime: int): (effs: seq<Effect>)
    ensures var t := After(s, effs);
            && t.queueState.isInQueue == s.queueState.isInQueue
            && t.queueState.position == position && t.queueState.estimatedWaitTime == estimatedWaitTime
            && t == s.(queueState := t.queueState)
  {
    var p := NoChange.(queueState := Some(s.queueState.(position := position, estimatedWaitTime := estimatedWaitTime)));
    AfterUpdate(s, p);
    [Update(p)]
  }

  /** The keys a `player` payload may carry. */
  datatype PlayerFields = PlayerFields(
    id: Option<string>,
    username: Option<string>,
    balance: Option<real>,
    rating: Option<int>,
    wins: Option<int>,
    isAuthenticated: Option<bool>)

  /** `{ ...player, ...fields }`. */
  function WithFields(p: Player, f: PlayerFields): (r: Player)
    ensures f.id.None? ==> r.id == p.id
    ensures f.id.Some? ==> r.id == f.id.value
    ensures f.username.None? ==> r.username == p.username
    ensures f.username.Some? ==> r.username == f.username.value
    ensures f.balance.None? ==> r.balance == p.balance
    ensures f.balance.Some? ==> r.balance == f.balance.value
    ensures f.rating.None? ==> r.rating == p.rating
    ensures f.rating.Some? ==> r.rating == f.rating.value
    ensures f.wins.None? ==> r.wins == p.wins
    ensures f.wins.Some? ==> r.wins == f.wins.value
    ensures f.isAuthenticated.None? ==> r.isAuthenticated == p.isAuthenticated
    ensures f.isAuthenticated.Some? ==> r.isAuthenticated == f.isAuthenticated.value
  {
    Player(f.id.GetOr(p.id), f.username.GetOr(p.username), f.balance.GetOr(p.balance),
           f.rating.GetOr(p.rating), f.wins.GetOr(p.wins), f.isAuthenticated.GetOr(p.isAuthenticated))
  }

  /** `onPlayerUpdate`: the supplied player keys overwrite, the rest stay. */
  function OnPlayerUpdate(s: GameState, env: Env, f: PlayerFields): (effs: seq<Effect>)
    ensures var t := After(s, effs);
            && t.player == WithFields(s.player, f)
            && t.notifications == Notify(s, env, 0, "Your player data has been updated", Success)
            && t == s.(player := t.player, notifications := t.notifications)
  {
    var p := NoChange.(player := Some(WithFields(s.player, f)),
                       notifications := Some(Notify(s, env, 0, "Your player data has been updated", Success)));
    AfterUpdate(s, p);
    [Update(p)]
  }

  /** The codes that end the session. */
  predicate IsAuthFailure(code: Option<string>) {
    code == Some("INVALID_TOKEN") || code == Some("AUTH_FAILED")
  }

  /** `onError`: an authentication failure clears storage, signs the player out and
      leaves a single notice; any other error is recorded and appended. */
  function OnError(s: GameState, env: Env, message: string, code: Option<string>): (effs: seq<Effect>)
    ensures var t := After(s, effs);
            && t.error == Some(message)
            && (IsAuthFailure(code) ==>
                  && |effs| > 0 && effs[0] == ClearStorage
                  && !t.player.isAuthenticated && t.player == InitialPlayer()
                  && t.currentView == Login
                  && t == s.(player := InitialPlayer(), currentView := Login, error := Some(message),
                             notifications := t.notifications)
                  && |t.notifications| == 1
                  && t.notifications == [Notification(env.ids(0), "Authentication failed. Please log in again.", Error, env.now)])
            && (!IsAuthFailure(code) ==>
                  && t == s.(error := Some(message), notifications := t.notifications)
                  && t.notifications == Notify(s, env, 0, message, Error) && ClearStorage !in effs)
  {
    if IsAuthFailure(code) then
      var p := NoChange.(
        player := Some(InitialPlayer()),
        currentView := Some(Login),
        error := Some(Some(message)),
        notifications := Some(AddNotification([], "Authentication failed. Please log in again.", env.ids(0), env.now, Error)));
      AfterCons(s, ClearStorage, [Update(p)]);
      AfterUpdate(s, p);
      [ClearStorage] + [Update(p)]
    else
      var p := NoChange.(error := Some(Some(message)), notifications := Some(Notify(s, env, 0, message, Error)));
      AfterUpdate(s, p);
      [Update(p)]
  }

  /** `onDisconnect`. */
  function OnDisconnect(s: GameState, env: Env): (effs: seq<Effect>)
    ensures var t := After(s, effs);
            && !t.isConnecting
            && t.notifications == Notify(s, env, 0, "Connection lost. Attempting to reconnect...", Warning)
            && t == s.(isConnecting := false, notifications := t.notifications)
  {
    var p := NoChange.(isConnecting := Some(false),
                       notifications := Some(Notify(s, env, 0, "Connection lost. Attempting to reconnect...", Warning)));
    AfterUpdate(s, p);
    [Update(p)]
  }

  /** `onReconnect`. */
  function OnReconnect(s: GameState, env: Env): (effs: seq<Effect>)
    ensures var t := After(s, effs);
            && !t.isConnecting && t.notifications == Notify(s, env, 0, "Reconnected successfully!", Success)
            && t == s.(isConnecting := false, notifications := t.notifications)
  {
    var p := NoChange.(isConnecting := Some(false),
                       notifications := Some(Notify(s, env, 0, "Reconnected successfully!", Success)));
    AfterUpdate(s, p);
    [Update(p)]
  }
}

=== FILE: seqs.dfy ===
/** Generic facts about the array helpers the source uses: `Array.prototype.filter`,
    removal of the first occurrence (`indexOf` + `splice(index, 1)`), and order-preserving
    sub-sequences. */
module Seqs {

  /** `a.filter(keep)`: the elements satisfying `keep`, in their original order. */
  function Filter<T(==)>(a: seq<T>, keep: T -> bool): (r: seq<T>)
    ensures |r| <= |a|
    ensures forall i :: 0 <= i < |r| ==> r[i] in a && keep(r[i])
    ensures forall i :: 0 <= i < |a| && keep(a[i]) ==> a[i] in r
  {
    if a == [] then []
    else (if keep(a[0]) then [a[0]] else []) + Filter(a[1..], keep)
  }

  /** Every value occurs in the filtered sequence exactly as often as in the input when it
      is kept, and not at all otherwise. */
  lemma {:induction false} FilterCounts<T>(a: seq<T>, keep: T -> bool)
    ensures forall x :: multiset(Filter(a, keep))[x] == if keep(x) then multiset(a)[x] else 0
    decreases |a|
  {
    if a != [] {
      FilterCounts(a[1..], keep);
      var head := if keep(a[0]) then [a[0]] else [];
      assert a == [a[0]] + a[1..];
      assert Filter(a, keep) == head + Filter(a[1..], keep);
      assert multiset(a) == multiset{a[0]} + multiset(a[1..]);
      assert multiset(Filter(a, keep)) == multiset(head) + multiset(Filter(a[1..], keep));
    }
  }

  /** `a` can be obtained from `b` by deleting elements, keeping the order of the rest. */
  ghost predicate Subseq<T>(a: seq<T>, b: seq<T>)
    decreases |b|
  {
    if a == [] then true
    else if b == [] then false
    else (a[0] == b[0] && Subseq(a[1..], b[1..])) || Subseq(a, b[1..])
  }

  /** A suffix of `b` is an order-preserving sub-sequence of it. */
  lemma {:induction false} SuffixIsSubseq<T>(b: seq<T>, k: nat)
    requires k <= |b|
    ensures Subseq(b[k..], b)
    decreases |b|
  {
    if k == 0 {
      SubseqRefl(b);
    } else {
      SuffixIsSubseq(b[1..], k - 1);
      assert b[1..][k - 1..] == b[k..];
    }
  }

  lemma {:induction false} SubseqRefl<T>(b: seq<T>)
    ensures Subseq(b, b)
    decreases |b|
  {
    if b != [] {
      SubseqRefl(b[1..]);
    }
  }

  /** Filtering keeps the survivors in their original relative order. */
  lemma {:induction false} FilterIsSubseq<T>(a: seq<T>, keep: T -> bool)
    ensures Subseq(Filter(a, keep), a)
    decreases |a|
  {
    if a != [] {
      FilterIsSubseq(a[1..], keep);
      var rest := Filter(a[1..], keep);
      if keep(a[0]) {
        assert Filter(a, keep) == [a[0]] + rest;
        assert ([a[0]] + rest)[1..] == rest;
      } else {
        assert Filter(a, keep) == rest;
        if rest != [] {
          assert Subseq(rest, a[1..]);
        }
      }
    }
  }

  /** Filtering with the same predicate a second time changes nothing. */
  lemma {:induction false} FilterIdempotent<T>(a: seq<T>, keep: T -> bool)
    ensures Filter(Filter(a, keep), keep) == Filter(a, keep)
    decreases |a|
  {
    if a != [] {
      FilterIdempotent(a[1..], keep);
      var r := Filter(a[1..], keep);
      if keep(a[0]) {
        var fa := [a[0]] + r;
        assert Filter(a, keep) == fa;
        assert fa[0] == a[0] && fa[1..] == r;
        assert Filter(fa, keep) == [a[0]] + Filter(r, keep);
      } else {
        assert Filter(a, keep) == r;
      }
    }
  }

  /** A filter that drops nothing returns its input unchanged. */
  lemma FilterSameLength<T>(a: seq<T>, keep: T -> bool)
    requires |Filter(a, keep)| == |a|
    ensures Filter(a, keep) == a
    ensures forall i :: 0 <= i < |a| ==> keep(a[i])
  {
    FilterDropsNothing(a, keep);
    FilterAll(a, keep);
  }

  lemma {:induction false} FilterDropsNothing<T>(a: seq<T>, keep: T -> bool)
    requires |Filter(a, keep)| == |a|
    ensures forall i :: 0 <= i < |a| ==> keep(a[i])
    decreases |a|
  {
    if a != [] {
      var rest := Filter(a[1..], keep);
      assert Filter(a, keep) == (if keep(a[0]) then [a[0]] else []) + rest;
      assert |rest| <= |a| - 1;
      assert keep(a[0]) && |rest| == |a[1..]|;
      FilterDropsNothing(a[1..], keep);
      forall i | 0 < i < |a| ensures keep(a[i]) {
        assert a[i] == a[1..][i - 1];
      }
    }
  }

  /** Filtering distributes over concatenation. */
  lemma {:induction false} FilterConcat<T>(a: seq<T>, b: seq<T>, keep: T -> bool)
    ensures Filter(a + b, keep) == Filter(a, keep) + Filter(b, keep)
    decreases |a|
  {
    if a != [] {
      FilterConcat(a[1..], b, keep);
      assert (a + b)[1..] == a[1..] + b;
      assert (a + b)[0] == a[0];
    } else {
      assert a + b == b;
    }
  }

  /** A filter whose predicate holds everywhere is the identity. */
  lemma {:induction false} FilterAll<T>(a: seq<T>, keep: T -> bool)
    requires forall i :: 0 <= i < |a| ==> keep(a[i])
    ensures Filter(a, keep) == a
    decreases |a|
  {
    if a != [] {
      assert keep(a[0]);
      FilterAll(a[1..], keep);
      assert Filter(a, keep) == [a[0]] + Filter(a[1..], keep);
      assert a == [a[0]] + a[1..];
    }
  }

  /** A filter returns its input exactly when its predicate holds everywhere. */
  lemma FilterKeepsAll<T>(a: seq<T>, keep: T -> bool)
    ensures (forall i :: 0 <= i < |a| ==> keep(a[i])) ==> Filter(a, keep) == a
  {
    if forall i :: 0 <= i < |a| ==> keep(a[i]) {
      FilterAll(a, keep);
    }
  }

  /** Position of the first element equal to `x`, or -1 (`Array.prototype.indexOf`). */
  function IndexOf<T(==)>(a: seq<T>, x: T): (i: int)
    ensures -1 <= i < |a|
    ensures i == -1 <==> x !in a
    ensures 0 <= i ==> a[i] == x && x !in a[..i]
  {
    if a == [] then -1
    else if a[0] == x then 0
    else
      var j := IndexOf(a[1..], x);
      assert j >= 0 ==> a[..j + 1] == [a[0]] + a[1..][..j];
      if j == -1 then -1 else j + 1
  }

  /** `const i = a.indexOf(x); if (i > -1) a.splice(i, 1)`: remove only the first `x`. */
  function RemoveFirst<T(==)>(a: seq<T>, x: T): (r: seq<T>)
    ensures x !in a ==> r == a
    ensures x in a ==> exists i :: 0 <= i < |a| && a[i] == x && x !in a[..i] && r == a[..i] + a[i + 1..]
    ensures x in a ==> |r| == |a| - 1 && multiset(r) == multiset(a) - multiset{x}
  {
    var i := IndexOf(a, x);
    if i == -1 then a
    else
      assert a == a[..i] + [a[i]] + a[i + 1..];
      a[..i] + a[i + 1..]
  }
}

=== FILE: simple_store.dfy ===
/** The simple provider of components/GameContext.tsx, which the app page mounts: a
    handful of independent state cells with setters, and two derived amounts.
    Stakes and token counts are whole numbers here. */
module SimpleStore {

  import opened Wrappers

  datatype Settings = Settings(
    showTimers: bool,
    sound: bool,
    haptics: bool,
    quickAdvance: bool,
    dataSaver: bool,
    allowSpectators: bool)

  /** The cells with setters. `capacity` and `spectators` have none; they are the
      constants below. */
  datatype State = State(
    stake: int,
    players: int,
    lastChoice: Option<string>,
    lastStake: Option<int>,
    settings: Settings,
    skipNext: bool,
    leaveAtEnd: bool,
    username: string,
    userTokens: int,
    inRoom: bool,
    collectedRewards: seq<string>)

  const Capacity: int := 12
  const Spectators: int := 0
  const DefaultStake: int := 50
  const DefaultTokens: int := 1000
  const DefaultUsername: string := "Player"

  function DefaultSettings(): Settings {
    Settings(true, true, true, false, false, true)
  }

  function Initial(): (s: State)
    ensures s.stake == DefaultStake && s.players == 1 && s.userTokens == DefaultTokens
    ensures s.username == DefaultUsername && !s.inRoom && s.collectedRewards == []
    ensures s.lastChoice.None? && s.lastStake.None? && !s.skipNext && !s.leaveAtEnd
  {
    State(DefaultStake, 1, None, None, DefaultSettings(), false, false, DefaultUsername, DefaultTokens, false, [])
  }

  /** `players * stake`. */
  function PrizePool(s: State): int {
    s.players * s.stake
  }

  /** `Math.round(stake * 0.02)`: the whole number nearest to `stake / 50`, halves
      rounded up. */
  function EntryFee(s: State): (fee: int)
    ensures 50 * fee - 25 <= s.stake < 50 * fee + 25
  {
    (s.stake + 25) / 50
  }

  /** `setStake(x)`: the stake, and the remembered last stake, become `x`. */
  function SetStake(s: State, x: int): (t: State)
    ensures t.stake == x && t.lastStake == Some(x)
    ensures t.(stake := s.stake, lastStake := s.lastStake) == s
    ensures PrizePool(t) == s.players * x
  {
    s.(stake := x, lastStake := Some(x))
  }

  function SetPlayers(s: State, n: int): (t: State)
    ensures t.players == n && t.(players := s.players) == s
    ensures PrizePool(t) == n * s.stake
  {
    s.(players := n)
  }

  function SetLastChoice(s: State, choice: string): (t: State)
    ensures t.lastChoice == Some(choice) && t.(lastChoice := s.lastChoice) == s
  {
    s.(lastChoice := Some(choice))
  }

  function SetLastStake(s: State, x: int): (t: State)
    ensures t.lastStake == Some(x) && t.(lastStake := s.lastStake) == s
  {
    s.(lastStake := Some(x))
  }

  function SetSkipNext(s: State, b: bool): (t: State)
    ensures t.skipNext == b && t.(skipNext := s.skipNext) == s
  {
    s.(skipNext := b)
  }

  function SetLeaveAtEnd(s: State, b: bool): (t: State)
    ensures t.leaveAtEnd == b && t.(leaveAtEnd := s.leaveAtEnd) == s
  {
    s.(leaveAtEnd := b)
  }

  function SetUsername(s: State, name: string): (t: State)
    ensures t.username == name && t.(username := s.username) == s
  {
    s.(username := name)
  }

  function SetUserTokens(s: State, n: int): (t: State)
    ensures t.userTokens == n && t.(userTokens := s.userTokens) == s
  {
    s.(userTokens := n)
  }

  function SetInRoom(s: State, b: bool): (t: State)
    ensures t.inRoom == b && t.(inRoom := s.inRoom) == s
  {
    s.(inRoom := b)
  }

  /** The keys an `updateSettings` call may supply. */
  datatype SettingsPatch = SettingsPatch(
    showTimers: Option<bool>,
    sound: Option<bool>,
    haptics: Option<bool>,
    quickAdvance: Option<bool>,
    dataSaver: Option<bool>,
    allowSpectators: Option<bool>)

  /** `{ ...prev, ...patch }`. */
  function MergeSettings(g: Settings, p: SettingsPatch): Settings {
    Settings(p.showTimers.GetOr(g.showTimers), p.sound.GetOr(g.sound), p.haptics.GetOr(g.haptics),
             p.quickAdvance.GetOr(g.quickAdvance), p.dataSaver.GetOr(g.dataSaver),
             p.allowSpectators.GetOr(g.allowSpectators))
  }

  /** `updateSettings(patch)`: every supplied key takes its value, every other key keeps
      its own; nothing outside the settings changes. */
  function UpdateSettings(s: State, p: SettingsPatch): (t: State)
    ensures p.showTimers.Some? ==> t.settings.showTimers == p.showTimers.value
    ensures p.showTimers.None? ==> t.settings.showTimers == s.settings.showTimers
    ensures p.sound.Some? ==> t.settings.sound == p.sound.value
    ensures p.sound.None? ==> t.settings.sound == s.settings.sound
    ensures p.haptics.Some? ==> t.settings.haptics == p.haptics.value
    ensures p.haptics.None? ==> t.settings.haptics == s.settings.haptics
    ensures p.quickAdvance.Some? ==> t.settings.quickAdvance == p.quickAdvance.value
    ensures p.quickAdvance.None? ==> t.settings.quickAdvance == s.settings.quickAdvance
    ensures p.dataSaver.Some? ==> t.settings.dataSaver == p.dataSaver.value
    ensures p.dataSaver.None? ==> t.settings.dataSaver == s.settings.dataSaver
    ensures p.allowSpectators.Some? ==> t.settings.allowSpectators == p.allowSpectators.value
    ensures p.allowSpectators.None? ==> t.settings.allowSpectators == s.settings.allowSpectators
    ensures t.(settings := s.settings) == s
  {
    s.(settings := MergeSettings(s.settings, p))
  }

  /** Applying the same settings update twice is the same as applying it once. */
  lemma UpdateSettingsIdempotent(s: State, p: SettingsPatch)
    ensures UpdateSettings(UpdateSettings(s, p), p) == UpdateSettings(s, p)
  {
  }

  /** `collectReward(id, amount)`: the id is appended and the tokens grow by `amount`. */
  function CollectReward(s: State, rewardId: string, amount: int): (t: State)
    ensures t.collectedRewards == s.collectedRewards + [rewardId]
    ensures t.userTokens == s.userTokens + amount
    ensures t.(collectedRewards := s.collectedRewards, userTokens := s.userTokens) == s
  {
    s.(collectedRewards := s.collectedRewards + [rewardId], userTokens := s.userTokens + amount)
  }

  datatype Reward = Reward(id: string, amount: int)

  function CollectAll(s: State, rs: seq<Reward>): State
    decreases |rs|
  {
    if rs == [] then s else CollectAll(CollectReward(s, rs[0].id, rs[0].amount), rs[1..])
  }

  function Ids(rs: seq<Reward>): seq<string> {
    if rs == [] then [] else [rs[0].id] + Ids(rs[1..])
  }

  function Total(rs: seq<Reward>): int {
    if rs == [] then 0 else rs[0].amount + Total(rs[1..])
  }

  /** Collecting rewards one after another records every id in order and adds up
      every amount. */
  lemma {:induction false} CollectAllAccumulates(s: State, rs: seq<Reward>)
    ensures CollectAll(s, rs).collectedRewards == s.collectedRewards + Ids(rs)
    ensures CollectAll(s, rs).userTokens == s.userTokens + Total(rs)
    ensures CollectAll(s, rs).settings == s.settings
    decreases |rs|
  {
    if rs != [] {
      var s' := CollectReward(s, rs[0].id, rs[0].amount);
      CollectAllAccumulates(s', rs[1..]);
      assert s.collectedRewards + [rs[0].id] + Ids(rs[1..]) == s.collectedRewards + Ids(rs);
    }
  }

  /** `logout()`: every cell it resets goes back to its initial value; the settings
      are the only cell it keeps. */
  function Logout(s: State): (t: State)
    ensures t == Initial().(settings := s.settings)
    ensures t.username == DefaultUsername && t.userTokens == DefaultTokens && !t.inRoom
    ensures t.stake == DefaultStake && t.players == 1 && t.collectedRewards == []
  {
    s.(username := DefaultUsername, userTokens := DefaultTokens, inRoom := false, lastChoice := None,
       lastStake := None, collectedRewards := [], stake := DefaultStake, players := 1,
       skipNext := false, leaveAtEnd := false)
  }

  /** After a logout, the derived amounts are those of a fresh provider. */
  lemma LogoutRestoresDerived(s: State)
    ensures PrizePool(Logout(s)) == PrizePool(Initial()) == 50
    ensures EntryFee(Logout(s)) == EntryFee(Initial()) == 1
  {
  }
}

=== FILE: store.dfy ===
/** The provider of components/context/GameContext.tsx: the reducer, the effects the
    actions and handlers request (state merges, socket calls, timers, REST calls, storage
    writes) and a runner that applies them, plus the provider's own effects: the round
    timer, the expiry sweeps, the connect/reconnect guards and the derived flags. */
module Store {

  import opened Wrappers
  import opened Seqs
  import opened Transient
  import opened Types
  import Transport
  import JsText

  /** `Partial<GameState>`: `Some` for each key present in an `updateState` payload. */
  datatype Patch = Patch(
    player: Option<Player>,
    currentView: Option<Screen>,
    previousView: Option<Option<Screen>>,
    room: Option<Option<Room>>,
    players: Option<seq<Player>>,
    isInRoom: Option<bool>,
    round: Option<Option<Round>>,
    currentRound: Option<Option<Round>>,
    commitState: Option<CommitState>,
    results: Option<Option<GameResults>>,
    lastChoice: Option<Option<int>>,
    notifications: Option<seq<Notification>>,
    recentEmotes: Option<seq<Emote>>,
    queueState: Option<QueueState>,
    settings: Option<GameSettings>,
    isLoading: Option<bool>,
    isConnecting: Option<bool>,
    isRegistering: Option<bool>,
    error: Option<Option<string>>,
    endOfRoundAction: Option<string>,
    prizePool: Option<Option<real>>,
    capacity: Option<Option<int>>,
    lastTier: Option<Option<string>>,
    lastStake: Option<Option<real>>,
    stake: Option<Option<real>>)

  /** The empty payload `{}`. */
  const NoChange: Patch := Patch(
    None, None, None, None, None, None, None, None, None, None, None, None, None,
    None, None, None, None, None, None, None, None, None, None, None, None)

  /** `{ ...state, ...payload }`. */
  function Merge(s: GameState, p: Patch): GameState {
    GameState(
      p.player.GetOr(s.player),
      p.currentView.GetOr(s.currentView),
      p.previousView.GetOr(s.previousView),
      p.room.GetOr(s.room),
      p.players.GetOr(s.players),
      p.isInRoom.GetOr(s.isInRoom),
      p.round.GetOr(s.round),
      p.currentRound.GetOr(s.currentRound),
      p.commitState.GetOr(s.commitState),
      p.results.GetOr(s.results),
      p.lastChoice.GetOr(s.lastChoice),
      p.notifications.GetOr(s.notifications),
      p.recentEmotes.GetOr(s.recentEmotes),
      p.queueState.GetOr(s.queueState),
      p.settings.GetOr(s.settings),
      p.isLoading.GetOr(s.isLoading),
      p.isConnecting.GetOr(s.isConnecting),
      p.isRegistering.GetOr(s.isRegistering),
      p.error.GetOr(s.error),
      p.endOfRoundAction.GetOr(s.endOfRoundAction),
      p.prizePool.GetOr(s.prizePool),
      p.capacity.GetOr(s.capacity),
      p.lastTier.GetOr(s.lastTier),
      p.lastStake.GetOr(s.lastStake),
      p.stake.GetOr(s.stake))
  }

  /** A key of the payload: its value when supplied, the old value when absent. */
  predicate Supplied<T(==)>(before: T, key: Option<T>, after: T) {
    (key.Some? ==> after == key.value) && (key.None? ==> after == before)
  }

  /** `r` carries every key `p` supplies and keeps every other field of `s`. */
  predicate ReplacesSupplied(s: GameState, p: Patch, r: GameState) {
    Supplied(s.player, p.player, r.player)
    && Supplied(s.currentView, p.currentView, r.currentView)
    && Supplied(s.previousView, p.previousView, r.previousView)
    && Supplied(s.room, p.room, r.room)
    && Supplied(s.players, p.players, r.players)
    && Supplied(s.isInRoom, p.isInRoom, r.isInRoom)
    && Supplied(s.round, p.round, r.round)
    && Supplied(s.currentRound, p.currentRound, r.currentRound)
    && Supplied(s.commitState, p.commitState, r.commitState)
    && Supplied(s.results, p.results, r.results)
    && Supplied(s.lastChoice, p.lastChoice, r.lastChoice)
    && Supplied(s.notifications, p.notifications, r.notifications)
    && Supplied(s.recentEmotes, p.recentEmotes, r.recentEmotes)
    && Supplied(s.queueState, p.queueState, r.queueState)
    && Supplied(s.settings, p.settings, r.settings)
    && Supplied(s.isLoading, p.isLoading, r.isLoading)
    && Supplied(s.isConnecting, p.isConnecting, r.isConnecting)
    && Supplied(s.isRegistering, p.isRegistering, r.isRegistering)
    && Supplied(s.error, p.error, r.error)
    && Supplied(s.endOfRoundAction, p.endOfRoundAction, r.endOfRoundAction)
    && Supplied(s.prizePool, p.prizePool, r.prizePool)
    && Supplied(s.capacity, p.capacity, r.capacity)
    && Supplied(s.lastTier, p.lastTier, r.lastTier)
    && Supplied(s.lastStake, p.lastStake, r.lastStake)
    && Supplied(s.stake, p.stake, r.stake)
  }

  /** The shallow merge replaces exactly the supplied keys, and that determines it. */
  lemma MergeReplacesExactlySupplied(s: GameState, p: Patch, r: GameState)
    ensures ReplacesSupplied(s, p, Merge(s, p))
    ensures ReplacesSupplied(s, p, r) ==> r == Merge(s, p)
  {
    MergeSupplies(s, p);
    if ReplacesSupplied(s, p, r) {
      SuppliedDeterminesMerge(s, p, r);
    }
  }

  lemma MergeSupplies(s: GameState, p: Patch)
    ensures ReplacesSupplied(s, p, Merge(s, p))
  {
  }

  lemma SuppliedDeterminesMerge(s: GameState, p: Patch, r: GameState)
    requires ReplacesSupplied(s, p, r)
    ensures r == Merge(s, p)
  {
    assert r == GameState(r.player, r.currentView, r.previousView, r.room, r.players, r.isInRoom, r.round, r.currentRound, r.commitState, r.results, r.lastChoice, r.notifications, r.recentEmotes, r.queueState, r.settings, r.isLoading, r.isConnecting, r.isRegistering, r.error, r.endOfRoundAction, r.prizePool, r.capacity, r.lastTier, r.lastStake, r.stake);
  }

  function Over<T>(a: Option<T>, b: Option<T>): Option<T> {
    if b.Some? then b else a
  }

  /** The payload equivalent to merging `p` and then `q`: keys of `q` win. */
  function Then(p: Patch, q: Patch): Patch {
    Patch(
      Over(p.player, q.player), Over(p.currentView, q.currentView),
      Over(p.previousView, q.previousView), Over(p.room, q.room),
      Over(p.players, q.players), Over(p.isInRoom, q.isInRoom),
      Over(p.round, q.round), Over(p.currentRound, q.currentRound),
      Over(p.commitState, q.commitState), Over(p.results, q.results),
      Over(p.lastChoice, q.lastChoice), Over(p.notifications, q.notifications),
      Over(p.recentEmotes, q.recentEmotes), Over(p.queueState, q.queueState),
      Over(p.settings, q.settings), Over(p.isLoading, q.isLoading),
      Over(p.isConnecting, q.isConnecting), Over(p.isRegistering, q.isRegistering),
      Over(p.error, q.error), Over(p.endOfRoundAction, q.endOfRoundAction),
      Over(p.prizePool, q.prizePool), Over(p.capacity, q.capacity),
      Over(p.lastTier, q.lastTier), Over(p.lastStake, q.lastStake),
      Over(p.stake, q.stake))
  }

  /** The shallow merge: an empty payload changes nothing, merging the same payload
      twice is merging it once, and two merges in a row are one merge of the combined
      payload. */
  lemma MergeLaws(s: GameState, p: Patch, q: Patch)
    ensures Merge(s, NoChange) == s
    ensures Merge(Merge(s, p), p) == Merge(s, p)
    ensures Merge(Merge(s, p), q) == Merge(s, Then(p, q))
  {
    MergeEmpty(s);
    MergeTwice(s, p);
    MergeThen(s, p, q);
  }

  lemma MergeEmpty(s: GameState)
    ensures Merge(s, NoChange) == s
  {
  }

  lemma MergeTwice(s: GameState, p: Patch)
    ensures Merge(Merge(s, p), p) == Merge(s, p)
  {
  }

  lemma MergeThen(s: GameState, p: Patch, q: Patch)
    ensures Merge(Merge(s, p), q) == Merge(s, Then(p, q))
  {
  }

  /** A payload carrying only the notifications replaces only the notifications. */
  lemma MergeNotifications(s: GameState, ns: seq<Notification>)
    ensures Merge(s, NoChange.(notifications := Some(ns))) == s.(notifications := ns)
  {
  }

  // ---------------------------------------------------------------------------
  // The reducer

  /** What `loadSettingsFromStorage()` returned: the stored keys, if any. */
  datatype StoredSettings = StoredSettings(
    soundEffects: Option<bool>,
    haptics: Option<bool>,
    autoAdvance: Option<bool>,
    showTimers: Option<bool>,
    dataSaver: Option<bool>,
    allowSpectators: Option<bool>)

  /** `{ ...base, ...stored }`: every stored key wins, every missing key keeps the base
      value. */
  function WithStored(base: GameSettings, st: StoredSettings): (r: GameSettings)
    ensures st.soundEffects.Some? ==> r.soundEffects == st.soundEffects.value
    ensures st.soundEffects.None? ==> r.soundEffects == base.soundEffects
    ensures st.haptics.Some? ==> r.haptics == st.haptics.value
    ensures st.haptics.None? ==> r.haptics == base.haptics
    ensures st.autoAdvance.Some? ==> r.autoAdvance == st.autoAdvance.value
    ensures st.autoAdvance.None? ==> r.autoAdvance == base.autoAdvance
    ensures st.showTimers.Some? ==> r.showTimers == st.showTimers.value
    ensures st.showTimers.None? ==> r.showTimers == base.showTimers
    ensures st.dataSaver.Some? ==> r.dataSaver == st.dataSaver.value
    ensures st.dataSaver.None? ==> r.dataSaver == base.dataSaver
    ensures st.allowSpectators.Some? ==> r.allowSpectators == st.allowSpectators.value
    ensures st.allowSpectators.None? ==> r.allowSpectators == base.allowSpectators
  {
    GameSettings(
      st.soundEffects.GetOr(base.soundEffects),
      st.haptics.GetOr(base.haptics),
      st.autoAdvance.GetOr(base.autoAdvance),
      st.showTimers.GetOr(base.showTimers),
      st.dataSaver.GetOr(base.dataSaver),
      st.allowSpectators.GetOr(base.allowSpectators))
  }

  datatype Action =
    | UpdateState(payload: Patch)
    | ResetState(stored: StoredSettings)
    | SetEndOfRoundAction(choice: string)

  /** The provider's initial state: initial state, `'continue'`, stored settings on top.
      Only the settings differ from `createInitialState()`; a key that was never stored
      keeps its default. */
  function ProviderInitialState(stored: StoredSettings): (s: GameState)
    ensures s == InitialState().(settings := WithStored(InitialSettings(), stored))
    ensures s.endOfRoundAction == ContinueAction
    ensures s.(settings := InitialSettings()) == InitialState()
    ensures stored.soundEffects.Some? ==> s.settings.soundEffects == stored.soundEffects.value
    ensures stored.soundEffects.None? ==> s.settings.soundEffects
    ensures stored.haptics.Some? ==> s.settings.haptics == stored.haptics.value
    ensures stored.haptics.None? ==> s.settings.haptics
    ensures stored.autoAdvance.Some? ==> s.settings.autoAdvance == stored.autoAdvance.value
    ensures stored.autoAdvance.None? ==> !s.settings.autoAdvance
    ensures stored.showTimers.Some? ==> s.settings.showTimers == stored.showTimers.value
    ensures stored.showTimers.None? ==> s.settings.showTimers
    ensures stored.dataSaver.Some? ==> s.settings.dataSaver == stored.dataSaver.value
    ensures stored.dataSaver.None? ==> !s.settings.dataSaver
    ensures stored.allowSpectators.Some? ==> s.settings.allowSpectators == stored.allowSpectators.value
    ensures stored.allowSpectators.None? ==> s.settings.allowSpectators
  {
    InitialState().(endOfRoundAction := ContinueAction, settings := WithStored(InitialSettings(), stored))
  }

  /** `gameReducer`. */
  function GameReducer(s: GameState, a: Action): (r: GameState)
    ensures a.SetEndOfRoundAction? ==> r == s.(endOfRoundAction := a.choice)
    ensures a.ResetState? ==> r == ProviderInitialState(a.stored)
    ensures a.UpdateState? ==> r == Merge(s, a.payload) && ReplacesSupplied(s, a.payload, r)
  {
    match a
    case UpdateState(p) => MergeReplacesExactlySupplied(s, p, s); Merge(s, p)
    case ResetState(stored) => ProviderInitialState(stored)
    case SetEndOfRoundAction(c) => s.(endOfRoundAction := c)
  }

  /** `RESET_STATE` forgets everything about the prior state; with nothing stored the
      settings are the defaults. */
  lemma ResetForgetsPrior(s1: GameState, s2: GameState, stored: StoredSettings)
    ensures GameReducer(s1, ResetState(stored)) == GameReducer(s2, ResetState(stored))
    ensures GameReducer(s1, ResetState(stored)).endOfRoundAction == ContinueAction
    ensures GameReducer(s1, ResetState(StoredSettings(None, None, None, None, None, None))) == InitialState()
  {
  }

  // ---------------------------------------------------------------------------
  // Effects

  /** A deferred callback scheduled with `setTimeout`. The emote callback closes over
      the emote list of the snapshot the handler ran on. */
  datatype Task = EmoteRemoval(emoteId: string, snapshot: seq<Emote>)

  /** The REST calls of lib/rest.ts, with the arguments the actions pass. */
  datatype RestCall =
    | CreateOrGetPlayer(username: string)
    | QuickJoinRoom(playerId: Option<int>, tier: Option<string>, asSpectator: bool)
    | JoinSpecificRoom(roomKey: string, playerId: Option<int>, asSpectator: bool)
    | LeaveRoomCall(roomId: string, playerId: Option<int>, atRoundEnd: bool)
    | SkipNextCall(roomId: string, playerId: Option<int>)

  /** One side effect, in the order the source performs them. */
  datatype Effect =
    | Update(patch: Patch)
    | Send(msg: Transport.Message)
    | OpenSocket
    | CloseSocket
    | Schedule(delayMs: nat, task: Task)
    | Rest(call: RestCall)
    | SaveSettings(settings: GameSettings)
    | ClearStorage

  /** What an action or handler did: its effects in order, and the message of the
      error it threw, if it threw. */
  datatype Outcome = Outcome(effects: seq<Effect>, thrown: Option<string>)

  /** The ambient inputs of one handler or action run: `Date.now()` (every call in one
      run reads the same instant), the successive results of `generateId()`, and the
      JavaScript rendering of a number inside message text. */
  datatype Env = Env(now: int, ids: nat -> string, numberText: real -> string)

  /** The snapshot's notifications with one more added, its id the `k`-th generated. */
  function Notify(s: GameState, env: Env, k: nat, message: string, kind: Severity): seq<Notification> {
    AddNotification(s.notifications, message, env.ids(k), env.now, kind)
  }

  /** The newest notification of `t` has this text and severity. */
  predicate Posted(t: GameState, message: string, kind: Severity) {
    |t.notifications| > 0
    && t.notifications[|t.notifications| - 1].message == message
    && t.notifications[|t.notifications| - 1].kind == kind
  }

  /** The state after the `updateState` calls among `effs`, in order. */
  function After(s: GameState, effs: seq<Effect>): GameState
    decreases |effs|
  {
    if effs == [] then s
    else
      var s' := if effs[0].Update? then Merge(s, effs[0].patch) else s;
      After(s', effs[1..])
  }

  /** The socket wrapper calls among `effs`, in order. */
  function Calls(effs: seq<Effect>): seq<Transport.Message>
    decreases |effs|
  {
    if effs == [] then []
    else (if effs[0].Send? then [effs[0].msg] else []) + Calls(effs[1..])
  }

  /** The callback a scheduled task runs when its timer fires: a state update. */
  function FireTask(t: Task): Patch {
    match t
    case EmoteRemoval(id, snapshot) => NoChange.(recentEmotes := Some(RemoveEmote(snapshot, id)))
  }

  /** The client: provider state, socket wrapper and what actually went on the wire. */
  datatype World = World(state: GameState, socket: Transport.SocketState, wire: seq<Transport.Message>)

  /** Performs one effect. Socket calls go through `emit`, which drops them when the
      socket is not connected; timers, REST calls and storage writes leave the world
      as it is. */
  function Perform(w: World, e: Effect): World {
    match e
    case Update(p) => w.(state := GameReducer(w.state, UpdateState(p)))
    case Send(m) => w.(wire := w.wire + Transport.Emit(w.socket, m).1)
    case OpenSocket => w.(socket := Transport.Connect(w.socket))
    case CloseSocket => w.(socket := Transport.Disconnect(w.socket))
    case _ => w
  }

  function Run(w: World, effs: seq<Effect>): World
    decreases |effs|
  {
    if effs == [] then w else Run(Perform(w, effs[0]), effs[1..])
  }

  predicate TouchesSocket(e: Effect) {
    e.OpenSocket? || e.CloseSocket?
  }

  /** Running effects yields the merged state; a connected socket sends exactly the
      requested calls and a disconnected one sends none, as long as the effects do not
      themselves open or close the socket. */
  lemma {:induction false} RunMatchesEffects(w: World, effs: seq<Effect>)
    requires forall i :: 0 <= i < |effs| ==> !TouchesSocket(effs[i])
    ensures Run(w, effs).state == After(w.state, effs)
    ensures Run(w, effs).socket == w.socket
    ensures Transport.IsConnected(w.socket) ==> Run(w, effs).wire == w.wire + Calls(effs)
    ensures !Transport.IsConnected(w.socket) ==> Run(w, effs).wire == w.wire
    decreases |effs|
  {
    if effs != [] {
      var e := effs[0];
      var w' := Perform(w, e);
      assert !TouchesSocket(e);
      assert w'.socket == w.socket;
      assert w'.state == if e.Update? then Merge(w.state, e.patch) else w.state;
      var sent := if e.Send? then [e.msg] else [];
      assert Transport.IsConnected(w.socket) ==> w'.wire == w.wire + sent;
      assert !Transport.IsConnected(w.socket) ==> w'.wire == w.wire;
      RunMatchesEffects(w', effs[1..]);
      assert Calls(effs) == sent + Calls(effs[1..]);
      assert w.wire + sent + Calls(effs[1..]) == w.wire + (sent + Calls(effs[1..]));
    }
  }

  /** One step of `After` and `Calls` on a list built by prepending an effect. */
  lemma AfterCons(s: GameState, e: Effect, rest: seq<Effect>)
    ensures After(s, [e] + rest) == After(if e.Update? then Merge(s, e.patch) else s, rest)
    ensures Calls([e] + rest) == (if e.Send? then [e.msg] else []) + Calls(rest)
  {
    assert ([e] + rest)[0] == e && ([e] + rest)[1..] == rest;
  }

  /** A single `updateState(patch)` merges the patch and sends nothing. */
  lemma AfterUpdate(s: GameState, p: Patch)
    ensures After(s, [Update(p)]) == Merge(s, p)
    ensures Calls([Update(p)]) == []
  {
    AfterCons(s, Update(p), []);
  }

  lemma {:induction false} AfterConcat(s: GameState, a: seq<Effect>, b: seq<Effect>)
    ensures After(s, a + b) == After(After(s, a), b)
    decreases |a|
  {
    if a != [] {
      assert (a + b)[0] == a[0] && (a + b)[1..] == a[1..] + b;
      var s' := if a[0].Update? then Merge(s, a[0].patch) else s;
      AfterConcat(s', a[1..], b);
    } else {
      assert a + b == b;
    }
  }

  // ---------------------------------------------------------------------------
  // The provider's own effects

  function Max0(x: int): (r: nat)
    ensures r >= x && (r == 0 || r == x)
  {
    if x < 0 then 0 else x
  }

  /** One tick of the one-second round timer (`updateTimer`). The timer runs only while
      a round with a non-zero deadline exists, and writes only when the value changes. */
  function TimerTick(s: GameState, now: int): (effs: seq<Effect>)
    ensures s.round.None? ==> effs == []
    ensures s.round.Some? && s.round.value.selectionDeadline == 0 ==> effs == []
    ensures s.round.Some? ==>
              var r := After(s, effs).round;
              && r.Some?
              && r.value == s.round.value.(timeLeft := r.value.timeLeft)
              && (s.round.value.selectionDeadline != 0 ==> r.value.timeLeft == Max0(s.round.value.selectionDeadline - now))
    ensures After(s, effs) == s.(round := After(s, effs).round)
  {
    if s.round.None? || s.round.value.selectionDeadline == 0 then []
    else
      var timeLeft := Max0(s.round.value.selectionDeadline - now);
      if timeLeft != s.round.value.timeLeft then
        [Update(NoChange.(round := Some(Some(s.round.value.(timeLeft := timeLeft)))))]
      else []
  }

  /** A timer tick alone never moves the round phase, whatever the clock says. */
  lemma TimerNeverChangesPhase(s: GameState, now: int)
    requires s.round.Some?
    ensures After(s, TimerTick(s, now)).round.value.phase == s.round.value.phase
    ensures Calls(TimerTick(s, now)) == []
  {
  }

  /** The notification sweep, one second after the list last changed. It writes only
      when something expired; either way the list afterwards is exactly the fresh
      notifications in their original order. */
  function NotificationSweep(s: GameState, now: int): (effs: seq<Effect>)
    ensures After(s, effs).notifications == ExpireNotifications(s.notifications, now)
    ensures After(s, effs) == s.(notifications := After(s, effs).notifications)
  {
    var filtered := ExpireNotifications(s.notifications, now);
    if |s.notifications| == 0 then []
    else if |filtered| != |s.notifications| then [Update(NoChange.(notifications := Some(filtered)))]
    else
      FilterSameLength(s.notifications, (n: Notification) => NotificationFresh(n, now));
      []
  }

  /** The emote sweep, likewise with the five-second limit. */
  function EmoteSweep(s: GameState, now: int): (effs: seq<Effect>)
    ensures After(s, effs).recentEmotes == ExpireEmotes(s.recentEmotes, now)
    ensures After(s, effs) == s.(recentEmotes := After(s, effs).recentEmotes)
  {
    var filtered := ExpireEmotes(s.recentEmotes, now);
    if |s.recentEmotes| == 0 then []
    else if |filtered| != |s.recentEmotes| then [Update(NoChange.(recentEmotes := Some(filtered)))]
    else
      FilterSameLength(s.recentEmotes, (e: Emote) => EmoteFresh(e, now));
      []
  }

  /** Sweeping twice at the same instant is sweeping once. */
  lemma SweepIdempotent(s: GameState, now: int)
    ensures var s1 := After(s, NotificationSweep(s, now));
            After(s1, NotificationSweep(s1, now)) == s1
    ensures var s1 := After(s, EmoteSweep(s, now));
            After(s1, EmoteSweep(s1, now)) == s1
  {
    ExpiryOrderedAndIdempotent(s.notifications, s.recentEmotes, now);
  }

  /** On mount: connect unless already connected, flagging `isConnecting` first. */
  function OnMount(connected: bool): (effs: seq<Effect>)
    ensures connected ==> effs == []
    ensures !connected ==> effs == [Update(NoChange.(isConnecting := Some(true))), OpenSocket]
  {
    if !connected then [Update(NoChange.(isConnecting := Some(true))), OpenSocket] else []
  }

  /** `visibilitychange`: reconnect only when the page is visible and the socket is down. */
  function OnVisibilityChange(visible: bool, connected: bool): (effs: seq<Effect>)
    ensures OpenSocket in effs <==> visible && !connected
    ensures visible && !connected ==> effs == OnMount(connected)
    ensures !(visible && !connected) ==> effs == []
  {
    if visible && !connected then [Update(NoChange.(isConnecting := Some(true))), OpenSocket] else []
  }

  /** The auto-join effect: re-announce the player once authenticated, connected and
      with an id. */
  function AutoJoinPlayer(s: GameState, connected: bool): (effs: seq<Effect>)
    ensures Calls(effs) == if s.player.isAuthenticated && connected && s.player.id != ""
                           then [Transport.JoinPlayer(JsText.ParseInt(s.player.id))] else []
    ensures After(s, effs) == s
  {
    if s.player.isAuthenticated && connected && s.player.id != "" then
      [Send(Transport.JoinPlayer(JsText.ParseInt(s.player.id)))]
    else []
  }

  /** However many visibility events arrive while an attempt is in flight, the socket
      wrapper starts at most one connection: once a visible page has asked, a second
      visibility event leaves the socket as it is. */
  lemma ReconnectAtMostOneAttempt(w: World, visible2: bool)
    ensures var w1 := Run(w, OnVisibilityChange(true, Transport.IsConnected(w.socket)));
            Run(w1, OnVisibilityChange(visible2, Transport.IsConnected(w1.socket))).socket == w1.socket
  {
    var w1 := Run(w, OnVisibilityChange(true, Transport.IsConnected(w.socket)));
    if !Transport.IsConnected(w.socket) {
      var effs := OnVisibilityChange(true, false);
      assert effs[1..] == [OpenSocket] && effs[1..][1..] == [];
      assert w1.socket == Transport.Connect(w.socket);
    }
    assert Transport.IsConnected(w1.socket) || w1.socket.isConnecting;
    if visible2 && !Transport.IsConnected(w1.socket) {
      var effs := OnVisibilityChange(true, false);
      assert effs[1..] == [OpenSocket] && effs[1..][1..] == [];
    }
  }

  /** `useGameOperations().canCommit`. */
  predicate CanCommit(s: GameState) {
    !s.commitState.hasCommitted && s.round.Some? && s.round.value.phase == Selecting
  }

  /** `useGameOperations().canReveal`. */
  predicate CanReveal(s: GameState) {
    s.commitState.hasCommitted && !s.commitState.hasRevealed && s.round.Some? && s.round.value.phase == Revealing
  }

  /** The two user prompts are mutually exclusive. */
  lemma CommitAndRevealExclusive(s: GameState)
    ensures !(CanCommit(s) && CanReveal(s))
    ensures CanCommit(s) ==> !s.commitState.hasCommitted
    ensures CanReveal(s) ==> s.commitState.hasCommitted
  {
  }
}

=== FILE: transient.dfy ===
/** Bounded, self-expiring collections: `limitArrayLength` (initialState.ts), the
    notification manager, the emote manager and the age filters the provider applies to
    both lists. `generateId()` and `Date.now()` are parameters (`id`, `now`). */
module Transient {

  import opened Seqs

  /** Both lists keep at most this many entries. */
  const MaxEntries: int := 10
  /** Auto-removal timers fire after this many milliseconds. */
  const AutoRemovalDelayMs: nat := 5000
  /** The provider's sweep drops notifications at least this old (ms). */
  const NotificationMaxAgeMs: int := 10000
  /** The provider's sweep drops emotes at least this old (ms). */
  const EmoteMaxAgeMs: int := 5000

  datatype Severity = Info | Success | Warning | Error

  datatype Notification = Notification(id: string, message: string, kind: Severity, timestamp: int)

  datatype Emote = Emote(id: string, playerId: string, playerName: string, emote: string, timestamp: int)

  /** A pending `setTimeout` that will hand `targetId` to its removal callback. */
  datatype Timer = Timer(delayMs: nat, targetId: string)

  /** `array.slice(-maxLength)`. For a positive bound this is the last `maxLength`
      entries; `slice(-0)` is `slice(0)`, so a zero bound keeps everything; a negative
      bound drops that many entries from the front. */
  function LimitArrayLength<T>(a: seq<T>, maxLength: int): (r: seq<T>)
    ensures maxLength >= 1 && |a| <= maxLength ==> r == a
    ensures maxLength >= 1 && |a| > maxLength ==> |r| == maxLength && r == a[|a| - maxLength..]
    ensures maxLength == 0 ==> r == a
    ensures maxLength < 0 && -maxLength <= |a| ==> r == a[-maxLength..]
    ensures maxLength < 0 && -maxLength > |a| ==> r == []
  {
    var k := -maxLength;
    var start := if k < 0 then (if |a| + k < 0 then 0 else |a| + k)
                 else (if k < |a| then k else |a|);
    a[start..]
  }

  // ---------------------------------------------------------------------------
  // Notifications

  /** `createNotification(message, type = 'info')`. */
  function CreateNotification(message: string, id: string, now: int, kind: Severity := Info): (n: Notification)
    ensures n.message == message && n.kind == kind && n.id == id && n.timestamp == now
  {
    Notification(id, message, kind, now)
  }

  /** `addNotificationToArray`: append the new notification, then keep the last ten. */
  function AddNotification(ns: seq<Notification>, message: string, id: string, now: int, kind: Severity := Info): (r: seq<Notification>)
    ensures |r| == if |ns| + 1 < MaxEntries then |ns| + 1 else MaxEntries
    ensures r[|r| - 1] == Notification(id, message, kind, now)
    ensures r == (ns + [Notification(id, message, kind, now)])[|ns| + 1 - |r|..]
  {
    LimitArrayLength(ns + [CreateNotification(message, id, now, kind)], MaxEntries)
  }

  /** `removeNotificationFromArray`: drop every notification with this id. */
  function RemoveNotification(ns: seq<Notification>, id: string): (r: seq<Notification>)
    ensures forall i :: 0 <= i < |r| ==> r[i].id != id && r[i] in ns
    ensures forall i :: 0 <= i < |ns| && ns[i].id != id ==> ns[i] in r
    ensures forall n :: multiset(r)[n] == if n.id != id then multiset(ns)[n] else 0
    ensures Subseq(r, ns)
    ensures (forall i :: 0 <= i < |ns| ==> ns[i].id != id) ==> r == ns
  {
    FilterCounts(ns, (n: Notification) => n.id != id);
    FilterIsSubseq(ns, (n: Notification) => n.id != id);
    FilterKeepsAll(ns, (n: Notification) => n.id != id);
    Filter(ns, (n: Notification) => n.id != id)
  }

  /** Removing the same id twice is the same as removing it once. */
  lemma RemoveNotificationIdempotent(ns: seq<Notification>, id: string)
    ensures RemoveNotification(RemoveNotification(ns, id), id) == RemoveNotification(ns, id)
  {
    FilterIdempotent(ns, (n: Notification) => n.id != id);
  }

  /** Survivors of a removal keep their relative order. */
  lemma RemoveNotificationKeepsOrder(ns: seq<Notification>, id: string)
    ensures Subseq(RemoveNotification(ns, id), ns)
  {
    FilterIsSubseq(ns, (n: Notification) => n.id != id);
  }

  /** `setupNotificationAutoRemoval(id, cb)` and `setupEmoteAutoRemoval(id, cb)`, which
      differ only in their names: one timer, 5 s, carrying `id`. */
  function SetupAutoRemoval(targetId: string): (t: Timer)
    ensures t.targetId == targetId && t.delayMs == AutoRemovalDelayMs
  {
    Timer(AutoRemovalDelayMs, targetId)
  }

  /** The single callback invocation of a timer whose callback removes a notification. */
  function FireNotificationRemoval(t: Timer, ns: seq<Notification>): seq<Notification> {
    RemoveNotification(ns, t.targetId)
  }

  /** Adding a notification with a fresh id and letting its auto-removal fire gives back
      the list as it was after the cap, minus the new entry; firing again changes nothing. */
  lemma {:induction false} AutoRemovalRemovesAdded(ns: seq<Notification>, message: string, id: string, now: int, kind: Severity)
    requires forall i :: 0 <= i < |ns| ==> ns[i].id != id
    ensures var added := AddNotification(ns, message, id, now, kind);
            var t := SetupAutoRemoval(id);
            var fired := FireNotificationRemoval(t, added);
            && fired == added[..|added| - 1]
            && FireNotificationRemoval(t, fired) == fired
  {
    var added := AddNotification(ns, message, id, now, kind);
    var front := added[..|added| - 1];
    assert added == front + [added[|added| - 1]];
    forall i | 0 <= i < |front| ensures front[i].id != id {
      var j := i + |ns| + 1 - |added|;
      assert front[i] == (ns + [Notification(id, message, kind, now)])[j];
      assert front[i] == ns[j];
    }
    RemoveFreshLast(front, added[|added| - 1], id);
    RemoveNotificationIdempotent(added, id);
  }

  /** Removing the id of a last entry that is the only one carrying it leaves the rest. */
  lemma RemoveFreshLast(front: seq<Notification>, n: Notification, id: string)
    requires forall i :: 0 <= i < |front| ==> front[i].id != id
    requires n.id == id
    ensures RemoveNotification(front + [n], id) == front
  {
    FilterConcat(front, [n], (x: Notification) => x.id != id);
    FilterAll(front, (x: Notification) => x.id != id);
  }

  // ---------------------------------------------------------------------------
  // Emotes

  /** `createEmote(playerId, playerName, emote)`. */
  function CreateEmote(playerId: string, playerName: string, emote: string, id: string, now: int): (e: Emote)
    ensures e.playerId == playerId && e.playerName == playerName && e.emote == emote
    ensures e.id == id && e.timestamp == now
  {
    Emote(id, playerId, playerName, emote, now)
  }

  /** `addEmoteToArray`: append the new emote, then keep the last ten. */
  function AddEmote(es: seq<Emote>, playerId: string, playerName: string, emote: string, id: string, now: int): (r: seq<Emote>)
    ensures |r| == if |es| + 1 < MaxEntries then |es| + 1 else MaxEntries
    ensures r[|r| - 1] == Emote(id, playerId, playerName, emote, now)
    ensures r == (es + [Emote(id, playerId, playerName, emote, now)])[|es| + 1 - |r|..]
  {
    LimitArrayLength(es + [CreateEmote(playerId, playerName, emote, id, now)], MaxEntries)
  }

  /** `emotes.filter(e => e.id !== id)`, the removal the emote callback performs. */
  function RemoveEmote(es: seq<Emote>, id: string): (r: seq<Emote>)
    ensures forall i :: 0 <= i < |r| ==> r[i].id != id && r[i] in es
    ensures forall i :: 0 <= i < |es| && es[i].id != id ==> es[i] in r
    ensures forall e :: multiset(r)[e] == if e.id != id then multiset(es)[e] else 0
    ensures Subseq(r, es)
    ensures (forall i :: 0 <= i < |es| ==> es[i].id != id) ==> r == es
  {
    FilterCounts(es, (e: Emote) => e.id != id);
    FilterIsSubseq(es, (e: Emote) => e.id != id);
    FilterKeepsAll(es, (e: Emote) => e.id != id);
    Filter(es, (e: Emote) => e.id != id)
  }

  /** Both bounded appends keep an order-preserving suffix of `old ++ [new]`. */
  lemma AddKeepsOrder(ns: seq<Notification>, es: seq<Emote>, message: string, kind: Severity,
                      playerId: string, playerName: string, emote: string, id: string, now: int)
    ensures Subseq(AddNotification(ns, message, id, now, kind), ns + [Notification(id, message, kind, now)])
    ensures Subseq(AddEmote(es, playerId, playerName, emote, id, now), es + [Emote(id, playerId, playerName, emote, now)])
  {
    var n := Notification(id, message, kind, now);
    SuffixIsSubseq(ns + [n], |ns| + 1 - |AddNotification(ns, message, id, now, kind)|);
    var e := Emote(id, playerId, playerName, emote, now);
    SuffixIsSubseq(es + [e], |es| + 1 - |AddEmote(es, playerId, playerName, emote, id, now)|);
  }

  // ---------------------------------------------------------------------------
  // Age-based expiry (the provider's one-second sweeps)

  predicate NotificationFresh(n: Notification, now: int) {
    now - n.timestamp < NotificationMaxAgeMs
  }

  predicate EmoteFresh(e: Emote, now: int) {
    now - e.timestamp < EmoteMaxAgeMs
  }

  /** `notifications.filter(n => now - n.timestamp < 10000)`. */
  function ExpireNotifications(ns: seq<Notification>, now: int): (r: seq<Notification>)
    ensures forall i :: 0 <= i < |r| ==> NotificationFresh(r[i], now) && r[i] in ns
    ensures forall i :: 0 <= i < |ns| && NotificationFresh(ns[i], now) ==> ns[i] in r
    ensures forall n :: multiset(r)[n] == if NotificationFresh(n, now) then multiset(ns)[n] else 0
    ensures Subseq(r, ns)
  {
    FilterCounts(ns, (n: Notification) => NotificationFresh(n, now));
    FilterIsSubseq(ns, (n: Notification) => NotificationFresh(n, now));
    Filter(ns, (n: Notification) => NotificationFresh(n, now))
  }

  /** `recentEmotes.filter(e => now - e.timestamp < 5000)`. */
  function ExpireEmotes(es: seq<Emote>, now: int): (r: seq<Emote>)
    ensures forall i :: 0 <= i < |r| ==> EmoteFresh(r[i], now) && r[i] in es
    ensures forall i :: 0 <= i < |es| && EmoteFresh(es[i], now) ==> es[i] in r
    ensures forall e :: multiset(r)[e] == if EmoteFresh(e, now) then multiset(es)[e] else 0
    ensures Subseq(r, es)
  {
    FilterCounts(es, (e: Emote) => EmoteFresh(e, now));
    FilterIsSubseq(es, (e: Emote) => EmoteFresh(e, now));
    Filter(es, (e: Emote) => EmoteFresh(e, now))
  }

  /** The sweeps keep the survivors' order and a second sweep at the same instant is a no-op. */
  lemma ExpiryOrderedAndIdempotent(ns: seq<Notification>, es: seq<Emote>, now: int)
    ensures Subseq(ExpireNotifications(ns, now), ns)
    ensures Subseq(ExpireEmotes(es, now), es)
    ensures ExpireNotifications(ExpireNotifications(ns, now), now) == ExpireNotifications(ns, now)
    ensures ExpireEmotes(ExpireEmotes(es, now), now) == ExpireEmotes(es, now)
  {
    FilterIsSubseq(ns, (n: Notification) => NotificationFresh(n, now));
    FilterIsSubseq(es, (e: Emote) => EmoteFresh(e, now));
    FilterIdempotent(ns, (n: Notification) => NotificationFresh(n, now));
    FilterIdempotent(es, (e: Emote) => EmoteFresh(e, now));
  }
}

=== FILE: transport.dfy ===
/** The transport wrapper of lib/socket.ts (`createGameSocket`): the durable handler
    table, the live registry that the wrapper's own `connect` listener rebuilds, the
    connection flags, the `emit` guard and the typed outbound wrappers. The socket.io
    connection is reduced to "no socket / a socket that is or is not connected" plus the
    set of events for which the wrapper's own listeners are still attached; its events
    arrive as calls to `OnSocketConnect`, `OnSocketDisconnect` and `OnSocketConnectError`. */
module Transport {

  import opened Wrappers
  import opened Seqs

  /** A handler function; JavaScript compares handlers by reference, here by number. */
  type HandlerId = nat

  type HandlerTable = map<string, seq<HandlerId>>

  /** Outbound messages, one per typed wrapper. `JoinPlayer` carries the JavaScript
      number the caller passed (`None` for `NaN`). */
  datatype Message =
    | JoinPlayer(playerId: Option<int>)
    | JoinRoom(roomToken: string, asSpectator: bool)
    | LeaveRoom
    | Commit(hash: string)
    | Reveal(choice: int, nonce: string, roundKey: string)
    | SendEmote(emote: string)
    | SpectatorQueue(wantToJoin: bool)

  /** The event name each wrapper passes to `emit`. */
  function EventName(m: Message): string {
    match m
    case JoinPlayer(_) => "join_player"
    case JoinRoom(_, _) => "join_room"
    case LeaveRoom => "leave_room"
    case Commit(_) => "commit"
    case Reveal(_, _, _) => "reveal"
    case SendEmote(_) => "send_emote"
    case SpectatorQueue(_) => "spectator_queue"
  }

  /** No two wrappers share an event name, so the name alone tells the server which
      payload shape follows. */
  lemma EventNameIdentifiesWrapper(m1: Message, m2: Message)
    ensures EventName(m1) == EventName(m2) <==>
              (m1.JoinPlayer? && m2.JoinPlayer?) || (m1.JoinRoom? && m2.JoinRoom?)
              || (m1.LeaveRoom? && m2.LeaveRoom?) || (m1.Commit? && m2.Commit?)
              || (m1.Reveal? && m2.Reveal?) || (m1.SendEmote? && m2.SendEmote?)
              || (m1.SpectatorQueue? && m2.SpectatorQueue?)
  {
  }

  datatype Link = NoSocket | Live(connected: bool)

  /** The events `connect()` attaches the wrapper's own listeners to. */
  const WrapperEvents: set<string> := {"connect", "disconnect", "connect_error"}

  /** `ownListeners` lists the events whose wrapper listener is still attached to the
      current socket. socket.io's `off(event)` without a handler detaches every listener
      of that event, the wrapper's own included. */
  datatype SocketState = SocketState(
    link: Link,
    isConnecting: bool,
    handlerQueue: HandlerTable,
    registered: HandlerTable,
    ownListeners: set<string>)

  /** `createGameSocket()`: no socket, nothing queued. */
  function NewSocket(): (s: SocketState)
    ensures !IsConnected(s) && !s.isConnecting
    ensures s.handlerQueue == map[] && s.registered == map[] && s.ownListeners == {}
  {
    SocketState(NoSocket, false, map[], map[], {})
  }

  /** `isConnected()`: `socket?.connected ?? false`. */
  predicate IsConnected(s: SocketState) {
    s.link.Live? && s.link.connected
  }

  /** Handlers listed for `e`, an absent entry counting as none. */
  function HandlersOf(t: HandlerTable, e: string): seq<HandlerId> {
    if e in t then t[e] else []
  }

  /** Two tables list the same handlers, in the same order, for every event. */
  ghost predicate SameHandlers(a: HandlerTable, b: HandlerTable) {
    forall e :: HandlersOf(a, e) == HandlersOf(b, e)
  }

  /** `on(event, handler)`: always queued; also registered when connected. */
  function On(s: SocketState, e: string, h: HandlerId): (r: SocketState)
    ensures HandlersOf(r.handlerQueue, e) == HandlersOf(s.handlerQueue, e) + [h]
    ensures forall e' :: e' != e ==> HandlersOf(r.handlerQueue, e') == HandlersOf(s.handlerQueue, e')
    ensures IsConnected(s) ==> HandlersOf(r.registered, e) == HandlersOf(s.registered, e) + [h]
    ensures !IsConnected(s) ==> r.registered == s.registered
    ensures forall e' :: e' != e ==> HandlersOf(r.registered, e') == HandlersOf(s.registered, e')
    ensures r.link == s.link && r.isConnecting == s.isConnecting && r.ownListeners == s.ownListeners
  {
    var q := s.handlerQueue[e := HandlersOf(s.handlerQueue, e) + [h]];
    if IsConnected(s) then
      s.(handlerQueue := q, registered := s.registered[e := HandlersOf(s.registered, e) + [h]])
    else
      s.(handlerQueue := q)
  }

  /** `off(event, handler?)`: with a handler, remove its first occurrence from each
      table that has an entry for the event; without one, delete the event's entries and,
      when there is a socket, detach all of the event's listeners, the wrapper's own
      among them. */
  function Off(s: SocketState, e: string, h: Option<HandlerId>): (r: SocketState)
    ensures h.Some? ==> HandlersOf(r.handlerQueue, e) == RemoveFirst(HandlersOf(s.handlerQueue, e), h.value)
    ensures h.Some? ==> HandlersOf(r.registered, e) == RemoveFirst(HandlersOf(s.registered, e), h.value)
    ensures h.None? ==> e !in r.handlerQueue && e !in r.registered
    ensures forall e' :: e' != e ==> HandlersOf(r.handlerQueue, e') == HandlersOf(s.handlerQueue, e')
    ensures forall e' :: e' != e ==> HandlersOf(r.registered, e') == HandlersOf(s.registered, e')
    ensures h.None? && s.link.Live? ==> r.ownListeners == s.ownListeners - {e}
    ensures h.Some? || s.link.NoSocket? ==> r.ownListeners == s.ownListeners
    ensures r.link == s.link && r.isConnecting == s.isConnecting
  {
    var q := if h.Some? && e in s.handlerQueue then s.handlerQueue[e := RemoveFirst(s.handlerQueue[e], h.value)]
             else if h.None? then s.handlerQueue - {e}
             else s.handlerQueue;
    var g := if h.Some? && e in s.registered then s.registered[e := RemoveFirst(s.registered[e], h.value)]
             else if h.None? then s.registered - {e}
             else s.registered;
    var own := if h.None? && s.link.Live? then s.ownListeners - {e} else s.ownListeners;
    s.(handlerQueue := q, registered := g, ownListeners := own)
  }

  /** `registerQueuedHandlers()`: with a socket, forget the tracked handlers and track
      every queued one; events whose queue is empty get no entry. */
  function RegisterQueuedHandlers(s: SocketState): (r: SocketState)
    ensures s.link.Live? ==> SameHandlers(r.registered, s.handlerQueue)
    ensures s.link.Live? ==> forall e :: e in r.registered ==> r.registered[e] != []
    ensures s.link.NoSocket? ==> r == s
    ensures r.handlerQueue == s.handlerQueue && r.link == s.link && r.isConnecting == s.isConnecting
    ensures r.ownListeners == s.ownListeners
  {
    if s.link.NoSocket? then s
    else s.(registered := map e | e in s.handlerQueue && s.handlerQueue[e] != [] :: s.handlerQueue[e])
  }

  /** `connect()`: a no-op while connected or while an attempt is in flight; otherwise
      a not yet connected socket carrying the wrapper's three listeners, and `isConnecting`. */
  function Connect(s: SocketState): (r: SocketState)
    ensures IsConnected(s) || s.isConnecting ==> r == s
    ensures !IsConnected(s) && !s.isConnecting ==> r.link == Live(false) && r.isConnecting
    ensures !IsConnected(s) && !s.isConnecting ==> r.ownListeners == WrapperEvents
    ensures r.handlerQueue == s.handlerQueue && r.registered == s.registered
  {
    if IsConnected(s) || s.isConnecting then s
    else s.(link := Live(false), isConnecting := true, ownListeners := WrapperEvents)
  }

  /** The socket's `connect` event: the link comes up; if the wrapper's `connect` listener
      is still attached it clears `isConnecting` and rebuilds the live registry from the
      durable queue. Without a socket there is nothing to raise the event. */
  function OnSocketConnect(s: SocketState): (r: SocketState)
    ensures r.handlerQueue == s.handlerQueue && r.ownListeners == s.ownListeners
    ensures s.link.Live? ==> IsConnected(r)
    ensures s.link.Live? && "connect" in s.ownListeners ==>
              !r.isConnecting && SameHandlers(r.registered, r.handlerQueue)
    ensures s.link.Live? && "connect" !in s.ownListeners ==> r == s.(link := Live(true))
    ensures s.link.NoSocket? ==> r == s
  {
    if s.link.NoSocket? then s
    else if "connect" in s.ownListeners then RegisterQueuedHandlers(s.(link := Live(true), isConnecting := false))
    else s.(link := Live(true))
  }

  /** The socket's `disconnect` event: the link drops; the wrapper's `disconnect` listener,
      while attached, clears `isConnecting`. */
  function OnSocketDisconnect(s: SocketState): (r: SocketState)
    ensures !IsConnected(r)
    ensures r.handlerQueue == s.handlerQueue && r.registered == s.registered && r.ownListeners == s.ownListeners
    ensures r.link.Live? <==> s.link.Live?
    ensures s.link.Live? && "disconnect" in s.ownListeners ==> !r.isConnecting
    ensures s.link.Live? && "disconnect" !in s.ownListeners ==> r.isConnecting == s.isConnecting
    ensures s.link.NoSocket? ==> r == s
  {
    if s.link.NoSocket? then s
    else if "disconnect" in s.ownListeners then s.(link := Live(false), isConnecting := false)
    else s.(link := Live(false))
  }

  /** The socket's `connect_error` event: the wrapper's listener (which nothing in the
      program detaches) clears only `isConnecting`. */
  function OnSocketConnectError(s: SocketState): (r: SocketState)
    ensures s.link.Live? && "connect_error" in s.ownListeners ==> !r.isConnecting && r == s.(isConnecting := false)
    ensures s.link.NoSocket? || "connect_error" !in s.ownListeners ==> r == s
  {
    if s.link.Live? && "connect_error" in s.ownListeners then s.(isConnecting := false) else s
  }

  /** `disconnect()`: forget the tracked handlers, drop the socket, keep the queue. */
  function Disconnect(s: SocketState): (r: SocketState)
    ensures r.link == NoSocket && !r.isConnecting && !IsConnected(r)
    ensures r.handlerQueue == s.handlerQueue
    ensures s.link.Live? ==> r.registered == map[] && r.ownListeners == {}
    ensures s.link.NoSocket? ==> r.registered == s.registered && r.ownListeners == s.ownListeners
  {
    if s.link.Live? then SocketState(NoSocket, false, s.handlerQueue, map[], {})
    else s.(isConnecting := false)
  }

  /** `emit(event, data)`: refuses (returns false, sends nothing) unless connected. */
  function Emit(s: SocketState, m: Message): (r: (bool, seq<Message>))
    ensures r.0 <==> IsConnected(s)
    ensures r.0 ==> r.1 == [m]
    ensures !r.0 ==> r.1 == []
  {
    if IsConnected(s) then (true, [m]) else (false, [])
  }

  // ---------------------------------------------------------------------------
  // The registry invariant

  /** While connected, the live registry lists exactly the queued handlers. */
  ghost predicate Synced(s: SocketState) {
    IsConnected(s) ==> SameHandlers(s.registered, s.handlerQueue)
  }

  /** Every operation of the wrapper keeps the live registry equal to the durable queue
      while connected; in particular a reconnect never registers a handler twice. The
      socket's `connect` event keeps it only while the wrapper's `connect` listener is
      attached (`DetachedConnectBreaksSync` shows the other case). */
  lemma SyncedPreserved(s: SocketState, e: string, h: HandlerId, oh: Option<HandlerId>)
    requires Synced(s)
    ensures Synced(On(s, e, h))
    ensures Synced(Off(s, e, oh))
    ensures Synced(Connect(s))
    ensures "connect" in s.ownListeners ==> Synced(OnSocketConnect(s))
    ensures Synced(OnSocketDisconnect(s))
    ensures Synced(OnSocketConnectError(s))
    ensures Synced(Disconnect(s))
  {
    var r := On(s, e, h);
    if IsConnected(r) {
      forall e' ensures HandlersOf(r.registered, e') == HandlersOf(r.handlerQueue, e') {
        assert HandlersOf(s.registered, e') == HandlersOf(s.handlerQueue, e');
      }
    }
    var o := Off(s, e, oh);
    if IsConnected(o) {
      forall e' ensures HandlersOf(o.registered, e') == HandlersOf(o.handlerQueue, e') {
        assert HandlersOf(s.registered, e') == HandlersOf(s.handlerQueue, e');
      }
    }
  }

  /** However the link went down, the next successful connect leaves each event with
      exactly its queued handlers, once each as queued: `connect()` attaches a fresh
      `connect` listener. */
  lemma ReconnectRestoresRegistry(s: SocketState, e: string)
    requires !IsConnected(s) && !s.isConnecting
    ensures var r := OnSocketConnect(Connect(s));
            IsConnected(r) && HandlersOf(r.registered, e) == HandlersOf(s.handlerQueue, e)
  {
  }

  /** socket.io's own reconnection raises `disconnect` and then `connect` on the same
      socket; while the wrapper's `connect` listener is attached, that restores the
      registry as well. */
  lemma AutoReconnectRestoresRegistry(s: SocketState, e: string)
    requires s.link.Live? && "connect" in s.ownListeners
    ensures var r := OnSocketConnect(OnSocketDisconnect(s));
            IsConnected(r) && !r.isConnecting && HandlersOf(r.registered, e) == HandlersOf(s.handlerQueue, e)
  {
  }

  /** `off("connect")` on a live socket also detaches the wrapper's `connect` listener: a
      handler queued afterwards while the link is down is not registered when the link
      comes back. */
  lemma DetachedConnectBreaksSync()
    ensures var s := On(Off(Connect(NewSocket()), "connect", None), "deal", 1);
            var r := OnSocketConnect(s);
            IsConnected(r) && HandlersOf(r.handlerQueue, "deal") == [1] && HandlersOf(r.registered, "deal") == []
            && !Synced(r)
  {
    var s := On(Off(Connect(NewSocket()), "connect", None), "deal", 1);
    var r := OnSocketConnect(s);
    assert HandlersOf(r.registered, "deal") != HandlersOf(r.handlerQueue, "deal");
  }

  /** What can happen to a socket between a `connect_error` and a `disconnect()`: its
      own `connect` and `disconnect` events, and the program's `connect()`, `on` and
      `off` calls. */
  datatype Step =
    | SocketConnect
    | SocketDisconnect
    | CallConnect
    | CallOn(e: string, h: HandlerId)
    | CallOff(e: string, oh: Option<HandlerId>)

  function Apply(s: SocketState, step: Step): SocketState {
    match step
    case SocketConnect => OnSocketConnect(s)
    case SocketDisconnect => OnSocketDisconnect(s)
    case CallConnect => Connect(s)
    case CallOn(e, h) => On(s, e, h)
    case CallOff(e, oh) => Off(s, e, oh)
  }

  /** The state after the steps, in order. */
  function Run(s: SocketState, steps: seq<Step>): SocketState
    decreases |steps|
  {
    if steps == [] then s else Run(Apply(s, steps[0]), steps[1..])
  }

  /** An attempt is marked in flight on a socket whose `connect` and `disconnect`
      listeners are gone: nothing that could clear the mark is listening. */
  predicate Stalled(s: SocketState) {
    s.link.Live? && s.isConnecting && "connect" !in s.ownListeners && "disconnect" !in s.ownListeners
  }

  /** Once stalled, a socket stays stalled through any of its own events and any `on`,
      `off` or `connect()` call, and every such `connect()` is a no-op. Only a
      `connect_error` (while its listener is attached) or `disconnect()` ends the stall
      (`StallEnds`). */
  lemma {:induction false} StallPersists(s: SocketState, steps: seq<Step>)
    requires Stalled(s)
    ensures Stalled(Run(s, steps))
    ensures Connect(Run(s, steps)) == Run(s, steps)
    decreases |steps|
  {
    if steps != [] {
      var next := Apply(s, steps[0]);
      assert Stalled(next) by {
        match steps[0]
        case SocketConnect => assert next == s.(link := Live(true));
        case SocketDisconnect => assert next.isConnecting == s.isConnecting;
        case CallConnect => assert next == s;
        case CallOn(e, h) => assert next.ownListeners == s.ownListeners;
        case CallOff(e, oh) => assert next.ownListeners <= s.ownListeners;
      }
      StallPersists(next, steps[1..]);
    }
  }

  /** The two ways out of a stall: the wrapper's `connect_error` listener clears the
      mark, and `disconnect()` drops the socket, so the next `connect()` starts afresh
      with all three listeners. */
  lemma StallEnds(s: SocketState)
    requires Stalled(s)
    ensures "connect_error" in s.ownListeners ==> !OnSocketConnectError(s).isConnecting
    ensures var r := Connect(Disconnect(s));
            r.link == Live(false) && r.isConnecting && r.ownListeners == WrapperEvents
  {
  }

  /** With both `connect` and `disconnect` listeners detached during an attempt, neither
      event clears `isConnecting`, so `connect()` is a no-op until a `connect_error`
      arrives or `disconnect()` is called. */
  lemma DetachedListenersStall(s: SocketState)
    requires s.link.Live? && s.isConnecting
    ensures var o := Off(Off(s, "connect", None), "disconnect", None);
            var r := OnSocketDisconnect(OnSocketConnect(o));
            r.isConnecting && !IsConnected(r) && Connect(r) == r
    ensures var o := Off(Off(s, "connect", None), "disconnect", None);
            Stalled(o) && forall steps :: Connect(Run(o, steps)) == Run(o, steps)
  {
    var o := Off(Off(s, "connect", None), "disconnect", None);
    forall steps ensures Connect(Run(o, steps)) == Run(o, steps) {
      StallPersists(o, steps);
    }
  }

  /** Detaching by handler reference leaves the wrapper's own listeners attached, so
      after any such `off` and any later `on`, the next `connect` event clears
      `isConnecting` and registers every queued handler. */
  lemma HandlerCleanupKeepsListeners(s: SocketState, e: string, h: HandlerId, e2: string, h2: HandlerId)
    requires s.link.Live? && "connect" in s.ownListeners
    ensures var o := Off(s, e, Some(h));
            var r := OnSocketConnect(On(o, e2, h2));
            o.ownListeners == s.ownListeners && IsConnected(r) && !r.isConnecting && Synced(r)
  {
  }

  /** Connection attempts do not pile up: a second `connect()` before the socket reports
      back changes nothing. */
  lemma ConnectIdempotent(s: SocketState)
    ensures Connect(Connect(s)) == Connect(s)
  {
  }
}

=== FILE: types.dfy ===
/** The client's state records (components/context/types.ts, extended with the fields the
    action layer actually writes) and their initial values (initialState.ts). */
module Types {

  import opened Wrappers
  import opened Transient

  datatype Screen =
    | Login | Home | Lobby | WaitingRoom | RoundSelect | RoundReveal
    | Spectator | Leaderboard | Rewards | Settings

  datatype Player = Player(
    id: string,
    username: string,
    balance: real,
    rating: int,
    wins: int,
    isAuthenticated: bool)

  /** A room as written by `onRoomJoined`, including `minPlayers` and `spectators`. */
  datatype Room = Room(
    id: string,
    tier: string,
    stake: real,
    entryFee: real,
    minPlayers: int,
    maxPlayers: int,
    currentPlayers: int,
    phase: string,
    spectators: int)

  datatype Phase = Waiting | Selecting | Revealing | Complete

  /** A round as written by `onDeal` / `onGameState`. `selectionDeadline` is in epoch
      milliseconds; `selectionDuration` is `null` for the spectator view. */
  datatype Round = Round(
    id: string,
    roundKey: string,
    adjective: string,
    nouns: seq<string>,
    timeLeft: int,
    playersLockedIn: int,
    phase: Phase,
    resultsRevealed: bool,
    selectionDeadline: int,
    selectionDuration: Option<int>)

  /** `choice` is the index into the round's nouns that `commitChoice` stores. */
  datatype CommitState = CommitState(
    hasCommitted: bool,
    hasRevealed: bool,
    choice: Option<int>,
    nonce: Option<string>,
    hash: Option<string>)

  datatype QueueState = QueueState(isInQueue: bool, position: int, estimatedWaitTime: int)

  datatype GameSettings = GameSettings(
    soundEffects: bool,
    haptics: bool,
    autoAdvance: bool,
    showTimers: bool,
    dataSaver: bool,
    allowSpectators: bool)

  /** One row of the results table; `playerCount` is `undefined` past the end of
      `selection_counts`, `percentage` is `None` where JavaScript yields `NaN`. */
  datatype ChoiceTally = ChoiceTally(noun: string, playerCount: Option<int>, percentage: Option<real>)

  datatype GameResults = GameResults(
    roundId: string,
    roundKey: string,
    choices: seq<ChoiceTally>,
    adjective: string,
    nouns: seq<string>,
    selectionCounts: seq<int>,
    yourChoice: int,
    playerChoice: int,
    winnings: real,
    isCorrect: bool)

  /** The provider's state: `GameState` plus `endOfRoundAction` and the untyped keys the
      actions merge in (`prizePool`, `capacity`, `lastTier`, `lastStake`, `stake`), which
      are `undefined` (`None`) until first written. */
  datatype GameState = GameState(
    player: Player,
    currentView: Screen,
    previousView: Option<Screen>,
    room: Option<Room>,
    players: seq<Player>,
    isInRoom: bool,
    round: Option<Round>,
    currentRound: Option<Round>,
    commitState: CommitState,
    results: Option<GameResults>,
    lastChoice: Option<int>,
    notifications: seq<Notification>,
    recentEmotes: seq<Emote>,
    queueState: QueueState,
    settings: GameSettings,
    isLoading: bool,
    isConnecting: bool,
    isRegistering: bool,
    error: Option<string>,
    endOfRoundAction: string,
    prizePool: Option<real>,
    capacity: Option<int>,
    lastTier: Option<string>,
    lastStake: Option<real>,
    stake: Option<real>)

  const ContinueAction: string := "continue"

  function InitialPlayer(): (p: Player)
    ensures !p.isAuthenticated && p.id == "" && p.username == ""
    ensures p.balance == 0.0 && p.rating == 1000 && p.wins == 0
  {
    Player("", "", 0.0, 1000, 0, false)
  }

  function InitialSettings(): (s: GameSettings)
    ensures s.soundEffects && s.haptics && !s.autoAdvance
    ensures s.showTimers && !s.dataSaver && s.allowSpectators
  {
    GameSettings(true, true, false, true, false, true)
  }

  function InitialCommitState(): (c: CommitState)
    ensures !c.hasCommitted && !c.hasRevealed
    ensures c.choice.None? && c.nonce.None? && c.hash.None?
  {
    CommitState(false, false, None, None, None)
  }

  function InitialQueueState(): (q: QueueState)
    ensures !q.isInQueue && q.position == 0 && q.estimatedWaitTime == 0
  {
    QueueState(false, 0, 0)
  }

  /** `createInitialState()`, with the provider's `endOfRoundAction: 'continue'`. */
  function InitialState(): (s: GameState)
    ensures !s.player.isAuthenticated && s.currentView == Login && s.previousView.None?
    ensures s.room.None? && s.round.None? && s.currentRound.None? && s.results.None?
    ensures s.players == [] && s.notifications == [] && s.recentEmotes == [] && !s.isInRoom
    ensures s.commitState == InitialCommitState() && s.queueState == InitialQueueState()
    ensures s.settings == InitialSettings() && s.lastChoice.None? && s.error.None?
    ensures !s.isLoading && !s.isConnecting && !s.isRegistering
    ensures s.endOfRoundAction == ContinueAction
  {
    GameState(
      InitialPlayer(), Login, None,
      None, [], false,
      None, None, InitialCommitState(), None, None,
      [], [], InitialQueueState(), InitialSettings(),
      false, false, false,
      None, ContinueAction,
      None, None, None, None, None)
  }
}

=== FILE: variants.dfy ===
/** `cva(base, config)` of lib/cva.ts: a component's class string is its base classes,
    then the class each truthy variant prop selects, then the class of each default
    variant whose prop was left undefined, all merged with the caller's `className`
    through `cn`. */
module Variants {

  import opened Wrappers
  import opened Seqs
  import opened JsText
  import opened ClassNames

  /** A variant prop as a caller passes it. Numbers are integers here. */
  datatype PropValue = PUndefined | PNull | PBool(b: bool) | PNum(n: int) | PStr(s: string)

  /** `variants?: Record<string, Record<string, string>>` and
      `defaultVariants?: Record<string, string>`, the latter in insertion order.
      A call without a config is `Config(None, None)`. */
  datatype Config = Config(
    variants: Option<map<string, map<string, string>>>,
    defaults: Option<seq<(string, string)>>)

  /** The props object: its `className` (`Undefined` when absent) and its other
      entries in insertion order. */
  datatype Props = Props(className: ClassValue, entries: seq<(string, PropValue)>)

  /** A JavaScript object holds each key once. */
  predicate DistinctKeys(es: seq<(string, PropValue)>) {
    forall i, j :: 0 <= i < j < |es| ==> es[i].0 != es[j].0
  }

  /** The property name a truthy prop value indexes the variant table with; `None` for
      the falsy values `undefined`, `null`, `false`, `0` and `""`. */
  function PropText(v: PropValue): (r: Option<string>)
    ensures r.Some? ==> r.value != ""
  {
    match v
    case PUndefined => None
    case PNull => None
    case PBool(b) => if b then Some("true") else None
    case PNum(n) => if n == 0 then None else Some(DecimalString(n))
    case PStr(s) => if s == "" then None else Some(s)
  }

  /** `variants?.[key]?.[name]` when that is a non-empty (truthy) class string. */
  function Selected(vs: map<string, map<string, string>>, key: string, name: string): (r: Option<string>)
    ensures r.Some? <==> key in vs && name in vs[key] && vs[key][name] != ""
    ensures r.Some? ==> r.value == vs[key][name]
  {
    if key in vs && name in vs[key] && vs[key][name] != "" then Some(vs[key][name]) else None
  }

  /** `variants[key]`: the value of the entry with that key, `None` when there is none. */
  function Lookup(es: seq<(string, PropValue)>, key: string): (r: Option<PropValue>)
    ensures r.None? <==> forall i :: 0 <= i < |es| ==> es[i].0 != key
    ensures r.Some? ==> exists i :: 0 <= i < |es| && es[i] == (key, r.value)
  {
    if es == [] then None
    else if es[0].0 == key then Some(es[0].1)
    else
      var r := Lookup(es[1..], key);
      assert forall i :: 1 <= i < |es| ==> es[i] == es[1..][i - 1];
      r
  }

  /** `variants[key] === undefined`: the key is absent or explicitly undefined. */
  predicate IsUndefined(es: seq<(string, PropValue)>, key: string) {
    Lookup(es, key).None? || Lookup(es, key) == Some(PUndefined)
  }

  function OptList(o: Option<string>): seq<string> {
    if o.Some? then [o.value] else []
  }

  /** The class one prop entry adds in the first loop. */
  function PropClass(vs: map<string, map<string, string>>, e: (string, PropValue)): Option<string> {
    match PropText(e.1)
    case None => None
    case Some(name) => Selected(vs, e.0, name)
  }

  /** The classes the first loop adds, in prop order. */
  function PropClasses(vs: map<string, map<string, string>>, es: seq<(string, PropValue)>): seq<string> {
    if es == [] then [] else OptList(PropClass(vs, es[0])) + PropClasses(vs, es[1..])
  }

  /** The class one default variant adds in the second loop. */
  function DefaultClass(vs: map<string, map<string, string>>, es: seq<(string, PropValue)>, d: (string, string)): Option<string> {
    if IsUndefined(es, d.0) then Selected(vs, d.0, d.1) else None
  }

  /** The classes the second loop adds, in the order of the defaults. */
  function DefaultClasses(vs: map<string, map<string, string>>, ds: seq<(string, string)>, es: seq<(string, PropValue)>): seq<string> {
    if ds == [] then [] else OptList(DefaultClass(vs, es, ds[0])) + DefaultClasses(vs, ds[1..], es)
  }

  /** `classes += ` ${c}`` for each `c` in turn. */
  function Appended(classes: string, cs: seq<string>): string
    decreases |cs|
  {
    if cs == [] then classes else Appended(classes + " " + cs[0], cs[1..])
  }

  /** The string `cva` hands to `cn` before the caller's `className`. */
  function Classes(base: string, config: Config, props: Props): (r: string)
    ensures config.variants.None? ==> r == base
  {
    match config.variants
    case None => base
    case Some(vs) =>
      var fromProps := Appended(base, PropClasses(vs, props.entries));
      match config.defaults
      case None => fromProps
      case Some(ds) => Appended(fromProps, DefaultClasses(vs, ds, props.entries))
  }

  /** The function `cva(base, config)` returns, applied to `props`. */
  function Cva(base: string, config: Config, props: Props): string {
    Cn([Str(Classes(base, config, props)), props.className])
  }

  // ---------------------------------------------------------------------------
  // Properties

  /** Appending one class at a time is joining with single spaces. */
  lemma {:induction false} AppendedIsJoin(classes: string, cs: seq<string>)
    ensures Appended(classes, cs) == Join([classes] + cs)
    decreases |cs|
  {
    if cs != [] {
      AppendedIsJoin(classes + " " + cs[0], cs[1..]);
      assert ([classes] + cs)[1..] == cs;
      assert ([classes + " " + cs[0]] + cs[1..])[1..] == cs[1..];
      if |cs| > 1 {
        assert cs[1..] == ([classes + " " + cs[0]] + cs[1..])[1..];
      }
    }
  }

  /** With a variant table, the classes are the base, then the prop classes, then the
      default classes, separated by single spaces. */
  lemma ClassesLayout(base: string, vs: map<string, map<string, string>>, defaults: Option<seq<(string, string)>>, props: Props)
    ensures var ds := if defaults.Some? then DefaultClasses(vs, defaults.value, props.entries) else [];
            Classes(base, Config(Some(vs), defaults), props)
              == Join([base] + PropClasses(vs, props.entries) + ds)
  {
    var ps := PropClasses(vs, props.entries);
    AppendedIsJoin(base, ps);
    if defaults.Some? {
      var ds := DefaultClasses(vs, defaults.value, props.entries);
      Appended2(base, ps, ds);
      AppendedIsJoin(base, ps + ds);
      assert [base] + (ps + ds) == [base] + ps + ds;
    } else {
      assert [base] + ps + [] == [base] + ps;
    }
  }

  lemma {:induction false} Appended2(base: string, a: seq<string>, b: seq<string>)
    ensures Appended(Appended(base, a), b) == Appended(base, a + b)
    decreases |a|
  {
    if a != [] {
      Appended2(base + " " + a[0], a[1..], b);
      assert (a + b)[0] == a[0] && (a + b)[1..] == a[1..] + b;
    } else {
      assert a + b == b;
    }
  }

  /** A prop adds a class exactly when its value is truthy and the table maps its key
      and value to a non-empty class. */
  lemma {:induction false} PropClassesMembership(vs: map<string, map<string, string>>, es: seq<(string, PropValue)>, c: string)
    ensures c in PropClasses(vs, es) <==> exists i :: 0 <= i < |es| && PropClass(vs, es[i]) == Some(c)
    decreases |es|
  {
    if es != [] {
      PropClassesMembership(vs, es[1..], c);
      if c in PropClasses(vs, es[1..]) {
        var i :| 0 <= i < |es[1..]| && PropClass(vs, es[1..][i]) == Some(c);
        assert es[i + 1] == es[1..][i];
      }
      if exists i :: 0 <= i < |es| && PropClass(vs, es[i]) == Some(c) {
        var i :| 0 <= i < |es| && PropClass(vs, es[i]) == Some(c);
        if i > 0 {
          assert es[1..][i - 1] == es[i];
        }
      }
    }
  }

  /** A prop whose value is falsy adds nothing, wherever it stands. */
  lemma FalsyPropAddsNothing(vs: map<string, map<string, string>>, a: seq<(string, PropValue)>, e: (string, PropValue), b: seq<(string, PropValue)>)
    requires PropText(e.1).None?
    ensures PropClasses(vs, a + [e] + b) == PropClasses(vs, a + b)
  {
    PropClassesConcat(vs, a + [e], b);
    PropClassesConcat(vs, a, [e]);
    PropClassesConcat(vs, a, b);
    assert PropClasses(vs, [e]) == [] by {
      assert [e][1..] == [];
    }
    assert PropClasses(vs, a) + [] == PropClasses(vs, a);
  }

  lemma {:induction false} PropClassesConcat(vs: map<string, map<string, string>>, a: seq<(string, PropValue)>, b: seq<(string, PropValue)>)
    ensures PropClasses(vs, a + b) == PropClasses(vs, a) + PropClasses(vs, b)
    decreases |a|
  {
    if a == [] {
      assert a + b == b;
    } else {
      assert (a + b)[0] == a[0] && (a + b)[1..] == a[1..] + b;
      PropClassesConcat(vs, a[1..], b);
    }
  }

  /** A default adds a class exactly when its prop is undefined (absent or explicitly
      `undefined`, but not `null` or `false`) and the table maps its key and default
      value to a non-empty class. */
  lemma {:induction false} DefaultClassesMembership(vs: map<string, map<string, string>>, ds: seq<(string, string)>, es: seq<(string, PropValue)>, c: string)
    ensures c in DefaultClasses(vs, ds, es) <==>
            exists k :: 0 <= k < |ds| && IsUndefined(es, ds[k].0) && Selected(vs, ds[k].0, ds[k].1) == Some(c)
    decreases |ds|
  {
    if ds != [] {
      DefaultClassesMembership(vs, ds[1..], es, c);
      if c in DefaultClasses(vs, ds[1..], es) {
        var k :| 0 <= k < |ds[1..]| && IsUndefined(es, ds[1..][k].0) && Selected(vs, ds[1..][k].0, ds[1..][k].1) == Some(c);
        assert ds[k + 1] == ds[1..][k];
      }
      if exists k :: 0 <= k < |ds| && IsUndefined(es, ds[k].0) && Selected(vs, ds[k].0, ds[k].1) == Some(c) {
        var k :| 0 <= k < |ds| && IsUndefined(es, ds[k].0) && Selected(vs, ds[k].0, ds[k].1) == Some(c);
        if k > 0 {
          assert ds[1..][k - 1] == ds[k];
        }
      }
    }
  }

  /** Defaults only look at which props are undefined. */
  lemma {:induction false} DefaultClassesAgree(vs: map<string, map<string, string>>, ds: seq<(string, string)>, es1: seq<(string, PropValue)>, es2: seq<(string, PropValue)>)
    requires forall k :: IsUndefined(es1, k) == IsUndefined(es2, k)
    ensures DefaultClasses(vs, ds, es1) == DefaultClasses(vs, ds, es2)
    decreases |ds|
  {
    if ds != [] {
      DefaultClassesAgree(vs, ds[1..], es1, es2);
      assert IsUndefined(es1, ds[0].0) == IsUndefined(es2, ds[0].0);
    }
  }

  lemma {:induction false} LookupConcat(a: seq<(string, PropValue)>, b: seq<(string, PropValue)>, key: string)
    ensures Lookup(a + b, key) == if Lookup(a, key).Some? then Lookup(a, key) else Lookup(b, key)
    decreases |a|
  {
    if a == [] {
      assert a + b == b;
    } else {
      assert (a + b)[0] == a[0] && (a + b)[1..] == a[1..] + b;
      LookupConcat(a[1..], b, key);
    }
  }

  /** Passing a prop as `undefined` is the same as leaving it out. */
  lemma UndefinedPropIsAbsent(base: string, config: Config, className: ClassValue,
                              a: seq<(string, PropValue)>, key: string, b: seq<(string, PropValue)>)
    requires DistinctKeys(a + [(key, PUndefined)] + b)
    ensures Cva(base, config, Props(className, a + [(key, PUndefined)] + b))
            == Cva(base, config, Props(className, a + b))
  {
    var e := (key, PUndefined);
    var es1 := a + [e] + b;
    var es2 := a + b;
    if config.variants.Some? {
      var vs := config.variants.value;
      FalsyPropAddsNothing(vs, a, e, b);
      forall k ensures IsUndefined(es1, k) == IsUndefined(es2, k) {
        LookupConcat(a + [e], b, k);
        LookupConcat(a, [e], k);
        LookupConcat(a, b, k);
        assert Lookup([e], k) == if k == key then Some(PUndefined) else None by {
          assert [e][1..] == [];
        }
        if k == key {
          assert Lookup(a, k).None? by {
            forall i | 0 <= i < |a| ensures a[i].0 != k {
              assert es1[i] == a[i] && es1[|a|] == e;
            }
          }
          assert Lookup(b, k).None? by {
            forall i | 0 <= i < |b| ensures b[i].0 != k {
              assert es1[|a| + 1 + i] == b[i] && es1[|a|] == e;
            }
          }
        }
      }
      if config.defaults.Some? {
        DefaultClassesAgree(vs, config.defaults.value, es1, es2);
      }
    }
  }

  /** Without a variant table, `cva` is `cn(base, className)`. */
  lemma WithoutVariants(base: string, config: Config, props: Props)
    requires config.variants.None?
    ensures Cva(base, config, props) == Cn([Str(base), props.className])
  {
  }

  /** The caller's `className` has the last word: its tokens come last, and a token of
      the component's own classes that it repeats keeps only its `className` place. */
  lemma ClassNameWins(base: string, config: Config, props: Props)
    requires Classes(base, config, props) != "" && Clsx([props.className]) != ""
    ensures var c := Clsx([props.className]);
            Cva(base, config, props)
              == Join(Without(Tokens(Classes(base, config, props)), Split(c)) + Tokens(c))
  {
    CnLaterWins(Classes(base, config, props), props.className);
  }

  /** Without a `className`, `cva` only de-duplicates its own classes. */
  lemma WithoutClassName(base: string, config: Config, entries: seq<(string, PropValue)>)
    ensures Cva(base, config, Props(Undefined, entries)) == TwMerge(Classes(base, config, Props(Undefined, entries)))
  {
    var x := Classes(base, config, Props(Undefined, entries));
    ClsxSkips([Str(x)], Undefined, []);
    assert [Str(x)] + [Undefined] + [] == [Str(x), Undefined];
    assert [Str(x)] + [] == [Str(x)];
    assert [Str(x)][1..] == [];
    assert AllPieces([Str(x)]) == Pieces(Str(x));
  }
}

=== FILE: wrappers.dfy ===
/** Failure-compatible wrappers shared by every module of the model.
    `Option` stands for a JavaScript value that may be `null`/`undefined`. */
module Wrappers {

  datatype Option<+T> = None | Some(value: T) {

    /** The wrapped value, or `default` when absent (JavaScript's `x ?? default`). */
    function GetOr(default: T): T {
      match this
      case Some(v) => v
      case None => default
    }
  }
}
